=== FILE: README.md ===
# Shadowing player — a Dafny model

The application is a listen-and-repeat ("shadowing") language trainer. It
plays a phrase several times with a pause between repetitions, then moves on
to the next phrase. This project models its decision logic as pure Dafny
functions and proves properties about them:

- **`Player`, `PlayerInvariant`, `PlayerProofs`** — the shadowing playback
  controller as a transition function `Step(props, state, event)`. It
  returns the new state and the effects it caused (speech started, speech
  stopped, completion, hand-over to the next phrase, fullscreen on or off).
  The React state and the refs are fields of one `State`. Interval callbacks
  become `Tick` events. The settlement of a pending `speak` promise becomes
  `SpeechDone` or `SpeechFailed`. The buttons become `Start`, `Pause`,
  `Resume` and `Reset`. A change of the selected phrase is `PhraseChanged`;
  a remount is `Remount`.
- **`Tts`** — the speech adapter: engine routing and its last-error memory,
  how a browser utterance settles, `stop`, the gender heuristics, the voice
  score and the voice-selection cascade. Engine outcomes and installed
  voices are parameters.
- **`SplitPhrases`** — `splitPhrases`, which splits pasted text into
  phrases. The text is a sequence of pieces: a character, a protected
  span, or the decimal-point placeholder. `SplitPhrases` is the splitter
  as the application runs it; `SplitPhrasesCorrected` uses the lookahead
  decimal pass (see Findings).
- **`App`** — adding pasted text as uploaded phrases, toggling a
  favourite, and next/previous navigation.
- **`TextPasteForm`** — the phrase counter and the submit guard.
- **`Translation`** — translation lookup order (cache, static table,
  translator) and its caching.
- **`PhraseList`** — the derived lists, the batched translation refresh,
  and which translation a row shows.
- **`UrlMapping`** — slugs to categories and back.
- **`PhraseScanner`** — the phrase extraction shared by the three
  translation scripts:
  - the `phrases = [...]` blocks;
  - the quoted-string scanner;
  - cleaning and de-duplication;
  - the escaping the generator writes.
- **`TranslationRetry`** — the scripts' network side:
  - language codes;
  - LibreTranslate instance rotation;
  - reading the JSON answers;
  - the bounded retries.
- **`Types`** and **`JsText`** — shared types and the string built-ins
  used (`trim`, `includes`, `toLowerCase`, literal `replace`, `split`).

The three scripts' `extractPhrases` functions are the same code:

- scripts/generate-translations.js:57-112;
- scripts/generate-translations-libre.js:68-123;
- scripts/generate-translations-google.js:48-103.

So are their generators:

- scripts/generate-translations.js:228-241;
- scripts/generate-translations-libre.js:261-274;
- scripts/generate-translations-google.js:244-257.

The table cites the first script's lines for the scanner and the generator.

The settings bounds are preconditions of every player property: 1 to 10
repetitions and 2 to 30 seconds between them. They come from the settings
sliders (src/components/SettingsPage.tsx:83-84, 113-114).

## Model

| member | source | states |
|---|---|---|
| Player.Step | src/components/ShadowingPlayer.tsx:85-476 | The controller: each event goes to its handler below; an event whose button is hidden, or a settlement or tick with nothing pending, does nothing. StepPreservesInv and ButtonsMatchEvents state its properties. |
| Player.StartSession | src/components/ShadowingPlayer.tsx:166-181 | `startSession`: clears the pause tracking, shows counter 1 and fullscreen, and speaks repetition 0. StartSpeaks states it. |
| Player.AfterSpeech | src/components/ShadowingPlayer.tsx:204-263 | The continuation after speech: nothing when paused or stopped, else a countdown to the next repetition or the final countdown. SpeechDoneStartsCountdown states it. |
| Player.TickTimer | src/components/ShadowingPlayer.tsx:224-242 | One interval tick: cleared when interrupted, counts down, or fires. TicksCountDown, TicksFire and CountdownEnds state it. |
| Player.PauseSession | src/components/ShadowingPlayer.tsx:316-354 | `pauseSession`. PauseStops states what it records. |
| Player.ResumeSession | src/components/ShadowingPlayer.tsx:356-458 | `resumeSession`. ResumeCountdownFidelity, ResumeFinalCountdown and PauseResumeDuringSpeech state it. |
| Player.ResetSession | src/components/ShadowingPlayer.tsx:460-476 | `resetSession`. ResetQuiets states it. |
| Player.PhraseEffect | src/components/ShadowingPlayer.tsx:85-164 | The phrase-id effect: first run, auto-advance, or manual change. RemountAutoStarts, AutoAdvanceKeepsFullscreen and ManualPhraseChangeResets state it. |
| Player.SpeakStep | src/components/ShadowingPlayer.tsx:183-202 | When the playing ref is off, or the repetition is past the last, the session stops: not playing, countdown cleared, view closed, `onComplete` called. Otherwise the counter shows r+1 and exactly repetition r is spoken. |
| PlayerInvariant.SpeakStepKeepsInv | src/components/ShadowingPlayer.tsx:183-202 | Both branches of the speak step keep the invariant and speak only configured repetitions. |
| PlayerInvariant.AfterSpeechKeepsInv | src/components/ShadowingPlayer.tsx:204-298 | The continuation after speech keeps the invariant in all three cases: it was interrupted, a countdown to the next repetition starts, or the final countdown starts. |
| PlayerInvariant.SpeechFailureKeepsInv | src/components/ShadowingPlayer.tsx:299-313 | The failure handler keeps the invariant, whether or not the session is paused. |
| PlayerInvariant.EndOfItemKeepsInv | src/components/ShadowingPlayer.tsx:266-296 | The end of the final countdown keeps the invariant, both when handing over and when completing. |
| PlayerInvariant.FireResumedKeepsInv | src/components/ShadowingPlayer.tsx:372-441 | The end of a resumed countdown keeps the invariant in each of its four branches. |
| PlayerInvariant.TickTimerKeepsInv | src/components/ShadowingPlayer.tsx:224-242 | A tick keeps the invariant in all three cases: an interrupted interval is cleared, a running one counts down, or the last tick fires. |
| PlayerInvariant.StartSessionKeepsInv | src/components/ShadowingPlayer.tsx:166-181 | Starting keeps the invariant. |
| PlayerInvariant.PauseDuringSpeechKeepsInv | src/components/ShadowingPlayer.tsx:316-334 | A pause with no countdown shown keeps the invariant; the recorded repetition is in range. |
| PlayerInvariant.PauseDuringCountdownKeepsInv | src/components/ShadowingPlayer.tsx:335-354 | A pause during a countdown keeps the invariant; the recorded repetition is in range. |
| PlayerInvariant.ResumeCountdownKeepsInv | src/components/ShadowingPlayer.tsx:356-372 | Resuming a countdown keeps the invariant. |
| PlayerInvariant.ResumeSpeechKeepsInv | src/components/ShadowingPlayer.tsx:442-458 | Resuming after a pause during speech keeps the invariant. |
| PlayerInvariant.ResetSessionKeepsInv | src/components/ShadowingPlayer.tsx:460-476 | Reset keeps the invariant. |
| PlayerInvariant.PhraseEffectKeepsInv | src/components/ShadowingPlayer.tsx:85-164 | The phrase-id effect keeps the invariant on the first run, on an auto-advance, and on a manual change. |
| PlayerInvariant.StepPreservesInv | src/components/ShadowingPlayer.tsx:85-476 | Every event keeps the invariant: counters within 0..N, recorded repetitions below N, and no interval while paused. It also speaks only repetitions 0..N-1. |
| PlayerInvariant.RunPreservesInv | src/components/ShadowingPlayer.tsx:85-476 | The same holds for any sequence of events. |
| PlayerProofs.TicksCountDown | src/components/ShadowingPlayer.tsx:224-233 | With the guard satisfied, each tick before the last only lowers the displayed seconds by one. There are no effects. |
| PlayerProofs.TicksFire | src/components/ShadowingPlayer.tsx:224-242 | A countdown showing c needs exactly c ticks to fire. |
| PlayerProofs.SpeechDoneStartsCountdown | src/components/ShadowingPlayer.tsx:204-258 | After repetition r completes, a countdown starts at the configured interval and r is recorded as the last completed repetition. Its target is repetition r+1 when r+1 < N, else the final countdown. The playing, paused and fullscreen flags are unchanged. |
| PlayerProofs.CountdownEnds | src/components/ShadowingPlayer.tsx:234-296 | The last tick speaks exactly the target repetition, or ends the phrase: hand-over when a next phrase and a callback exist, otherwise close and complete. |
| PlayerProofs.CycleStep | src/components/ShadowingPlayer.tsx:204-297 | One speech completion plus a full countdown leads from repetition r to r+1, or to the end. |
| PlayerProofs.SessionFrom | src/components/ShadowingPlayer.tsx:183-297 | From repetition r, the remaining cycles speak r+1 … N-1 in order and then end the phrase. |
| PlayerProofs.UninterruptedSession | src/components/ShadowingPlayer.tsx:166-297 | An uninterrupted session opens the view, speaks 0 … N-1 once each in order, then hands over or completes. |
| PlayerProofs.StartSpeaks | src/components/ShadowingPlayer.tsx:166-200 | Starting from rest opens the view and speaks repetition 0. |
| PlayerProofs.ThreeRepetitionSession | src/components/ShadowingPlayer.tsx:166-297 | A worked case: 3 repetitions 2 s apart on the last phrase give fullscreen on, speak 0, 1, 2, fullscreen off, complete. |
| PlayerProofs.InterruptedTickIsInert | src/components/ShadowingPlayer.tsx:224-230 | A tick while paused or stopped clears the interval without decrementing and does nothing else. |
| PlayerProofs.InterruptedSpeechIsInert | src/components/ShadowingPlayer.tsx:204-208 | A speech completion while paused or stopped starts no countdown and records no completed repetition. |
| PlayerProofs.PauseStops | src/components/ShadowingPlayer.tsx:316-354 | Pause sets the paused flags, clears the playing ref and stops speech and the interval; the countdown shown and the fullscreen view stay. With no countdown shown it records the repetition being spoken (counter minus one) as paused during speech. During a countdown it records the last completed repetition (counter minus one if none) and the seconds left. |
| PlayerProofs.PauseIdempotent | src/components/ShadowingPlayer.tsx:316-354 | A second pause changes nothing. |
| PlayerProofs.PauseResumeDuringSpeech | src/components/ShadowingPlayer.tsx:316-458 | Pausing during repetition r and resuming speaks r again, exactly once, after stopping speech. |
| PlayerProofs.ResumeCountdownFidelity | src/components/ShadowingPlayer.tsx:356-441 | Resuming a countdown paused at c continues from exactly c: after j < c ticks it shows c-j. The c-th tick speaks the repetition after the one recorded. |
| PlayerProofs.ResumeFinalCountdown | src/components/ShadowingPlayer.tsx:381-416 | Resuming a paused final countdown ends the phrase as an uninterrupted one would. |
| PlayerProofs.PauseResumeDuringCountdown | src/components/ShadowingPlayer.tsx:316-441 | Pausing the countdown after repetition r with c seconds left, resuming, and letting c ticks pass stops speech once and then speaks exactly r+1. |
| PlayerProofs.ResumedSpeaks | src/components/ShadowingPlayer.tsx:372-429 | After a resumed countdown runs out, repetition pr+1 is the one being spoken. |
| PlayerProofs.PauseAfterRepetition | src/components/ShadowingPlayer.tsx:204-441 | Speech of r ends, j seconds pass, the user pauses and resumes: the rest of the countdown speaks r+1, and nothing else is spoken. |
| PlayerProofs.ResetQuiets | src/components/ShadowingPlayer.tsx:460-476 | Reset stops speech, clears the countdown, zeroes the counter and closes the view. |
| PlayerProofs.QuietStaysQuiet | src/components/ShadowingPlayer.tsx:460-476 | After a reset, pending ticks and speech settlements cause no speech, completion or hand-over. |
| PlayerProofs.AutoAdvanceKeepsFullscreen | src/components/ShadowingPlayer.tsx:273-287 | The final countdown with a next phrase sets the auto-start flag before `onNextPhrase`. It neither completes nor closes. The phrase change that follows starts repetition 0 in fullscreen and clears the flag (lines 124-145). |
| PlayerProofs.RemountAutoStarts | src/components/ShadowingPlayer.tsx:85-117 | A remount with the stored auto-start flag starts playback of the new phrase by itself. |
| PlayerProofs.ManualPhraseChangeResets | src/components/ShadowingPlayer.tsx:124-162 | A phrase change without the flag stops the session: not playing, not paused, the playing ref and the timer cleared. The counter goes to 0, the countdown is cleared, the view closes and speech stops. The pause refs (`isPausedRef`, the paused repetition and paused countdown) and the last completed repetition are not cleared. The same id again is ignored. |
| PlayerProofs.ButtonsMatchEvents | src/components/ShadowingPlayer.tsx:548-644 | Start, Pause, Resume and Reset each change something exactly when their button is shown. Start then plays with counter 1; Pause pauses while the session stays playing; Resume leaves the paused state; Reset leaves playing and paused. |
| Tts.FemaleNameIsAlsoMale | src/utils/tts.ts:37-53 | A name containing "female" reads as both female and male. |
| Tts.ScoreVoice | src/utils/tts.ts:55-87 | The score lies in -75..90. |
| Tts.GenderDominates | src/utils/tts.ts:55-87 | A voice of the asked gender always outscores one that reads only as the other gender. |
| Tts.FindFirst | src/utils/tts.ts:145-168 | `find` returns a voice of the list that passes, and nothing exactly when none passes. |
| Tts.FindFirstAt | src/utils/tts.ts:145-168 | `find` returns the first voice in list order that passes. |
| Tts.PreferredStage | src/utils/tts.ts:116-141 | The preferred-name stage returns a voice accepted for some preferred name, and nothing only when no name accepts any voice. Which voice it returns is fixed by PreferredStageInOrder. |
| Tts.PreferredStageInOrder | src/utils/tts.ts:121-140 | Names are tried in list order. If no installed voice is accepted for the names before the i-th, the stage returns the first voice in list order accepted for the i-th name. |
| Tts.BestScored | src/utils/tts.ts:205-211 | The last stage returns an English voice of maximal score, and nothing exactly when no voice is English. |
| Tts.BestScoredIsFirst | src/utils/tts.ts:205-211 | Ties go to the earlier voice: every English voice before the chosen one scores strictly less. |
| Tts.FindVoice | src/utils/tts.ts:89-214 | `findVoice` returns an installed voice. A preferred-name match always wins. Each later stage decides only when every earlier stage accepts no installed voice, and then returns a voice it accepts; the score fallback comes last. The voice chosen within a stage is fixed by the four InOrder lemmas. |
| Tts.FindVoicePreferredInOrder | src/utils/tts.ts:116-140 | `findVoice` returns the first voice in list order accepted for the first preferred name that any installed voice matches. |
| Tts.FindVoiceSecondInOrder | src/utils/tts.ts:145-168 | With no preferred match, `findVoice` returns the first voice in list order that has the accent and the gender. |
| Tts.FindVoiceThirdInOrder | src/utils/tts.ts:173-189 | When neither earlier stage matches and the setting is not a Canadian male, `findVoice` returns the first voice in list order with the accent and a tolerated gender. |
| Tts.FindVoiceFourthInOrder | src/utils/tts.ts:193-203 | When no earlier stage matches and the setting is not a Canadian male, `findVoice` returns the first English voice in list order with a tolerated gender. |
| Tts.FindVoiceNone | src/utils/tts.ts:89-214 | Nothing is found exactly when every stage fails. The third and fourth stages are skipped for a Canadian male voice. |
| Tts.MaleSettingsAvoidFemale | src/utils/tts.ts:155-211 | For a male setting past the preferred names, a female-reading voice comes only from the score fallback. That needs no male-only voice of the accent, and outside Canada only female-reading English voices. |
| Tts.CanadianMaleMayGetFemaleVoice | src/utils/tts.ts:170-211 | The score fallback has no gender filter: a Canadian male setting with only a female English voice gets that voice. |
| Tts.RateTenths | src/utils/tts.ts:287-293 | Slow is below 1.0, normal is 1.0, fast is above. |
| Tts.PitchHundredths | src/utils/tts.ts:294-299 | The pitch is lowered exactly for male settings, and further for a Canadian male one. |
| Tts.SpeakBrowser | src/utils/tts.ts:265-340 | Records the browser engine and clears the error unless told to keep it. Resolves at once without synthesis support. Otherwise speaks with the found voice, rate and pitch, and rejects only on an error while speaking and not cancelled. |
| Tts.SpeakElevenLabs | src/utils/tts.ts:344-354 | The network voice played: it is recorded as the engine and the error is cleared, with no browser speech. It failed: its message becomes the last error and the browser is tried once as provider `browser`. |
| Tts.Speak | src/utils/tts.ts:342-360 | The network voice is tried exactly when chosen and configured. Chosen but not configured: the browser speaks and "ElevenLabs not configured" stays the last error. Another provider: the browser speaks and the error is cleared. |
| Tts.SpeakAsWritten | src/utils/tts.ts:342-360 | As written, the same routing, but every browser-only path ends with the error cleared, the not-configured one included. |
| Tts.SpeakRouting | src/utils/tts.ts:342-360 | ElevenLabs is tried exactly when chosen and configured. On failure the browser is tried once, as provider `browser`, keeping the failure message as last error. Success clears the error and nothing else is spoken. |
| Tts.NotConfiguredIsReported | src/utils/tts.ts:356-359 | ElevenLabs chosen but not configured: the browser speaks, and "ElevenLabs not configured" stays as the last error. |
| Tts.NotConfiguredMessageLost | src/utils/tts.ts:356-359 | As written, the browser call clears that message (line 268) before `speak` returns. |
| Tts.SpeakAgreesElsewhere | src/utils/tts.ts:342-360 | Outside the unconfigured path, the corrected and the as-written `speak` are identical. |
| Tts.SpeakRejectsOnlyOnLiveUtteranceError | src/utils/tts.ts:310-318 | `speak` rejects only when the browser's utterance fails while still speaking and not cancelled; a network failure alone never rejects. |
| Tts.UnavailableIsSilent | src/utils/tts.ts:387-392 | Speech is unavailable exactly when `speak` resolves silently without trying the network voice and without synthesis support. |
| Tts.Stop | src/utils/tts.ts:362-373 | `stop` clears both handles. It aborts exactly a pending request, pauses exactly playing audio, and cancels exactly when a synthesiser exists. |
| Tts.StopIdempotent | src/utils/tts.ts:362-373 | A second stop finds nothing in flight and only cancels the synthesiser again. |
| SplitPhrases.UrlLen | src/App.tsx:269 | A URL starts with `http://` or `https://` and runs to the next whitespace. |
| SplitPhrases.ProtectUrls | src/App.tsx:269 | Each URL, left to right, becomes one protected span. UrlsKeepText, UrlPiecesAreUrls, UrlsSplitAtSpace and UrlBecomesShield state it. |
| SplitPhrases.UrlsKeepText | src/App.tsx:269 | Protecting URLs changes no text, and every protected span is non-empty and whitespace-free. |
| SplitPhrases.UrlPiecesAreUrls | src/App.tsx:269 | Every span the URL pass protects is a whole match: a scheme, then everything up to the next whitespace or the end. |
| SplitPhrases.UrlsSplitAtSpace | src/App.tsx:269 | Cut the text right after whitespace: protecting the whole gives the two parts' results one after the other, so no match reaches back over whitespace. |
| SplitPhrases.UrlBecomesShield | src/App.tsx:269 | A URL opening a word (at the start or after whitespace) becomes one protected span holding exactly that URL, whatever comes before it. |
| SplitPhrases.TldEnd | src/App.tsx:271 | A top-level domain is a dot and at least two letters, taken as far as the letters go. |
| SplitPhrases.LastTld | src/App.tsx:271 | The domain gives characters back to the last dot that a top-level domain follows. |
| SplitPhrases.EmailEnd | src/App.tsx:271 | An e-mail match covers only plain, non-whitespace characters. |
| SplitPhrases.EmailsKeepText | src/App.tsx:271 | Protecting e-mail addresses changes no text. |
| SplitPhrases.EmailsKeepShields | src/App.tsx:271 | Protected e-mail spans are well formed. |
| SplitPhrases.EmailBecomesShield | src/App.tsx:271 | An e-mail match opening a word becomes one protected span holding exactly the match, whatever the scan met before it. |
| SplitPhrases.EmailsKeepPlaceholders | src/App.tsx:271 | The e-mail pass keeps every protected span and decimal placeholder already in place. |
| SplitPhrases.ProtectDecimals | src/App.tsx:273 | The decimal pass keeps the number of pieces. |
| SplitPhrases.DecimalsKeepText | src/App.tsx:273 | The decimal placeholder reads back as the dot, so no text changes, for both variants of the pattern. |
| SplitPhrases.DecimalsKeepShields | src/App.tsx:273 | The decimal pass creates no protected span. |
| SplitPhrases.LookaheadProtectsDecimals | src/App.tsx:273 | With the corrected pattern, no dot between two digits is left for the break pass. |
| SplitPhrases.AsWrittenLeavesBareDecimal | src/App.tsx:273 | As written, in `1.2.3` the second dot stays bare between two digits. |
| SplitPhrases.DecimalsKeepPlaceholders | src/App.tsx:273 | The decimal pass, either variant, keeps every protected span already in place. |
| SplitPhrases.AbbreviationKeepsText | src/App.tsx:276-279 | Protecting one abbreviation changes no text. |
| SplitPhrases.AbbreviationKeepsShields | src/App.tsx:276-279 | A non-empty whitespace-free abbreviation keeps the protected spans well formed. |
| SplitPhrases.AbbreviationsKeepText | src/App.tsx:276-279 | The whole abbreviation pass changes no text and keeps the spans well formed. |
| SplitPhrases.AbbreviationsSolid | src/App.tsx:261-265 | Every listed abbreviation is non-empty and whitespace-free. |
| SplitPhrases.AbbreviationBecomesShield | src/App.tsx:276-279 | An abbreviation at a word boundary becomes one protected span, unless an earlier occurrence at a boundary overlaps it. |
| SplitPhrases.AbbreviationKeepsPlaceholders | src/App.tsx:276-279 | One abbreviation pass keeps every protected span and decimal placeholder already in place. |
| SplitPhrases.AbbreviationsKeepPlaceholders | src/App.tsx:276-279 | So does the whole list of abbreviation passes. |
| SplitPhrases.AbbreviationPassesSplit | src/App.tsx:276-279 | The passes run in list order: pass t works on the output of the passes before it, and the later passes work on its output. |
| SplitPhrases.AbbreviationKeepsNoBareDecimal | src/App.tsx:276-279 | An abbreviation pass creates no bare dot between two digits. |
| SplitPhrases.AbbreviationsKeepNoBareDecimal | src/App.tsx:276-279 | Nor does the whole list of passes. |
| SplitPhrases.BreakKeepsText | src/App.tsx:281 | The break pass only adds line breaks and drops whitespace. |
| SplitPhrases.BreakMarksTerminators | src/App.tsx:281 | After the break pass, every terminator (`.`, `;`, U+037E, `?`, `!`) outside a protected span is followed by a line break. |
| SplitPhrases.PartsAreLines | src/App.tsx:284 | Each part cut at the line breaks has no line break, and a terminator only at its end. |
| SplitPhrases.BreakKeepsRun | src/App.tsx:281 | A run of pieces with a non-space first piece and no terminator before its last piece stays contiguous through the break pass. |
| SplitPhrases.SplitKeepsRun | src/App.tsx:284 | Cutting at a separator keeps a run without the separator inside one part. |
| SplitPhrases.TrimKeepsRun | src/App.tsx:285 | Trimming never cuts into a run that starts and ends on a non-space. |
| SplitPhrases.CleanKeepsRun | src/App.tsx:285-286 | A line holding such a run survives the blank-line filter with the run intact. |
| SplitPhrases.TrimPieces | src/App.tsx:285 | A trimmed line neither starts nor ends with whitespace. |
| SplitPhrases.CleanLines | src/App.tsx:285-286 | Every kept line is trimmed and non-empty. |
| SplitPhrases.CleanKeepsText | src/App.tsx:285-286 | Trimming and dropping blank lines loses no non-whitespace character. |
| SplitPhrases.CleanKeepsLines | src/App.tsx:285-286 | Trimming keeps each line's shape. |
| SplitPhrases.JoinKeepsText | src/App.tsx:284 | Cutting at line breaks loses no non-whitespace character. |
| SplitPhrases.Restore | src/App.tsx:287-290 | Restoring gives one string per line. |
| SplitPhrases.ProtectKeepsText | src/App.tsx:252-279 | All protection passes together leave the CRLF-normalised text unchanged, with well-formed spans. |
| SplitPhrases.SplitPhrasesKeepText | src/App.tsx:251-294 | The phrases end to end hold exactly the text's non-whitespace characters, in order. |
| SplitPhrases.PhraseLinesOk | src/App.tsx:267-286 | Every line before restoration is well formed. |
| SplitPhrases.TerminatorsEndPhrases | src/App.tsx:281-286 | An unprotected terminator is always the last piece of its phrase. |
| SplitPhrases.RestoredLines | src/App.tsx:287-290 | Restored lines are non-empty, trimmed and single-line. |
| SplitPhrases.PhrasesAreTrimmedLines | src/App.tsx:283-290 | Every returned phrase is non-empty, trimmed and single-line. |
| SplitPhrases.NoPhrasesIffBlank | src/App.tsx:251-294 | The text yields no phrase exactly when it is blank. |
| SplitPhrases.UnbrokenStaysInOnePhrase | src/App.tsx:281-290 | A run of the protected text lies whole inside one returned phrase when it starts and ends on a non-space, holds no line break, and has no unprotected terminator before its last piece. Phrases are cut only after terminator characters and at line breaks. So a protected `Dr.` followed by ` Smith.` is one phrase. |
| SplitPhrases.PlaceholderStaysWhole | src/App.tsx:267-290 | Every protected span and decimal placeholder of the protected text lies whole inside one phrase. |
| SplitPhrases.UrlStaysWhole | src/App.tsx:267-290 | A URL opening a word lies inside one phrase, so no dot of `http://a.b/c` ends a phrase. This holds for either decimal pass. |
| SplitPhrases.EmailStaysWhole | src/App.tsx:267-290 | An e-mail address opening a word (after the URL pass) lies inside one phrase. |
| SplitPhrases.AbbreviationStaysWhole | src/App.tsx:267-290 | An abbreviation its pass finds at a word boundary lies inside one phrase: `Dr.` does not end a phrase. |
| SplitPhrases.CorrectedNoBareDecimal | src/App.tsx:267-279 | With the lookahead decimal pass, the fully protected text has no bare dot between two digits. |
| SplitPhrases.DecimalStaysWhole | src/App.tsx:267-290 | With the lookahead decimal pass, a digit, a dot and a digit of the protected text lie in one phrase of SplitPhrasesCorrected: no phrase ends between two digits. |
| SplitPhrases.SplitPhrases | src/App.tsx:251-294 | `splitPhrases` as written, decimal pass `(\d)\.(\d)`: the phrases together hold the text's non-whitespace characters in order, each phrase is trimmed, non-empty and single-line, and there are none exactly for blank text. URLs, e-mail addresses and found abbreviations are not cut (the StaysWhole lemmas, with the as-written rule). |
| SplitPhrases.SplitPhrasesCorrected | src/App.tsx:251-294 | The same promises hold for the splitter with the lookahead decimal pass. DecimalStaysWhole adds that no phrase ends between two digits around a dot. |
| SplitPhrases.SplitPhrasesWith | src/App.tsx:251-294 | The splitter for either decimal pass. SplitPhrasesKeepText, PhrasesAreTrimmedLines and NoPhrasesIffBlank state its properties. UnbrokenStaysInOnePhrase, UrlStaysWhole, EmailStaysWhole and AbbreviationStaysWhole state that what it protects is not cut. |
| SplitPhrases.Protect | src/App.tsx:252-279 | Newline normalisation, then URLs, e-mail addresses, decimals and abbreviations protected in that order. ProtectKeepsText states that no text changes. UrlBecomesShield, EmailBecomesShield, AbbreviationBecomesShield and the KeepPlaceholders lemmas state what becomes a protected span and that later passes keep it. |
| SplitPhrases.PhraseLines | src/App.tsx:281-286 | Break after terminators, cut at line breaks, trim and drop blank lines. PhraseLinesOk and TerminatorsEndPhrases state it. |
| SplitPhrases.BreakAfterTerminators | src/App.tsx:281 | `([.;;?!])\s*` becomes the terminator and a line break. BreakKeepsText and BreakMarksTerminators state it. |
| SplitPhrases.ProtectEmailsFrom | src/App.tsx:271 | Each e-mail match, left to right, becomes a protected span. EmailsKeepText, EmailsKeepShields, EmailBecomesShield and EmailsKeepPlaceholders state it. |
| SplitPhrases.ProtectAbbreviationFrom | src/App.tsx:276-279 | Each occurrence of the abbreviation at a word boundary, left to right, becomes a protected span. AbbreviationKeepsText, AbbreviationKeepsShields, AbbreviationBecomesShield and AbbreviationKeepsPlaceholders state it. |
| App.NatToString | src/App.tsx:311 | A rendered number is a non-empty run of digits. |
| App.ParseRendered | src/App.tsx:311 | Reading a rendered number gives it back. |
| App.RenderInjective | src/App.tsx:311 | Distinct numbers render differently. |
| App.UploadIdsDistinct | src/App.tsx:310-311 | Ids of one upload differ when their indices differ. |
| App.UploadedPhrases | src/App.tsx:309-316 | One new phrase per line, in order. |
| App.Submit | src/App.tsx:296-321 | Blank text is rejected, and so is text without lines. Otherwise the new phrases are prepended in front of the unchanged old list, and the first new phrase is selected. |
| App.HandleTextSubmit | src/App.tsx:296-321 | `handleTextSubmit` with the application's splitter: blank text is refused; otherwise one phrase per split line is prepended to the unchanged list and the first selected. |
| App.NonBlankTextYieldsPhrases | src/App.tsx:296-307 | With the splitter the application runs, submitting is rejected exactly for blank text; the "no phrases" branch never fires. |
| App.SubmittedLines | src/App.tsx:309-321 | Added phrases have trimmed line text and source `uploaded`. They are not favourites, have no translation, use the chosen category (`business` by default), and have distinct ids. |
| App.SubmittedPhrases | src/App.tsx:304-313 | The added texts are the lines of the splitter the application runs, unchanged. |
| App.ToggleFavourite | src/App.tsx:219-226 | Only phrases with the id flip their favourite flag; nothing else changes. |
| App.ToggleSelected | src/App.tsx:227-233 | The selection flips its own flag when it is the toggled phrase, and is otherwise unchanged. |
| App.ToggleTwice | src/App.tsx:219-226 | Toggling twice restores every phrase's favourite status. |
| App.ToggleMovesInAndOutOfFavourites | src/App.tsx:219-226 | After a toggle, a phrase is a favourite exactly when it was and is not the toggled one, or it was not and is. |
| App.FindIndex | src/App.tsx:646 | `findIndex` returns the first position holding the id, or -1 when the id is absent. |
| App.NextPhrase | src/App.tsx:641-651 | A new selection comes from the walked list. A selected id the list does not hold moves nothing. NextPrevAreNeighbours states which phrase is chosen. |
| App.PrevPhrase | src/App.tsx:652-662 | A new selection comes from the walked list. A selected id the list does not hold moves nothing. NextPrevAreNeighbours states which phrase is chosen. |
| App.NextPrevAreNeighbours | src/App.tsx:641-662 | With distinct ids and the selection at position k of the walked list, next selects the phrase at k+1 and previous the one at k-1. At the last (first) position, next (previous) keeps the selection. |
| App.ButtonsAgreeWithMoves | src/App.tsx:641-680 | `hasNextPhrase` holds exactly when `onNextPhrase` moves, and likewise for previous. |
| App.FindDistinct | src/App.tsx:646 | With distinct ids, `findIndex` of the k-th phrase's id is k. |
| App.NextThenPrev | src/App.tsx:641-662 | With distinct ids, next then previous returns to the selected phrase, and so does previous then next. |
| App.NextLeavesFavouritesView | src/App.tsx:641-651 | As written, with the list panel showing favourites [A, C] of [A, B, C], next moves from A to B. B is not shown. |
| App.NextStaysInFavouritesView | src/App.tsx:641-651 | Navigating with the panel's flag stays among the shown favourites: from A the next phrase is C. |
| TextPasteForm.MarkLineEnds | src/components/TextPasteForm.tsx:21 | The counter's line marking. SqueezeMarks, MarkCons, MarkAfterTerminator and MarkFinal state it. |
| TextPasteForm.LineCount | src/components/TextPasteForm.tsx:19-23 | `lineCount`. LineCountZeroIffBlank, OneSentence, TwoSentences and QuestionMarkNotCounted state it. |
| TextPasteForm.CountNonBlank | src/components/TextPasteForm.tsx:23 | The count is at most the number of lines. |
| TextPasteForm.HandleSubmit | src/components/TextPasteForm.tsx:11-17 | The untrimmed text goes to `onSubmit`, and the box is cleared, exactly when the text is not blank. Otherwise nothing changes. |
| TextPasteForm.SqueezeMarks | src/components/TextPasteForm.tsx:21 | Marking line ends adds and removes only whitespace. |
| TextPasteForm.MarkCons | src/components/TextPasteForm.tsx:21 | A terminator followed by whitespace or the end keeps the terminator and gets one newline in place of the whitespace run. |
| TextPasteForm.NoneCountedIffBlank | src/components/TextPasteForm.tsx:22-23 | No line counts exactly when the joined lines are blank. |
| TextPasteForm.LineCountZeroIffBlank | src/components/TextPasteForm.tsx:19-23 | The counter is 0 exactly for blank text. |
| TextPasteForm.ButtonMatchesCounter | src/components/TextPasteForm.tsx:11-43 | The button is disabled exactly when the counter is 0. A submission goes through exactly when the button is enabled. |
| TextPasteForm.UnmarkedText | src/components/TextPasteForm.tsx:21 | Text without terminators is not changed by the marking. |
| TextPasteForm.SingleLine | src/components/TextPasteForm.tsx:19-23 | One line without terminators counts 1, or 0 if blank. |
| TextPasteForm.MarkAfterTerminator | src/components/TextPasteForm.tsx:21 | A terminator and a whitespace run become the terminator and one newline. |
| TextPasteForm.MarkFinal | src/components/TextPasteForm.tsx:21 | A terminator at the end of the text gains a newline. |
| TextPasteForm.SentenceBreak | src/components/TextPasteForm.tsx:21 | A sentence ended by a terminator and whitespace ends its own line. |
| TextPasteForm.OneSentence | src/components/TextPasteForm.tsx:19-23 | One full-stop sentence counts 1. |
| TextPasteForm.TwoSentences | src/components/TextPasteForm.tsx:19-23 | Two full-stop sentences count 2. |
| TextPasteForm.MarkTwo | src/components/TextPasteForm.tsx:21 | Each of two full-stop sentences ends its own line. |
| TextPasteForm.QuestionMarkNotCounted | src/components/TextPasteForm.tsx:21 | `?` does not break the counter's lines, though the splitter breaks after it: a question followed by a sentence counts 1. |
| Translation.TranslateText | src/utils/translation.ts:76-113 | `none` gives "" and leaves the cache alone. A cache hit wins; a table hit is cached; the translator is asked exactly when both miss, and a non-empty answer is cached. The result is always "", a cached, table or translator text. |
| Translation.TranslateKeepsCacheClean | src/utils/translation.ts:85-107 | The cache never gains an empty entry. |
| Translation.RepeatIsServedFromCache | src/utils/translation.ts:85-107 | After a non-empty result, asking again returns the same text from the cache without the translator, whatever the table and translator say now. |
| Translation.TableBeforeTranslator | src/utils/translation.ts:89-101 | A phrase the table translates never costs a translator call. |
| Translation.EmptyAnswerLeavesCache | src/utils/translation.ts:101-112 | An empty result leaves the cache unchanged. |
| Translation.PhraseTranslation | src/utils/translation.ts:118-128 | `none` gives no translation and no cache change; a translation given is non-empty. |
| Translation.PhraseTranslationAgrees | src/utils/translation.ts:118-128 | There is a translation exactly when a language is chosen and the lookup is non-empty, and then it is that text. |
| PhraseList.Filter | src/components/PhraseList.tsx:35-38 | A source or favourites list holds exactly the phrases of that kind. |
| PhraseList.Unsourced | src/components/PhraseList.tsx:35-37 | The phrases without a source. |
| PhraseList.SourceListsPartition | src/components/PhraseList.tsx:35-37 | The three source lists and the unsourced phrases split the list: their lengths add up to its length. |
| PhraseList.Displayed | src/components/PhraseList.tsx:41-43 | The favourites when the panel's toggle is on, else all phrases in order. |
| PhraseList.Entry | src/components/PhraseList.tsx:80-99 | A phrase's own translation wins without a lookup. Otherwise a language must be chosen, and the lookup's non-empty answer is taken. |
| PhraseList.CollectDomain | src/components/PhraseList.tsx:53-99 | An id is translated exactly when one of its phrases has an entry. |
| PhraseList.CollectValue | src/components/PhraseList.tsx:53-99 | With distinct ids, a phrase's recorded translation is its own entry. |
| PhraseList.VisitGroup | src/components/PhraseList.tsx:67-101 | A group of up to five visits its positions in order until cancelled. |
| PhraseList.VisitBatch | src/components/PhraseList.tsx:59-102 | A batch of ten is visited in groups of five, in order, until cancelled. |
| PhraseList.UpdateTranslations | src/components/PhraseList.tsx:48-113 | Without cancellation every displayed phrase is visited exactly once, in order, and the collected translations are published. After a cancellation nothing is published. |
| PhraseList.DisplayTranslation | src/components/PhraseList.tsx:257 | A non-empty refreshed translation wins; otherwise the phrase's own is shown. |
| PhraseList.DisplayAfterRefresh | src/components/PhraseList.tsx:257 | After a full refresh, a row shows its own translation if any. Otherwise it shows the lookup's non-empty answer when a language is chosen. |
| UrlMapping.CategoryToUrlSlug | src/utils/urlMapping.ts:31-64 | Every slug is non-empty and equals the category id except for `business`. |
| UrlMapping.UrlSlugToCategory | src/utils/urlMapping.ts:8-57 | Reading only the table's own keys, a category is found only for its own slug, and nothing exactly when no category has that slug. |
| UrlMapping.SlugRoundTrip | src/utils/urlMapping.ts:8-64 | Every category survives the trip to its slug and back. |
| UrlMapping.SlugInverse | src/utils/urlMapping.ts:8-57 | A slug that names a category is that category's slug. |
| UrlMapping.SlugsDistinct | src/utils/urlMapping.ts:31-50 | Distinct categories have distinct slugs. |
| UrlMapping.UnknownSlug | src/utils/urlMapping.ts:8-57 | A slug maps to nothing exactly when it is no category's slug; the bare `business` is one. |
| UrlMapping.UrlSlugToCategoryAsWritten | src/utils/urlMapping.ts:55-57 | The as-written lookup agrees with the own-key table wherever it finds a category. |
| UrlMapping.InheritedSlugEscapes | src/utils/urlMapping.ts:55-57 | As written, `toString` yields an inherited member, neither a category nor null. |
| PhraseScanner.HeaderEnd | scripts/generate-translations.js:54 | `phrases\s*=\s*\[` matched at p ends after a `[`. |
| PhraseScanner.CloseAt | scripts/generate-translations.js:54 | The lazy body ends at the first `];`. |
| PhraseScanner.Blocks | scripts/generate-translations.js:54-58 | No captured block contains `];`. |
| PhraseScanner.OneBlock | scripts/generate-translations.js:54-58 | `phrases = [body];`, with any whitespace around `=`, captures exactly the body. |
| PhraseScanner.Emit | scripts/generate-translations.js:80-91 | A closing quote adds the cleaned string exactly when the string and its cleaning are both non-blank. |
| PhraseScanner.RunKeepsTidy | scripts/generate-translations.js:65-99 | The scan only ever emits non-empty trimmed strings. |
| PhraseScanner.ScanBlockTidy | scripts/generate-translations.js:65-108 | A block yields non-empty trimmed strings, including the unterminated last one. |
| PhraseScanner.RunOutside | scripts/generate-translations.js:96-98 | Text outside quotes without quotes or backslashes is ignored. |
| PhraseScanner.RunEscapedPhrase | scripts/generate-translations.js:68-78 | Inside quotes, an escaped phrase is collected exactly as written; its `\'` does not close the string. |
| PhraseScanner.RunEscapedTranslation | scripts/generate-translations.js:68-78 | The same for an escaped translation, including its `\n`. |
| PhraseScanner.QuotedPhrase | scripts/generate-translations.js:65-99 | A quoted escaped phrase yields its trimmed text unless blank. |
| PhraseScanner.QuotedTranslation | scripts/generate-translations.js:65-99 | A quoted escaped translation yields its trimmed text unless blank. |
| PhraseScanner.UnterminatedIsKept | scripts/generate-translations.js:101-108 | A quote left open at the end of a block still yields its string. |
| PhraseScanner.RunPlainInside | scripts/generate-translations.js:96-98 | Inside quotes, ordinary characters are collected in order. |
| PhraseScanner.EscapeOutsideLeaks | scripts/generate-translations.js:74-78 | A backslash outside quotes is collected with the next character and carried into the next quoted string. |
| PhraseScanner.DedupeFrom | scripts/generate-translations.js:112 | `new Set` keeps exactly the elements, without repeats. |
| PhraseScanner.DedupeSnoc | scripts/generate-translations.js:112 | An element is added once, at the place of its first occurrence: first-occurrence order. |
| PhraseScanner.DedupeDistinct | scripts/generate-translations.js:112 | A list without repeats comes through unchanged. |
| PhraseScanner.NonBlank | scripts/generate-translations.js:112 | The blank filter keeps exactly the non-blank strings. |
| PhraseScanner.NonBlankOfTidy | scripts/generate-translations.js:112 | On the scanner's output the blank filter removes nothing. |
| PhraseScanner.ScanAllTidy | scripts/generate-translations.js:57-109 | All blocks together yield non-empty trimmed strings. |
| PhraseScanner.ExtractedPhrases | scripts/generate-translations.js:48-113 | The result is non-empty, trimmed and distinct. It holds exactly the strings some block yields, in first-occurrence order. |
| PhraseScanner.UnquotePhrase | scripts/generate-translations.js:229 | For backslash-free text, cleaning `\'` undoes the phrase escaping. |
| PhraseScanner.UnquoteTranslation | scripts/generate-translations.js:234 | For a translation, cleaning `\'` leaves only the newlines escaped. |
| PhraseScanner.UnescapeNewlines | scripts/generate-translations.js:84-86 | Cleaning `\n` undoes escaping newlines. |
| PhraseScanner.CleanUndoesEscaping | scripts/generate-translations.js:84-87 | For backslash-free text, cleaning undoes the generator's escaping of phrases and translations, up to the trim. |
| PhraseScanner.ScanTranslationLine | scripts/generate-translations.js:236 | One generated translation line yields its translation. |
| PhraseScanner.ScanTranslationLines | scripts/generate-translations.js:232-238 | The translation lines yield the non-empty translations in language order; empty ones are omitted. |
| PhraseScanner.EntryPunctuation | scripts/generate-translations.js:230-240 | The fixed text of an entry is ignored. |
| PhraseScanner.EntryShape | scripts/generate-translations.js:228-241 | An entry yields its phrase, then whatever its translation lines yield. |
| PhraseScanner.EntryRoundTrip | scripts/generate-translations.js:228-241 | Scanning a generated entry gives back its phrase and its non-empty translations, trimmed. |
| TranslationRetry.GoogleCode | scripts/generate-translations-google.js:23-35 | The Google code is the application's code, except Chinese is `zh-CN`. |
| TranslationRetry.GoogleCodeExtendsOwnCode | scripts/generate-translations-google.js:23-35 | Each Google code starts with the application's code. |
| TranslationRetry.DeepLCodeIsUpperCase | scripts/generate-translations.js:23-35 | DeepL codes are the application's codes in capitals. |
| TranslationRetry.SwitchInstance | scripts/generate-translations-libre.js:54-57 | The next instance index stays in [0, 3) and differs from the current one. |
| TranslationRetry.InstanceAfterCycles | scripts/generate-translations-libre.js:46-57 | After k switches from `start` the index is (start + k) mod 3. |
| TranslationRetry.SwitchingVisitsEveryInstance | scripts/generate-translations-libre.js:24-57 | Three switches visit every instance once and come back. |
| TranslationRetry.Or | scripts/generate-translations-libre.js:156 | `a \|\| b` is a when a is truthy, else b. |
| TranslationRetry.GoogleText | scripts/generate-translations-google.js:131-138 | The extracted value is "" or truthy. |
| TranslationRetry.GoogleTextOfPayload | scripts/generate-translations-google.js:131-138 | The usual nested answer yields its translated text, the empty text included. |
| TranslationRetry.GoogleTextOfString | scripts/generate-translations-google.js:131-138 | A bare string answer yields its first character. |
| TranslationRetry.GoogleTextOfFlat | scripts/generate-translations-google.js:131-138 | An answer without nested arrays yields "". |
| TranslationRetry.LibreText | scripts/generate-translations-libre.js:155-156 | Reading the answer fails exactly on `null`; otherwise it is "" or a truthy value. |
| TranslationRetry.LibreTextOfAnswer | scripts/generate-translations-libre.js:155-156 | The usual answer yields its `translatedText`. |
| TranslationRetry.TranslateLibre | scripts/generate-translations-libre.js:127-169 | At most `retries` attempts; every attempt but the last failed to answer; it stops early only on an answer, returning its text, else "". A 429 or ≥500 switches instance without reaching the handler; other failures switch unless on the last attempt. |
| TranslationRetry.TranslateGoogle | scripts/generate-translations-google.js:107-150 | At most `retries` attempts, a 429 using one up; it stops early only on a delivered answer, returning its extracted text, else "". |

## Left out

- Rendering, layout and styling of every component are left out, as are
  logging, alerts, analytics, meta tags and routing.
- Timer plumbing is left out: the 1 s interval period, the 300 ms
  auto-start delay, and the 50 ms waits before speaking and between
  batches. So are the scripts' 2 s and 5 s retry waits and their
  200/300/100 ms pacing. Timers are `Tick` events; the other waits
  have no effect on the logic.
- `sessionStorage`: the auto-start flag's ref, state and stored copy are
  one boolean that survives `Remount`.
- `wasSpeakingRef` and the state flag `pausedDuringSpeech` are never read
  by the controller, so they carry no property. The latter is kept as a
  field.
- A `speak` call superseded by a later one, settling late, is not
  modelled. Only one pending call is tracked.
- PhraseList.UpdateTranslations: the lookups of one group of five run
  concurrently, and a looked-up translation is written only when its
  lookup settles. When two displayed phrases share an id, the component
  keeps whichever write comes last in time. The model writes in list
  order, so its map is `Collect`'s. With distinct ids the order does not
  matter (PhraseList.CollectValue).
- Races between asynchronous lookups writing the translation cache are
  left out. Each lookup is one atomic call.
- The browser speech and audio APIs, `fetch`, `AbortController` and blob
  URLs are left out. So is the `synth.cancel` override, which is one
  `CancelledBeforeStart` / `Errored(cancelled, …)` outcome. Engine results
  are parameters.
- Tts.SpeakBrowser: the case where `stop` aborts an ElevenLabs request and
  the browser fallback then speaks is not distinguished from other
  network failures.
- Tts.RateTenths and Tts.PitchHundredths: floating-point rate and pitch
  are fixed-point integers (tenths, hundredths). Volume and ElevenLabs
  voice settings are left out.
- `toLowerCase` is modelled on ASCII only. `\b` and `\w` are ASCII, as in
  JavaScript without the `u` flag, and the model keeps that: Greek letters
  are not word characters. So `\bκ\.` matches only where the character
  before `κ` is a word character: a Latin letter, a digit, `_`, or a
  placeholder, which ends in `_`. A Greek abbreviation after whitespace or
  at the start of the text is never protected, and its dot ends a phrase.
- Literal `__PROTECTED_n__` or `__DECIMAL__` typed by the user would be
  rewritten by the restoring step. The model's pieces cannot contain
  them, so that corruption is not modelled.
- Shuffle (random), file upload and docx extraction, the AI phrase
  generator, and the OpenAI and ElevenLabs server wrappers are I/O shells
  and are left out.
- The scripts' file reading and writing, progress output and the saved
  JSON backup are left out. So is DeepL's `translateText`; only DeepL's
  language map is modelled. `Object.entries` order is the order of the
  list given.
- `generateTranslations` storing `translation || ''` is left out; the
  generator model takes each translation as a function of the language.
- TranslationRetry.Json: numbers are integers; floating point and NaN
  are left out.
- TranslationRetry.TranslateGoogle: a truthy non-string `data[0][0][0]`
  (say a number) is returned as that value. The script's later string
  `.replace` on it would throw, and that is not modelled.
- PhraseScanner.CleanUndoesEscaping and PhraseScanner.EntryRoundTrip hold
  for text without backslashes only. A backslash in a phrase is not
  escaped by the generator and is read back differently.
- CategorySelector's extra `weather` category and the static SEO and
  label tables are left out.

## Findings

| source | as written | input that shows it | evidently intended | confidence | as-written member | corrected member |
|---|---|---|---|---|---|---|
| src/utils/urlMapping.ts:55-57 | `urlToCategoryMap[slug] \|\| null` also reads members the object inherits | slug `toString` yields a function, neither a category nor null | only the table's own keys are categories; anything else is null | medium, not executed | UrlMapping.InheritedSlugEscapes | UrlMapping.UnknownSlug |
| src/App.tsx:273 | `(\d)\.(\d)` consumes the second digit, so the next match cannot start there | `1.2.3` becomes `1.2.` and `3` (an IP address is split likewise) | every dot between two digits is protected, e.g. with `(\d)\.(?=\d)` | high, not executed | SplitPhrases.AsWrittenLeavesBareDecimal | SplitPhrases.LookaheadProtectsDecimals |
| src/App.tsx:36 | the shell's `showFavoritesOnly` is never set; the list panel keeps its own flag (src/components/PhraseList.tsx:32) | panel showing favourites [A, C] of [A, B, C], A selected: next goes to B, which the panel hides | next and previous walk the list the panel shows | high, not executed | App.NextLeavesFavouritesView | App.NextStaysInFavouritesView |
| src/utils/tts.ts:356-359 | the "ElevenLabs not configured" error is set, then cleared by `speakBrowser(text, settings)` at line 268 | provider `elevenlabs` with the proxy disabled: `getLastError()` is null afterwards | the message stays as the last error while the browser speaks | high, not executed | Tts.NotConfiguredMessageLost | Tts.NotConfiguredIsReported |

=== FILE: app.dfy ===
/** The application shell's operations on the phrase list: adding pasted
    text as uploaded phrases, toggling a favourite, and moving to the next
    or previous phrase of the list the player walks through. */
module App {
  import opened Types
  import opened JsText
  import SplitPhrases
  import PhraseList

  // ---------------------------------------------------------------------
  // Decimal rendering of the timestamp and index in an uploaded id

  function DigitChar(d: nat): char
    requires d < 10
  {
    ['0', '1', '2', '3', '4', '5', '6', '7', '8', '9'][d]
  }

  function DigitValue(c: char): nat {
    if '0' <= c <= '9' then (c as int - '0' as int) as nat else 0
  }

  /** A number written in decimal, as a template literal renders it. */
  function NatToString(n: nat): (r: string)
    ensures |r| > 0 && forall k :: 0 <= k < |r| ==> IsDigit(r[k])
  {
    if n < 10 then [DigitChar(n)] else NatToString(n / 10) + [DigitChar(n % 10)]
  }

  /** Reading a string of digits back as a number. */
  function ParseNat(s: string): nat {
    if |s| == 0 then 0 else ParseNat(s[..|s| - 1]) * 10 + DigitValue(s[|s| - 1])
  }

  /** Rendering then reading gives the number back. */
  lemma {:induction false} ParseRendered(n: nat)
    ensures ParseNat(NatToString(n)) == n
  {
    var s := NatToString(n);
    if n < 10 {
      assert s[..0] == [];
    } else {
      ParseRendered(n / 10);
      assert s[..|s| - 1] == NatToString(n / 10);
    }
  }

  /** Distinct numbers render as distinct strings. */
  lemma RenderInjective(a: nat, b: nat)
    requires a != b
    ensures NatToString(a) != NatToString(b)
  {
    ParseRendered(a);
    ParseRendered(b);
  }

  // ---------------------------------------------------------------------
  // Adding pasted text

  /** The id of the `index`-th phrase added at time `timestamp`. */
  function UploadId(timestamp: nat, index: nat): string {
    "upload-" + NatToString(timestamp) + "-" + NatToString(index)
  }

  /** Ids of one upload differ whenever their indices do. */
  lemma UploadIdsDistinct(timestamp: nat, a: nat, b: nat)
    requires a != b
    ensures UploadId(timestamp, a) != UploadId(timestamp, b)
  {
    var prefix := "upload-" + NatToString(timestamp) + "-";
    assert UploadId(timestamp, a) == prefix + NatToString(a);
    assert UploadId(timestamp, b) == prefix + NatToString(b);
    assert (prefix + NatToString(a))[|prefix|..] == NatToString(a);
    assert (prefix + NatToString(b))[|prefix|..] == NatToString(b);
    RenderInjective(a, b);
  }

  /** The uploaded phrase made from line number `index`. */
  function UploadedPhrase(line: string, index: nat, timestamp: nat, category: Option<Category>): Phrase {
    Phrase(UploadId(timestamp, index), Trim(line),
           if category.Some? then category.value else Business,
           None, Some(Uploaded), Some(false))
  }

  /** The new phrases, one per line (`lines.map((line, index) => ...)`). */
  function UploadedPhrases(lines: seq<string>, timestamp: nat, category: Option<Category>): (r: seq<Phrase>)
    ensures |r| == |lines|
    ensures forall k :: 0 <= k < |lines| ==> r[k] == UploadedPhrase(lines[k], k, timestamp, category)
  {
    seq(|lines|, k requires 0 <= k < |lines| => UploadedPhrase(lines[k], k, timestamp, category))
  }

  datatype Rejection = EmptyText | NoPhrases

  /** What a submission does: an alert and nothing else, or the new list
      and the new selection. */
  datatype SubmitOutcome =
    | Rejected(reason: Rejection)
    | Added(phrases: seq<Phrase>, selected: Phrase, added: nat)

  /** `handleTextSubmit` once the text has been split into `lines`:
      blank text is refused; so is text without lines; otherwise the lines
      become uploaded phrases prepended to the list, the first of them
      selected. `timestamp` is the clock reading and `category` the
      category chosen. */
  function Submit(phrases: seq<Phrase>, category: Option<Category>, text: string, lines: seq<string>, timestamp: nat): (r: SubmitOutcome)
    ensures r.Rejected? && r.reason == EmptyText <==> AllSpace(text)
    ensures r.Rejected? && r.reason == NoPhrases <==> !AllSpace(text) && lines == []
    ensures r.Added? ==> && r.added == |lines| > 0
                         && |r.phrases| == r.added + |phrases|
                         && r.phrases[r.added..] == phrases
                         && r.selected == r.phrases[0]
  {
    TrimEmptyIffAllSpace(text);
    if text == "" || Trim(text) == "" then Rejected(EmptyText)
    else if |lines| == 0 then Rejected(NoPhrases)
    else
      var uploaded := UploadedPhrases(lines, timestamp, category);
      Added(uploaded + phrases, uploaded[0], |uploaded|)
  }

  /** `handleTextSubmit`, splitting with the application's `splitPhrases`. */
  function HandleTextSubmit(phrases: seq<Phrase>, category: Option<Category>, text: string, timestamp: nat): (r: SubmitOutcome)
    ensures r.Rejected? && r.reason == EmptyText <==> AllSpace(text)
    ensures r.Added? ==> && r.added == |SplitPhrases.SplitPhrases(text)|
                         && |r.phrases| == r.added + |phrases|
                         && r.phrases[r.added..] == phrases
                         && r.selected == r.phrases[0]
  {
    var lines := SplitPhrases.SplitPhrases(text);
    Submit(phrases, category, text, lines, timestamp)
  }

  /** The second refusal never happens: text that is not blank always
      yields at least one phrase. */
  lemma NonBlankTextYieldsPhrases(phrases: seq<Phrase>, category: Option<Category>, text: string, timestamp: nat)
    ensures HandleTextSubmit(phrases, category, text, timestamp).Rejected? <==> AllSpace(text)
  {
    SplitPhrases.NoPhrasesIffBlank(text, SplitPhrases.AsWritten);
  }

  /** The phrases a submission of `lines` adds: one uploaded, unfavoured
      phrase per line, in order, texts trimmed, in the chosen category
      (`business` when none), with ids distinct from one another. */
  lemma SubmittedLines(phrases: seq<Phrase>, category: Option<Category>, text: string, lines: seq<string>, timestamp: nat)
    requires Submit(phrases, category, text, lines, timestamp).Added?
    ensures var r := Submit(phrases, category, text, lines, timestamp);
            && |r.phrases| == |lines| + |phrases|
            && (forall k :: 0 <= k < |lines| ==>
                  && r.phrases[k].text == Trim(lines[k])
                  && r.phrases[k].source == Some(Uploaded)
                  && !r.phrases[k].Favourite()
                  && r.phrases[k].translation.None?
                  && r.phrases[k].category == (if category.Some? then category.value else Business))
            && (forall a, b :: 0 <= a < b < |lines| ==> r.phrases[a].id != r.phrases[b].id)
  {
    var r := Submit(phrases, category, text, lines, timestamp);
    var uploaded := UploadedPhrases(lines, timestamp, category);
    assert r.phrases == uploaded + phrases;
    forall k | 0 <= k < |lines|
      ensures r.phrases[k] == UploadedPhrase(lines[k], k, timestamp, category)
    {
      assert r.phrases[k] == uploaded[k];
    }
    forall a, b | 0 <= a < b < |lines|
      ensures r.phrases[a].id != r.phrases[b].id
    {
      assert r.phrases[a].id == UploadId(timestamp, a);
      assert r.phrases[b].id == UploadId(timestamp, b);
      UploadIdsDistinct(timestamp, a, b);
    }
  }

  /** The splitter's lines are already trimmed, so the added texts are the
      lines themselves. */
  lemma SubmittedPhrases(phrases: seq<Phrase>, category: Option<Category>, text: string, timestamp: nat)
    requires HandleTextSubmit(phrases, category, text, timestamp).Added?
    ensures var r := HandleTextSubmit(phrases, category, text, timestamp);
            var lines := SplitPhrases.SplitPhrases(text);
            forall k :: 0 <= k < |lines| ==> r.phrases[k].text == lines[k]
  {
    var lines := SplitPhrases.SplitPhrases(text);
    var r := Submit(phrases, category, text, lines, timestamp);
    assert HandleTextSubmit(phrases, category, text, timestamp) == r;
    SubmittedLines(phrases, category, text, lines, timestamp);
    SplitPhrases.PhrasesAreTrimmedLines(text, SplitPhrases.AsWritten);
    forall k | 0 <= k < |lines|
      ensures r.phrases[k].text == lines[k]
    {
      assert SplitPhrases.PhraseShape(lines[k]);
      TrimOfTrimmed(lines[k]);
    }
  }

  // ---------------------------------------------------------------------
  // Favourites

  function Toggled(p: Phrase): Phrase {
    p.(isFavorite := Some(!p.Favourite()))
  }

  /** `handleToggleFavorite` on the list: every phrase with the id flips
      its favourite flag, and nothing else changes. */
  function ToggleFavourite(phrases: seq<Phrase>, id: string): (r: seq<Phrase>)
    ensures |r| == |phrases|
    ensures forall k :: 0 <= k < |r| ==>
              && r[k].(isFavorite := phrases[k].isFavorite) == phrases[k]
              && (r[k].Favourite() <==> (phrases[k].Favourite() != (phrases[k].id == id)))
  {
    seq(|phrases|, k requires 0 <= k < |phrases| => if phrases[k].id == id then Toggled(phrases[k]) else phrases[k])
  }

  /** The selection follows the toggle when it is the phrase toggled; it is
      flipped from its own flag, not read back from the list. */
  function ToggleSelected(selected: Option<Phrase>, id: string): (r: Option<Phrase>)
    ensures r.Some? <==> selected.Some?
    ensures r.Some? ==> r.value.(isFavorite := selected.value.isFavorite) == selected.value
    ensures r.Some? ==> (r.value.Favourite() <==> (selected.value.Favourite() != (selected.value.id == id)))
  {
    if selected.Some? && selected.value.id == id then Some(Toggled(selected.value)) else selected
  }

  /** Toggling twice restores every phrase's favourite status. */
  lemma ToggleTwice(phrases: seq<Phrase>, id: string)
    ensures var twice := ToggleFavourite(ToggleFavourite(phrases, id), id);
            |twice| == |phrases| &&
            forall k :: 0 <= k < |phrases| ==> (twice[k].Favourite() <==> phrases[k].Favourite())
  {
  }

  /** After a toggle, a phrase is among the favourites exactly when it was
      and is not the one toggled, or it was not and is. */
  lemma ToggleMovesInAndOutOfFavourites(phrases: seq<Phrase>, id: string, k: nat)
    requires k < |phrases|
    ensures var after := PhraseList.Filter(ToggleFavourite(phrases, id), PhraseList.FavouritesView);
            var p := ToggleFavourite(phrases, id)[k];
            p in after <==> (phrases[k].Favourite() != (phrases[k].id == id))
  {
  }

  // ---------------------------------------------------------------------
  // Next and previous phrase

  /** `findIndex` by id: the first position holding the id, or -1. */
  function FindIndex(ps: seq<Phrase>, id: string): (r: int)
    ensures -1 <= r < |ps|
    ensures r >= 0 ==> ps[r].id == id && forall j :: 0 <= j < r ==> ps[j].id != id
    ensures r == -1 ==> forall j :: 0 <= j < |ps| ==> ps[j].id != id
  {
    if |ps| == 0 then -1
    else if ps[0].id == id then 0
    else
      var i := FindIndex(ps[1..], id);
      if i == -1 then -1 else i + 1
  }

  /** The list the player walks through: the favourites when the flag is
      set (truthy `isFavorite`), else every phrase. */
  function Walked(favouritesOnly: bool, phrases: seq<Phrase>): seq<Phrase> {
    PhraseList.Displayed(favouritesOnly, phrases)
  }

  /** `hasNextPhrase`. */
  predicate HasNext(favouritesOnly: bool, phrases: seq<Phrase>, selected: Phrase) {
    var list := Walked(favouritesOnly, phrases);
    var i := FindIndex(list, selected.id);
    0 <= i < |list| - 1
  }

  /** `hasPrevPhrase`. */
  predicate HasPrev(favouritesOnly: bool, phrases: seq<Phrase>, selected: Phrase) {
    FindIndex(Walked(favouritesOnly, phrases), selected.id) > 0
  }

  /** `onNextPhrase`: the new selection, or None when it leaves the
      selection alone. */
  function NextPhrase(favouritesOnly: bool, phrases: seq<Phrase>, selected: Phrase): (r: Option<Phrase>)
    ensures r.Some? ==> r.value in Walked(favouritesOnly, phrases)
    ensures (forall j :: 0 <= j < |Walked(favouritesOnly, phrases)| ==> Walked(favouritesOnly, phrases)[j].id != selected.id)
            ==> r.None?
  {
    var list := Walked(favouritesOnly, phrases);
    var i := FindIndex(list, selected.id);
    if 0 <= i < |list| - 1 then Some(list[i + 1]) else None
  }

  /** `onPrevPhrase`. */
  function PrevPhrase(favouritesOnly: bool, phrases: seq<Phrase>, selected: Phrase): (r: Option<Phrase>)
    ensures r.Some? ==> r.value in Walked(favouritesOnly, phrases)
    ensures (forall j :: 0 <= j < |Walked(favouritesOnly, phrases)| ==> Walked(favouritesOnly, phrases)[j].id != selected.id)
            ==> r.None?
  {
    var list := Walked(favouritesOnly, phrases);
    var i := FindIndex(list, selected.id);
    if i > 0 then Some(list[i - 1]) else None
  }

  /** The next button is offered exactly when pressing it moves; likewise
      the previous button. */
  lemma ButtonsAgreeWithMoves(favouritesOnly: bool, phrases: seq<Phrase>, selected: Phrase)
    ensures HasNext(favouritesOnly, phrases, selected) <==> NextPhrase(favouritesOnly, phrases, selected).Some?
    ensures HasPrev(favouritesOnly, phrases, selected) <==> PrevPhrase(favouritesOnly, phrases, selected).Some?
  {
  }

  /** The first occurrence of an id in a list with distinct ids is the
      position holding it. */
  lemma FindDistinct(ps: seq<Phrase>, k: nat)
    requires PhraseList.DistinctIds(ps) && k < |ps|
    ensures FindIndex(ps, ps[k].id) == k
  {
  }

  /** With distinct ids, next selects the phrase right after the selected
      one in the walked list and previous the one right before it; at
      either end the selection stays. */
  lemma NextPrevAreNeighbours(favouritesOnly: bool, phrases: seq<Phrase>, selected: Phrase, k: nat)
    requires PhraseList.DistinctIds(Walked(favouritesOnly, phrases))
    requires k < |Walked(favouritesOnly, phrases)| && Walked(favouritesOnly, phrases)[k].id == selected.id
    ensures NextPhrase(favouritesOnly, phrases, selected)
            == if k + 1 < |Walked(favouritesOnly, phrases)| then Some(Walked(favouritesOnly, phrases)[k + 1]) else None
    ensures PrevPhrase(favouritesOnly, phrases, selected)
            == if k > 0 then Some(Walked(favouritesOnly, phrases)[k - 1]) else None
  {
    FindDistinct(Walked(favouritesOnly, phrases), k);
  }

  /** With distinct ids, next then previous comes back to the selected
      phrase, and previous then next likewise. */
  lemma NextThenPrev(favouritesOnly: bool, phrases: seq<Phrase>, selected: Phrase)
    requires PhraseList.DistinctIds(Walked(favouritesOnly, phrases))
    ensures var n := NextPhrase(favouritesOnly, phrases, selected);
            n.Some? ==> PrevPhrase(favouritesOnly, phrases, n.value) ==
                        Some(Walked(favouritesOnly, phrases)[FindIndex(Walked(favouritesOnly, phrases), selected.id)])
    ensures var p := PrevPhrase(favouritesOnly, phrases, selected);
            p.Some? ==> NextPhrase(favouritesOnly, phrases, p.value) ==
                        Some(Walked(favouritesOnly, phrases)[FindIndex(Walked(favouritesOnly, phrases), selected.id)])
  {
    var list := Walked(favouritesOnly, phrases);
    var i := FindIndex(list, selected.id);
    if 0 <= i < |list| - 1 {
      FindDistinct(list, i + 1);
    }
    if i > 0 {
      FindDistinct(list, i - 1);
    }
  }

  /** The shell's own favourites flag is never set: the list panel keeps
      its flag to itself, so the shell navigates as if the flag were off. */
  const ShellFavouritesFlag := false

  /** `onNextPhrase` as the shell runs it, whatever the panel shows. */
  function NextPhraseAsWritten(panelFavouritesOnly: bool, phrases: seq<Phrase>, selected: Phrase): Option<Phrase> {
    NextPhrase(ShellFavouritesFlag, phrases, selected)
  }

  /** With the panel showing favourites `[A, C]` of `[A, B, C]`, the shell
      moves from A to B, a phrase the panel does not show. */
  lemma NextLeavesFavouritesView()
    ensures var a := Phrase("a", "A", Business, None, Some(Standard), Some(true));
            var b := Phrase("b", "B", Business, None, Some(Standard), Some(false));
            var c := Phrase("c", "C", Business, None, Some(Standard), Some(true));
            && NextPhraseAsWritten(true, [a, b, c], a) == Some(b)
            && b !in PhraseList.Displayed(true, [a, b, c])
  {
    var a := Phrase("a", "A", Business, None, Some(Standard), Some(true));
    var b := Phrase("b", "B", Business, None, Some(Standard), Some(false));
    var c := Phrase("c", "C", Business, None, Some(Standard), Some(true));
    assert FindIndex([a, b, c], "a") == 0;
  }

  /** Navigating through the panel's own flag stays inside what the panel
      shows: from A the next favourite is C. */
  lemma NextStaysInFavouritesView(phrases: seq<Phrase>, selected: Phrase)
    ensures var n := NextPhrase(true, phrases, selected);
            n.Some? ==> n.value in PhraseList.Displayed(true, phrases) && n.value.Favourite()
    ensures var a := Phrase("a", "A", Business, None, Some(Standard), Some(true));
            var b := Phrase("b", "B", Business, None, Some(Standard), Some(false));
            var c := Phrase("c", "C", Business, None, Some(Standard), Some(true));
            NextPhrase(true, [a, b, c], a) == Some(c)
  {
    var a := Phrase("a", "A", Business, None, Some(Standard), Some(true));
    var b := Phrase("b", "B", Business, None, Some(Standard), Some(false));
    var c := Phrase("c", "C", Business, None, Some(Standard), Some(true));
    assert PhraseList.Filter([a, b, c], PhraseList.FavouritesView) == [a, c];
  }
}

=== FILE: jstext.dfy ===
/** The few JavaScript string primitives the application relies on, over
    strings as sequences of UTF-16 code units: the `\s` / `trim` whitespace
    class, `\w`, `includes`, `startsWith`, literal global `replace`, `split`
    on one character and ASCII lower-casing. */
module JsText {

  /** The characters JavaScript's `\s` matches and `trim` removes. */
  predicate IsSpace(c: char) {
    || c == ' ' || c == '\t' || c == '\n' || c == '\r' || c == '\U{B}' || c == '\U{C}'
    || c == '\U{A0}' || c == '\U{1680}' || ('\U{2000}' <= c <= '\U{200A}')
    || c == '\U{2028}' || c == '\U{2029}' || c == '\U{202F}' || c == '\U{205F}'
    || c == '\U{3000}' || c == '\U{FEFF}'
  }

  predicate IsDigit(c: char) { '0' <= c <= '9' }

  predicate IsAsciiLetter(c: char) { ('a' <= c <= 'z') || ('A' <= c <= 'Z') }

  /** JavaScript's `\w` without the `u` flag: ASCII letters, digits and `_`. */
  predicate IsWordChar(c: char) { IsAsciiLetter(c) || IsDigit(c) || c == '_' }

  predicate AllSpace(s: string) {
    forall i :: 0 <= i < |s| ==> IsSpace(s[i])
  }

  /** `s.trimStart()`: drops the leading whitespace. */
  function TrimStart(s: string): (r: string)
    ensures |r| <= |s| && r == s[|s| - |r|..]
    ensures AllSpace(s[..|s| - |r|])
    ensures |r| > 0 ==> !IsSpace(r[0])
  {
    if |s| > 0 && IsSpace(s[0]) then TrimStart(s[1..]) else s
  }

  /** `s.trimEnd()`: drops the trailing whitespace. */
  function TrimEnd(s: string): (r: string)
    ensures |r| <= |s| && r == s[..|r|]
    ensures AllSpace(s[|r|..])
    ensures |r| > 0 ==> !IsSpace(r[|r| - 1])
  {
    if |s| > 0 && IsSpace(s[|s| - 1]) then TrimEnd(s[..|s| - 1]) else s
  }

  /** `s.trim()`. */
  function Trim(s: string): (r: string)
    ensures |r| <= |s|
    ensures |r| > 0 ==> !IsSpace(r[0]) && !IsSpace(r[|r| - 1])
  {
    TrimEnd(TrimStart(s))
  }

  /** A string trims to nothing exactly when all of it is whitespace. */
  lemma TrimEmptyIffAllSpace(s: string)
    ensures Trim(s) == [] <==> AllSpace(s)
  {
    var t := TrimStart(s);
    var r := TrimEnd(t);
    var k := |s| - |t|;
    if r == [] {
      assert AllSpace(t) by { assert t[|r|..] == t; }
      assert |t| == 0;
      forall i | 0 <= i < |s| ensures IsSpace(s[i]) {
        assert s[..k][i] == s[i];
      }
    } else {
      assert r[0] == t[0] == s[k];
    }
  }

  lemma TrimOfTrimmed(s: string)
    requires |s| > 0 ==> !IsSpace(s[0]) && !IsSpace(s[|s| - 1])
    ensures Trim(s) == s
  {
  }

  /** `t` is a prefix of `s` (`s.startsWith(t)`). */
  predicate StartsWith(s: string, t: string) {
    |t| <= |s| && s[..|t|] == t
  }

  /** `s.includes(t)`: `t` occurs somewhere in `s`. */
  predicate Contains(s: string, t: string)
    decreases |s|
  {
    StartsWith(s, t) || (|s| > 0 && Contains(s[1..], t))
  }

  /** An occurrence at a known position makes `includes` true. */
  lemma {:induction false} ContainsAt(s: string, t: string, i: nat)
    requires i + |t| <= |s| && s[i..i + |t|] == t
    ensures Contains(s, t)
    decreases i
  {
    if i == 0 {
      assert StartsWith(s, t);
    } else {
      assert s[1..][i - 1..i - 1 + |t|] == s[i..i + |t|];
      ContainsAt(s[1..], t, i - 1);
    }
  }

  /** `includes` is true only because of an occurrence at some position. */
  lemma {:induction false} ContainsPosition(s: string, t: string) returns (i: nat)
    requires Contains(s, t)
    ensures i + |t| <= |s| && s[i..i + |t|] == t
    decreases |s|
  {
    if StartsWith(s, t) {
      i := 0;
    } else {
      var j := ContainsPosition(s[1..], t);
      i := j + 1;
      assert s[i..i + |t|] == s[1..][j..j + |t|];
    }
  }

  function LowerChar(c: char): char {
    if 'A' <= c <= 'Z' then (c as int + 32) as char else c
  }

  /** `s.toLowerCase()` on the ASCII range. */
  function ToLower(s: string): (r: string)
    ensures |r| == |s|
    ensures forall i :: 0 <= i < |s| ==> r[i] == LowerChar(s[i])
  {
    seq(|s|, i requires 0 <= i < |s| => LowerChar(s[i]))
  }

  /** `s.replace(/pat/g, rep)` for a literal, non-empty pattern: left to
      right, non-overlapping. */
  function ReplaceAll(s: string, pat: string, rep: string): string
    requires |pat| > 0
    decreases |s|
  {
    if |s| == 0 then []
    else if StartsWith(s, pat) then rep + ReplaceAll(s[|pat|..], pat, rep)
    else [s[0]] + ReplaceAll(s[1..], pat, rep)
  }

  lemma {:induction false} ReplaceAllAbsent(s: string, pat: string, rep: string)
    requires |pat| > 0
    requires forall i :: 0 <= i < |s| ==> s[i] != pat[0]
    ensures ReplaceAll(s, pat, rep) == s
    decreases |s|
  {
    if |s| > 0 {
      assert !StartsWith(s, pat) by { assert s[0] != pat[0]; }
      ReplaceAllAbsent(s[1..], pat, rep);
    }
  }

  /** Where the pattern does not start, the first character stays. */
  lemma ReplaceMiss(c: char, r: string, pat: string, rep: string)
    requires |pat| > 0
    requires c != pat[0] || (|pat| > 1 && |r| > 0 && r[0] != pat[1])
    ensures ReplaceAll([c] + r, pat, rep) == [c] + ReplaceAll(r, pat, rep)
  {
    assert ([c] + r)[0] == c && ([c] + r)[1..] == r;
    if c == pat[0] {
      assert ([c] + r)[1] == r[0];
    }
  }

  /** Where the pattern starts, it is replaced. */
  lemma ReplaceHit(r: string, pat: string, rep: string)
    requires |pat| > 0
    ensures ReplaceAll(pat + r, pat, rep) == rep + ReplaceAll(r, pat, rep)
  {
    assert (pat + r)[..|pat|] == pat;
    assert (pat + r)[|pat|..] == r;
  }

  /** `text.replace(/\r\n/g, '\n')`. */
  function NormalizeNewlines(s: string): string {
    ReplaceAll(s, "\r\n", "\n")
  }

  /** The non-whitespace characters of `s`, in order. */
  function Squeeze(s: string): string
    decreases |s|
  {
    if |s| == 0 then [] else (if IsSpace(s[0]) then [] else [s[0]]) + Squeeze(s[1..])
  }

  lemma {:induction false} SqueezeAppend(a: string, b: string)
    ensures Squeeze(a + b) == Squeeze(a) + Squeeze(b)
    decreases |a|
  {
    if |a| == 0 {
      assert a + b == b;
    } else {
      assert (a + b)[0] == a[0];
      assert (a + b)[1..] == a[1..] + b;
      SqueezeAppend(a[1..], b);
    }
  }

  lemma {:induction false} SqueezeEmptyIffAllSpace(s: string)
    ensures Squeeze(s) == [] <==> AllSpace(s)
    decreases |s|
  {
    if |s| > 0 {
      SqueezeEmptyIffAllSpace(s[1..]);
      if AllSpace(s[1..]) && IsSpace(s[0]) {
        assert forall i :: 1 <= i < |s| ==> s[i] == s[1..][i - 1];
      }
      if AllSpace(s) {
        assert forall i :: 0 <= i < |s| - 1 ==> s[1..][i] == s[i + 1];
      }
    }
  }

  /** `\r\n` becoming `\n` removes only whitespace. */
  lemma {:induction false} SqueezeNormalize(s: string)
    ensures Squeeze(NormalizeNewlines(s)) == Squeeze(s)
    decreases |s|
  {
    if |s| > 0 {
      SqueezeNormalize(s[1..]);
      if StartsWith(s, "\r\n") {
        SqueezeNormalize(s[2..]);
        assert s == s[..2] + s[2..];
        SqueezeAppend(s[..2], s[2..]);
        SqueezeAppend("\n", ReplaceAll(s[2..], "\r\n", "\n"));
      } else {
        assert s == [s[0]] + s[1..];
        SqueezeAppend([s[0]], s[1..]);
        SqueezeAppend([s[0]], ReplaceAll(s[1..], "\r\n", "\n"));
      }
    }
  }

  /** `parts.join(sep)` with a one-element separator. */
  function Join<T>(parts: seq<seq<T>>, sep: T): seq<T> {
    if |parts| == 0 then []
    else if |parts| == 1 then parts[0]
    else parts[0] + [sep] + Join(parts[1..], sep)
  }

  /** `s.split(sep)` for a one-element separator: never empty, no part
      contains the separator, and joining the parts gives `s` back. */
  function Split<T(==)>(s: seq<T>, sep: T): (r: seq<seq<T>>)
    ensures |r| >= 1
    ensures forall k :: 0 <= k < |r| ==> sep !in r[k]
    ensures Join(r, sep) == s
    decreases |s|
  {
    if |s| == 0 then [[]]
    else
      var rest := Split(s[1..], sep);
      if s[0] == sep then
        assert s == [s[0]] + s[1..];
        [[]] + rest
      else
        var r := [[s[0]] + rest[0]] + rest[1..];
        assert Join(r, sep) == s by {
          if |rest| == 1 {
          } else {
            assert rest == [rest[0]] + rest[1..];
            assert r[1..] == rest[1..];
            assert s == [s[0]] + s[1..];
          }
        }
        r
  }
}

=== FILE: phrase_list.dfy ===
/** The phrase list panel: the lists it derives from the phrases, the
    batched refresh of the translations it shows, and which translation a
    row displays. */
module PhraseList {
  import opened Types

  /** The derived lists: by source, and the favourites. */
  datatype View = StandardView | AiView | UploadedView | FavouritesView

  predicate Shows(v: View, p: Phrase) {
    match v
    case StandardView => p.source == Some(Standard)
    case AiView => p.source == Some(AiGenerated)
    case UploadedView => p.source == Some(Uploaded)
    case FavouritesView => p.Favourite()
  }

  /** `phrases.filter(...)` for one view: keeps the order of the phrases. */
  function Filter(ps: seq<Phrase>, v: View): (r: seq<Phrase>)
    ensures |r| <= |ps|
    ensures forall p :: p in r <==> p in ps && Shows(v, p)
  {
    if |ps| == 0 then []
    else if Shows(v, ps[0]) then [ps[0]] + Filter(ps[1..], v)
    else Filter(ps[1..], v)
  }

  /** Phrases without a source belong to none of the three source lists. */
  function Unsourced(ps: seq<Phrase>): (r: seq<Phrase>)
    ensures forall p :: p in r <==> p in ps && p.source.None?
  {
    if |ps| == 0 then []
    else if ps[0].source.None? then [ps[0]] + Unsourced(ps[1..])
    else Unsourced(ps[1..])
  }

  /** The three source lists and the unsourced phrases split the phrases:
      every phrase lands in exactly one of them. */
  lemma {:induction false} SourceListsPartition(ps: seq<Phrase>)
    ensures |Filter(ps, StandardView)| + |Filter(ps, AiView)| + |Filter(ps, UploadedView)| + |Unsourced(ps)| == |ps|
  {
    if |ps| > 0 {
      SourceListsPartition(ps[1..]);
      match ps[0].source
      case None =>
      case Some(Standard) =>
      case Some(AiGenerated) =>
      case Some(Uploaded) =>
    }
  }

  /** The rows on screen: the favourites when that view is on, else all. */
  function Displayed(showFavouritesOnly: bool, ps: seq<Phrase>): (r: seq<Phrase>)
    ensures !showFavouritesOnly ==> r == ps
    ensures showFavouritesOnly ==> forall p :: p in r <==> p in ps && p.Favourite()
  {
    if showFavouritesOnly then Filter(ps, FavouritesView) else ps
  }

  /** Size of each batch of the refresh. */
  const BatchSize := 10
  /** Size of each group of concurrent lookups inside a batch. */
  const MaxConcurrent := 5

  function Min(a: int, b: int): int { if a <= b then a else b }

  /** A non-empty string, as JavaScript truthiness reads an optional one. */
  predicate Truthy(t: Option<string>) { t.Some? && t.value != "" }

  /** What the refresh records for one phrase: its own translation first;
      otherwise, when a language is chosen, the lookup's non-empty answer. */
  function Entry(p: Phrase, lang: TranslationLanguage, lookup: string -> Option<string>): (r: Option<string>)
    ensures r.Some? ==> r.value != ""
    ensures Truthy(p.translation) ==> r == p.translation
    ensures r.Some? && !Truthy(p.translation) ==> lang != NoLanguage && r == lookup(p.text)
  {
    if lang != NoLanguage then
      if Truthy(p.translation) then p.translation
      else if Truthy(lookup(p.text)) then lookup(p.text)
      else None
    else if Truthy(p.translation) then p.translation
    else None
  }

  function Record(acc: map<string, string>, p: Phrase, lang: TranslationLanguage, lookup: string -> Option<string>): map<string, string> {
    match Entry(p, lang, lookup)
    case Some(t) => acc[p.id := t]
    case None => acc
  }

  /** The reference for the refresh: the phrases visited one by one, in
      order, each recording its entry under its id. */
  function Collect(ps: seq<Phrase>, lang: TranslationLanguage, lookup: string -> Option<string>): map<string, string>
    decreases |ps|
  {
    if |ps| == 0 then map[]
    else Record(Collect(ps[..|ps| - 1], lang, lookup), ps[|ps| - 1], lang, lookup)
  }

  /** An id has a translation exactly when one of the phrases with that id
      has an entry. */
  lemma {:induction false} CollectDomain(ps: seq<Phrase>, lang: TranslationLanguage, lookup: string -> Option<string>, id: string)
    ensures id in Collect(ps, lang, lookup) <==>
            exists k :: 0 <= k < |ps| && ps[k].id == id && Entry(ps[k], lang, lookup).Some?
    decreases |ps|
  {
    if |ps| > 0 {
      var init := ps[..|ps| - 1];
      CollectDomain(init, lang, lookup, id);
      if id in Collect(ps, lang, lookup) && id !in Collect(init, lang, lookup) {
        assert ps[|ps| - 1].id == id && Entry(ps[|ps| - 1], lang, lookup).Some?;
      }
      if exists k :: 0 <= k < |ps| && ps[k].id == id && Entry(ps[k], lang, lookup).Some? {
        var k :| 0 <= k < |ps| && ps[k].id == id && Entry(ps[k], lang, lookup).Some?;
        if k < |ps| - 1 {
          assert init[k] == ps[k];
        }
      }
    }
  }

  /** Ids distinct within a list of phrases. */
  predicate DistinctIds(ps: seq<Phrase>) {
    forall a, b :: 0 <= a < b < |ps| ==> ps[a].id != ps[b].id
  }

  /** With distinct ids, the translation recorded for a phrase is its own
      entry. */
  lemma {:induction false} CollectValue(ps: seq<Phrase>, lang: TranslationLanguage, lookup: string -> Option<string>, k: nat)
    requires DistinctIds(ps) && k < |ps|
    ensures var m := Collect(ps, lang, lookup);
            match Entry(ps[k], lang, lookup)
            case Some(t) => ps[k].id in m && m[ps[k].id] == t
            case None => ps[k].id !in m
    decreases |ps|
  {
    var init := ps[..|ps| - 1];
    if k == |ps| - 1 {
      if ps[k].id in Collect(init, lang, lookup) {
        CollectDomain(init, lang, lookup, ps[k].id);
      }
    } else {
      assert init[k] == ps[k];
      CollectValue(init, lang, lookup, k);
    }
  }

  /** The first `|order|` displayed phrases have been visited, in order,
      and `acc` holds what they recorded. */
  predicate Visited(displayed: seq<Phrase>, lang: TranslationLanguage, lookup: string -> Option<string>,
                    acc: map<string, string>, order: seq<nat>) {
    && |order| <= |displayed|
    && (forall k :: 0 <= k < |order| ==> order[k] == k)
    && acc == Collect(displayed[..|order|], lang, lookup)
  }

  /** One group of concurrent lookups, positions `lo` to `hi`: each phrase
      first checks for cancellation and, once cancelled, every later one
      is skipped too. */
  method VisitGroup(displayed: seq<Phrase>, lang: TranslationLanguage, lookup: string -> Option<string>, cancelAt: nat,
                    lo: nat, hi: nat, acc: map<string, string>, order: seq<nat>)
    returns (acc': map<string, string>, order': seq<nat>)
    requires lo <= hi <= |displayed| && |order| == lo <= cancelAt
    requires Visited(displayed, lang, lookup, acc, order)
    ensures Visited(displayed, lang, lookup, acc', order')
    ensures |order'| == Min(hi, cancelAt)
  {
    acc', order' := acc, order;
    var g := lo;
    while g < hi
      invariant lo <= g <= hi && |order'| == g <= cancelAt
      invariant Visited(displayed, lang, lookup, acc', order')
    {
      if cancelAt <= |order'| {
        break;
      }
      assert displayed[..g + 1][..g] == displayed[..g];
      acc' := Record(acc', displayed[g], lang, lookup);
      order' := order' + [g];
      g := g + 1;
    }
  }

  /** One batch, positions `lo` to `hi`, in groups of `MaxConcurrent`, a
      cancellation check before each group. */
  method VisitBatch(displayed: seq<Phrase>, lang: TranslationLanguage, lookup: string -> Option<string>, cancelAt: nat,
                    lo: nat, hi: nat, acc: map<string, string>, order: seq<nat>)
    returns (acc': map<string, string>, order': seq<nat>)
    requires lo <= hi <= |displayed| && |order| == lo <= cancelAt
    requires Visited(displayed, lang, lookup, acc, order)
    ensures Visited(displayed, lang, lookup, acc', order')
    ensures |order'| == Min(hi, cancelAt)
  {
    acc', order' := acc, order;
    var j := lo;
    while j < hi
      invariant lo <= j && |order'| == Min(j, hi) <= cancelAt
      invariant Visited(displayed, lang, lookup, acc', order')
    {
      if cancelAt <= |order'| {
        break;
      }
      acc', order' := VisitGroup(displayed, lang, lookup, cancelAt, j, Min(j + MaxConcurrent, hi), acc', order');
      if cancelAt <= |order'| {
        break;
      }
      j := j + MaxConcurrent;
    }
  }

  /** The refresh effect: the displayed phrases in batches of ten, each
      batch in groups of five, a cancellation check before each batch, each
      group and each phrase, and the collected translations published only
      if the run was not cancelled. Cancellation is the environment's: it
      happens before visit number `cancelAt` (never, when `cancelAt`
      exceeds the number of phrases), and once set it stays set. `order`
      lists the visited positions. */
  method UpdateTranslations(displayed: seq<Phrase>, lang: TranslationLanguage, lookup: string -> Option<string>, cancelAt: nat)
    returns (result: Option<map<string, string>>, order: seq<nat>)
    ensures result.None? <==> cancelAt <= |displayed|
    ensures result.Some? ==> result.value == Collect(displayed, lang, lookup)
    ensures |order| == Min(cancelAt, |displayed|)
    ensures forall k :: 0 <= k < |order| ==> order[k] == k
  {
    var acc: map<string, string> := map[];
    order := [];
    var i := 0;
    while i < |displayed|
      invariant |order| == Min(i, |displayed|) <= cancelAt
      invariant Visited(displayed, lang, lookup, acc, order)
    {
      if cancelAt <= |order| {
        break;
      }
      acc, order := VisitBatch(displayed, lang, lookup, cancelAt, i, Min(i + BatchSize, |displayed|), acc, order);
      if cancelAt <= |order| {
        break;
      }
      i := i + BatchSize;
    }
    if cancelAt <= |displayed| {
      result := None;
    } else {
      assert displayed[..|order|] == displayed;
      result := Some(acc);
    }
  }

  /** A row's translation: the refreshed one if non-empty, else the
      phrase's own (`translations[id] || phrase.translation`). */
  function DisplayTranslation(translations: map<string, string>, p: Phrase): (r: Option<string>)
    ensures p.id in translations && translations[p.id] != "" ==> r == Some(translations[p.id])
    ensures !(p.id in translations && translations[p.id] != "") ==> r == p.translation
  {
    if p.id in translations && translations[p.id] != "" then Some(translations[p.id]) else p.translation
  }

  /** After a completed refresh, a row with distinct ids shows its own
      translation when it has one, else the lookup's answer when a
      language is chosen and the lookup has one, else whatever the phrase
      carries. */
  lemma DisplayAfterRefresh(displayed: seq<Phrase>, lang: TranslationLanguage, lookup: string -> Option<string>, k: nat)
    requires DistinctIds(displayed) && k < |displayed|
    ensures var p := displayed[k];
            DisplayTranslation(Collect(displayed, lang, lookup), p) ==
              if Truthy(p.translation) then p.translation
              else if lang != NoLanguage && Truthy(lookup(p.text)) then lookup(p.text)
              else p.translation
  {
    CollectValue(displayed, lang, lookup, k);
  }
}

=== FILE: phrase_scanner.dfy ===
/** The phrase extraction and the generated-file escaping shared by the
    three translation scripts: the `phrases = [ ... ];` blocks of the
    phrase data file, the single-quoted-string scanner run over each
    block, the cleaning of what it collects, the de-duplication of the
    result, and the escaping of phrases and translations written back. */
module PhraseScanner {
  import opened Types
  import opened JsText

  // ---------------------------------------------------------------------
  // Finding the blocks

  /** The first position at or after `i` that is not whitespace. */
  function SkipSpace(s: string, i: nat): (j: nat)
    requires i <= |s|
    ensures i <= j <= |s| && AllSpace(s[i..j])
    ensures j < |s| ==> !IsSpace(s[j])
    decreases |s| - i
  {
    if i < |s| && IsSpace(s[i]) then SkipSpace(s, i + 1) else i
  }

  /** Where the text after `phrases\s*=\s*\[` begins, when the match of
      that prefix starts at `p`. */
  function HeaderEnd(s: string, p: nat): (r: Option<nat>)
    requires p <= |s|
    ensures r.Some? ==> p + 9 <= r.value <= |s| && s[r.value - 1] == '['
  {
    if StartsWith(s[p..], "phrases") then
      var q := SkipSpace(s, p + 7);
      if q < |s| && s[q] == '=' then
        var q2 := SkipSpace(s, q + 1);
        if q2 < |s| && s[q2] == '[' then Some(q2 + 1) else None
      else None
    else None
  }

  predicate ClosesAt(s: string, k: nat) {
    k + 2 <= |s| && s[k] == ']' && s[k + 1] == ';'
  }

  /** The lazy `[\s\S]*?\];`: the first `];` at or after `q`. */
  function CloseAt(s: string, q: nat): (r: Option<nat>)
    requires q <= |s|
    ensures r.Some? ==> q <= r.value && ClosesAt(s, r.value)
    ensures r.Some? ==> forall k :: q <= k < r.value ==> !ClosesAt(s, k)
    ensures r.None? ==> forall k :: q <= k ==> !ClosesAt(s, k)
    decreases |s| - q
  {
    if q + 2 > |s| then None
    else if ClosesAt(s, q) then Some(q)
    else CloseAt(s, q + 1)
  }

  /** No `];` inside a block. */
  predicate Unclosed(b: string) {
    forall k :: 0 <= k < |b| - 1 ==> !(b[k] == ']' && b[k + 1] == ';')
  }

  /** The captured blocks of `/phrases\s*=\s*\[([\s\S]*?)\];/g`, searched
      from position `p` on: each match starts at the first position where
      the whole pattern matches, and the search resumes after it. */
  function Blocks(s: string, p: nat): (r: seq<string>)
    requires p <= |s|
    ensures forall i :: 0 <= i < |r| ==> Unclosed(r[i])
    decreases |s| - p
  {
    if p == |s| then []
    else
      var h := HeaderEnd(s, p);
      if h.Some? && CloseAt(s, h.value).Some? then
        var k := CloseAt(s, h.value).value;
        assert Unclosed(s[h.value..k]) by {
          forall j | 0 <= j < k - h.value - 1 ensures !(s[h.value..k][j] == ']' && s[h.value..k][j + 1] == ';') {
            assert !ClosesAt(s, h.value + j);
          }
        }
        [s[h.value..k]] + Blocks(s, k + 2)
      else Blocks(s, p + 1)
  }

  /** The header test succeeds once each of its three steps does. */
  lemma HeaderFound(s: string, n: nat)
    requires 9 + 2 * n <= |s| && s[0..][..7] == "phrases"
    requires SkipSpace(s, 7) == 7 + n && s[7 + n] == '='
    requires SkipSpace(s, 8 + n) == 8 + 2 * n && s[8 + 2 * n] == '['
    ensures HeaderEnd(s, 0) == Some(9 + 2 * n)
  {
    assert StartsWith(s[0..], "phrases");
  }

  /** A lone block written as `phrases = [` ... `];` is found whole. */
  lemma OneBlock(spaces: string, body: string)
    requires AllSpace(spaces) && Unclosed(body)
    ensures Blocks("phrases" + spaces + "=" + spaces + "[" + body + "];", 0) == [body]
  {
    var pre := "phrases" + spaces + "=" + spaces + "[";
    var s := pre + body + "];";
    HeaderOf(spaces, body + "];");
    Associate(pre, body, "];");
    BodyCloses(pre, body);
    var q, k := |pre|, |pre + body|;
    assert q == 9 + 2 * |spaces| && k + 2 == |s|;
    OnlyBlock(s, q, k);
  }

  /** The header `phrases = [` with the same whitespace around `=`. */
  lemma HeaderOf(spaces: string, rest: string)
    requires AllSpace(spaces)
    ensures HeaderEnd("phrases" + spaces + "=" + spaces + "[" + rest, 0) == Some(9 + 2 * |spaces|)
  {
    var s := "phrases" + spaces + "=" + spaces + "[" + rest;
    var n := |spaces|;
    assert s[0..][..7] == "phrases";
    SkipAll(s, 7, spaces);
    assert s[7 + n] == '=';
    SkipAll(s, 8 + n, spaces);
    assert s[8 + 2 * n] == '[';
    HeaderFound(s, n);
  }

  /** After the header, the first `];` is the one that ends the text. */
  lemma BodyCloses(pre: string, body: string)
    requires Unclosed(body)
    ensures CloseAt(pre + body + "];", |pre|) == Some(|pre + body|)
    ensures (pre + body + "];")[|pre|..|pre + body|] == body
  {
    var s := pre + body + "];";
    var q, k := |pre|, |pre + body|;
    forall j | q <= j < k ensures !ClosesAt(s, j) {
      assert s[j] == body[j - q];
      if j + 1 < k {
        assert s[j + 1] == body[j + 1 - q];
      } else {
        assert s[j + 1] == ']';
      }
    }
    CloseFirst(s, q, k);
    assert s[q..k] == body;
  }

  /** A header whose block closes at the very end makes one block. */
  lemma OnlyBlock(s: string, q: nat, k: nat)
    requires HeaderEnd(s, 0) == Some(q) && q <= k && CloseAt(s, q) == Some(k) && k + 2 == |s|
    ensures Blocks(s, 0) == [s[q..k]]
  {
  }


  lemma {:induction false} SkipAll(s: string, i: nat, spaces: string)
    requires i + |spaces| < |s| && s[i..i + |spaces|] == spaces && AllSpace(spaces)
    requires !IsSpace(s[i + |spaces|])
    ensures SkipSpace(s, i) == i + |spaces|
    decreases |spaces|
  {
    if |spaces| > 0 {
      assert s[i] == spaces[0];
      assert s[i + 1..i + |spaces|] == spaces[1..];
      SkipAll(s, i + 1, spaces[1..]);
    }
  }

  lemma CloseFirst(s: string, q: nat, k: nat)
    requires q <= k && ClosesAt(s, k)
    requires forall j :: q <= j < k ==> !ClosesAt(s, j)
    ensures CloseAt(s, q) == Some(k)
  {
  }

  // ---------------------------------------------------------------------
  // Cleaning and escaping

  /** `.replace(/\\'/g, "'").replace(/\\n/g, '\n')`. */
  function Unescape(s: string): string {
    ReplaceAll(ReplaceAll(s, "\\'", "'"), "\\n", "\n")
  }

  /** The cleaning of a collected string: unescaped, then trimmed. */
  function Clean(s: string): string {
    Trim(Unescape(s))
  }

  /** The generator's escaping of a phrase: `'` becomes `\'`. */
  function EscapePhrase(s: string): string {
    ReplaceAll(s, "'", "\\'")
  }

  /** The generator's escaping of a translation: `'` becomes `\'`, then a
      newline becomes `\n`. */
  function EscapeTranslation(s: string): string {
    ReplaceAll(EscapePhrase(s), "\n", "\\n")
  }

  predicate NoBackslash(s: string) {
    forall i :: 0 <= i < |s| ==> s[i] != '\\'
  }

  lemma ReplaceCharCons(c: char, r: string, pat: string, rep: string)
    requires |pat| == 1
    ensures ReplaceAll([c] + r, pat, rep) == (if c == pat[0] then rep else [c]) + ReplaceAll(r, pat, rep)
  {
    assert ([c] + r)[1..] == r;
    assert StartsWith([c] + r, pat) <==> c == pat[0];
  }

  /** What one character of a phrase becomes. */
  function PhrasePiece(c: char): string {
    if c == '\'' then "\\'" else [c]
  }

  /** What one character of a translation becomes. */
  function TranslationPiece(c: char): string {
    if c == '\'' then "\\'" else if c == '\n' then "\\n" else [c]
  }

  lemma EscapePhraseCons(c: char, r: string)
    ensures EscapePhrase([c] + r) == PhrasePiece(c) + EscapePhrase(r)
  {
    ReplaceCharCons(c, r, "'", "\\'");
  }

  lemma EscapeTranslationCons(c: char, r: string)
    ensures EscapeTranslation([c] + r) == TranslationPiece(c) + EscapeTranslation(r)
  {
    EscapePhraseCons(c, r);
    var e := EscapePhrase(r);
    if c == '\'' {
      assert PhrasePiece(c) + e == ['\\'] + (['\''] + e);
      ReplaceCharCons('\\', ['\''] + e, "\n", "\\n");
      ReplaceCharCons('\'', e, "\n", "\\n");
    } else {
      ReplaceCharCons(c, e, "\n", "\\n");
    }
  }

  /** Removing the escaped quotes of an escaped phrase gives it back. */
  lemma {:induction false} UnquotePhrase(s: string)
    requires NoBackslash(s)
    ensures ReplaceAll(EscapePhrase(s), "\\'", "'") == s
  {
    if |s| > 0 {
      var c, r := s[0], s[1..];
      assert s == [c] + r;
      EscapePhraseCons(c, r);
      UnquotePhrase(r);
      var e := EscapePhrase(r);
      if c == '\'' {
        ReplaceHit(e, "\\'", "'");
      } else {
        ReplaceMiss(c, e, "\\'", "'");
      }
    }
  }


  /** Removing the escaped quotes of an escaped translation leaves its
      newlines escaped. */
  lemma {:induction false} UnquoteTranslation(s: string)
    requires NoBackslash(s)
    ensures ReplaceAll(EscapeTranslation(s), "\\'", "'") == ReplaceAll(s, "\n", "\\n")
  {
    if |s| > 0 {
      var c, r := s[0], s[1..];
      assert s == [c] + r;
      EscapeTranslationCons(c, r);
      ReplaceCharCons(c, r, "\n", "\\n");
      UnquoteTranslation(r);
      var e := EscapeTranslation(r);
      if c == '\'' {
        ReplaceHit(e, "\\'", "'");
      } else if c == '\n' {
        ReplaceMiss('n', e, "\\'", "'");
        ReplaceMiss('\\', ['n'] + e, "\\'", "'");
        Associate(['\\'], ['n'], e);
        Associate(['\\'], ['n'], ReplaceAll(e, "\\'", "'"));
      } else {
        ReplaceMiss(c, e, "\\'", "'");
      }
    }
  }


  /** Turning escaped newlines back undoes escaping them. */
  lemma {:induction false} UnescapeNewlines(s: string)
    requires NoBackslash(s)
    ensures ReplaceAll(ReplaceAll(s, "\n", "\\n"), "\\n", "\n") == s
  {
    if |s| > 0 {
      var c, r := s[0], s[1..];
      assert s == [c] + r;
      ReplaceCharCons(c, r, "\n", "\\n");
      UnescapeNewlines(r);
      var e := ReplaceAll(r, "\n", "\\n");
      if c == '\n' {
        assert ("\\n" + e)[2..] == e;
      } else {
        assert ([c] + e)[1..] == e;
      }
    }
  }

  /** For a string without backslashes, the cleaning undoes the escaping
      of a phrase and of a translation, up to the trimming. */
  lemma CleanUndoesEscaping(s: string)
    requires NoBackslash(s)
    ensures Unescape(EscapePhrase(s)) == s
    ensures Unescape(EscapeTranslation(s)) == s
    ensures Clean(EscapePhrase(s)) == Trim(s) && Clean(EscapeTranslation(s)) == Trim(s)
  {
    UnquotePhrase(s);
    ReplaceAllAbsent(s, "\\n", "\n");
    UnquoteTranslation(s);
    UnescapeNewlines(s);
  }

  // ---------------------------------------------------------------------
  // The scanner

  /** The scanner's state: the string being collected, whether it is
      inside quotes, whether the next character is escaped, and the
      phrases found so far. */
  datatype Scan = Scan(current: string, inQuotes: bool, escapeNext: bool, found: seq<string>)

  const Start := Scan("", false, false, [])

  /** A phrase as the scanner keeps it: non-empty and trimmed. */
  predicate TidyPhrase(p: string) {
    |p| > 0 && !IsSpace(p[0]) && !IsSpace(p[|p| - 1])
  }

  lemma TidyIsTrimmed(p: string)
    requires TidyPhrase(p)
    ensures p != "" && Trim(p) == p
  {
    TrimOfTrimmed(p);
  }

  /** Every phrase found is non-empty and trimmed. */
  predicate Tidy(found: seq<string>) {
    forall i :: 0 <= i < |found| ==> TidyPhrase(found[i])
  }

  /** A collected string that trims to something is cleaned and, when the
      cleaning leaves something, kept. */
  function Emit(found: seq<string>, current: string): (r: seq<string>)
    ensures r == found || r == found + [Clean(current)]
    ensures r == found + [Clean(current)] <==> Trim(current) != "" && Clean(current) != ""
  {
    var cleaned := Clean(current);
    if Trim(current) != "" && cleaned != "" then found + [cleaned]
    else found
  }

  lemma EmitTidy(found: seq<string>, current: string)
    requires Tidy(found)
    ensures Tidy(Emit(found, current))
  {
    var r := Emit(found, current);
    var c := Clean(current);
    if r != found {
      assert TidyPhrase(c);
      forall i | 0 <= i < |r| ensures TidyPhrase(r[i]) {
        if i < |found| {
          assert r[i] == found[i];
        } else {
          assert r[i] == c;
        }
      }
    }
  }

  /** One character. A backslash is kept and makes the next character
      literal, wherever it appears; a quote that is not escaped opens or
      closes a string, and closing emits it; other characters are kept
      inside quotes. Opening a quote does not reset what was collected. */
  function Step(st: Scan, c: char): Scan {
    if st.escapeNext then st.(current := st.current + [c], escapeNext := false)
    else if c == '\\' then st.(current := st.current + [c], escapeNext := true)
    else if c == '\'' then
      if st.inQuotes then Scan("", false, false, Emit(st.found, st.current))
      else st.(inQuotes := true)
    else if st.inQuotes then st.(current := st.current + [c])
    else st
  }

  function Run(st: Scan, block: string): Scan
    decreases |block|
  {
    if |block| == 0 then st else Run(Step(st, block[0]), block[1..])
  }

  /** One block: the scan, then the string left open at the end, if any. */
  function ScanBlock(block: string): seq<string> {
    var st := Run(Start, block);
    Emit(st.found, st.current)
  }

  lemma {:induction false} RunAppend(st: Scan, a: string, b: string)
    ensures Run(st, a + b) == Run(Run(st, a), b)
    decreases |a|
  {
    if |a| > 0 {
      assert (a + b)[0] == a[0] && (a + b)[1..] == a[1..] + b;
      RunAppend(Step(st, a[0]), a[1..], b);
      assert Run(st, a + b) == Run(Step(st, a[0]), a[1..] + b);
      assert Run(st, a) == Run(Step(st, a[0]), a[1..]);
    } else {
      assert a + b == b;
    }
  }

  lemma {:induction false} RunKeepsTidy(st: Scan, block: string)
    requires Tidy(st.found)
    ensures Tidy(Run(st, block).found)
    decreases |block|
  {
    if |block| > 0 {
      if !st.escapeNext && block[0] == '\'' && st.inQuotes {
        EmitTidy(st.found, st.current);
      }
      RunKeepsTidy(Step(st, block[0]), block[1..]);
    }
  }

  /** What a block yields is non-empty and trimmed. */
  lemma ScanBlockTidy(block: string)
    ensures Tidy(ScanBlock(block))
  {
    RunKeepsTidy(Start, block);
    var st := Run(Start, block);
    EmitTidy(st.found, st.current);
  }

  /** Text without quotes or backslashes. */
  predicate Plain(t: string)
    decreases |t|
  {
    |t| == 0 || (t[0] != '\'' && t[0] != '\\' && Plain(t[1..]))
  }

  /** Text outside quotes without quotes or backslashes changes nothing. */
  lemma {:induction false} RunOutside(st: Scan, t: string)
    requires !st.inQuotes && !st.escapeNext
    requires Plain(t)
    ensures Run(st, t) == st
    decreases |t|
  {
    if |t| > 0 {
      RunOutside(st, t[1..]);
    }
  }

  /** A piece the scanner collects whole inside quotes: one ordinary
      character, or a backslash and the character it escapes. */
  predicate Collectable(piece: string) {
    (|piece| == 1 && piece[0] != '\\' && piece[0] != '\'') || (|piece| == 2 && piece[0] == '\\')
  }

  lemma RunCollected(a: string, found: seq<string>, piece: string)
    requires Collectable(piece)
    ensures Run(Scan(a, true, false, found), piece) == Scan(a + piece, true, false, found)
  {
    var st := Scan(a, true, false, found);
    if |piece| == 1 {
      assert piece[1..] == [];
      assert Run(st, piece) == Step(st, piece[0]);
      assert [piece[0]] == piece;
    } else {
      var mid := Step(st, piece[0]);
      assert mid == Scan(a + ['\\'], true, true, found);
      assert piece[1..][1..] == [];
      assert Run(st, piece) == Run(mid, piece[1..]) == Step(mid, piece[1]);
      assert a + ['\\'] + [piece[1]] == a + piece;
    }
  }

  /** Collecting a piece, then the rest, collects both. */
  lemma CollectThen(a: string, found: seq<string>, piece: string, rest: string)
    requires Collectable(piece)
    requires Run(Scan(a + piece, true, false, found), rest) == Scan(a + piece + rest, true, false, found)
    ensures Run(Scan(a, true, false, found), piece + rest) == Scan(a + (piece + rest), true, false, found)
  {
    RunAppend(Scan(a, true, false, found), piece, rest);
    RunCollected(a, found, piece);
    Associate(a, piece, rest);
  }

  lemma Associate(a: string, b: string, c: string)
    ensures a + b + c == a + (b + c)
  {
  }

  /** Inside quotes an escaped translation is collected as it stands. */
  lemma {:induction false} RunEscapedTranslation(st: Scan, s: string)
    requires st.inQuotes && !st.escapeNext && NoBackslash(s)
    ensures Run(st, EscapeTranslation(s)) == st.(current := st.current + EscapeTranslation(s))
    decreases |s|
  {
    if |s| > 0 {
      var c, r := s[0], s[1..];
      assert s == [c] + r && c != '\\';
      EscapeTranslationCons(c, r);
      var piece := TranslationPiece(c);
      RunEscapedTranslation(st.(current := st.current + piece), r);
      CollectThen(st.current, st.found, piece, EscapeTranslation(r));
    }
  }

  /** Inside quotes an escaped phrase is collected as it stands. */
  lemma {:induction false} RunEscapedPhrase(st: Scan, s: string)
    requires st.inQuotes && !st.escapeNext && NoBackslash(s)
    ensures Run(st, EscapePhrase(s)) == st.(current := st.current + EscapePhrase(s))
    decreases |s|
  {
    if |s| > 0 {
      var c, r := s[0], s[1..];
      assert s == [c] + r && c != '\\';
      EscapePhraseCons(c, r);
      var piece := PhrasePiece(c);
      RunEscapedPhrase(st.(current := st.current + piece), r);
      CollectThen(st.current, st.found, piece, EscapePhrase(r));
    }
  }

  /** What a quoted string yields: its trimmed text, unless blank. */
  function Kept(s: string): seq<string> {
    if AllSpace(s) then [] else [Trim(s)]
  }

  lemma EmitKept(found: seq<string>, s: string, e: string)
    requires Unescape(e) == s
    ensures Emit(found, e) == found + Kept(s)
  {
    TrimEmptyIffAllSpace(s);
    if Trim(e) == "" {
      TrimEmptyIffAllSpace(e);
      ReplaceAllAbsent(e, "\\'", "'");
      ReplaceAllAbsent(e, "\\n", "\n");
    }
  }

  lemma OpenQuote(st: Scan)
    requires st == Scan("", false, false, st.found)
    ensures Run(st, "'") == st.(inQuotes := true)
  {
  }

  lemma CloseQuote(st: Scan)
    requires st.inQuotes && !st.escapeNext
    ensures Run(st, "'") == Scan("", false, false, Emit(st.found, st.current))
  {
  }

  /** A quoted escaped translation, scanned from a settled state, yields
      its trimmed text unless it is blank. */
  lemma QuotedTranslation(st: Scan, s: string)
    requires st == Scan("", false, false, st.found) && NoBackslash(s)
    ensures Run(st, "'" + EscapeTranslation(s) + "'") == Scan("", false, false, st.found + Kept(s))
  {
    var e := EscapeTranslation(s);
    RunAppend(st, "'" + e, "'");
    RunAppend(st, "'", e);
    OpenQuote(st);
    var open := st.(inQuotes := true);
    RunEscapedTranslation(open, s);
    assert open.current + e == e;
    var filled := open.(current := e);
    assert Run(st, "'" + e) == filled;
    CloseQuote(filled);
    CleanUndoesEscaping(s);
    EmitKept(st.found, s, e);
  }

  /** The same for a quoted escaped phrase. */
  lemma QuotedPhrase(st: Scan, s: string)
    requires st == Scan("", false, false, st.found) && NoBackslash(s)
    ensures Run(st, "'" + EscapePhrase(s) + "'") == Scan("", false, false, st.found + Kept(s))
  {
    var e := EscapePhrase(s);
    RunAppend(st, "'" + e, "'");
    RunAppend(st, "'", e);
    OpenQuote(st);
    var open := st.(inQuotes := true);
    RunEscapedPhrase(open, s);
    assert open.current + e == e;
    var filled := open.(current := e);
    assert Run(st, "'" + e) == filled;
    CloseQuote(filled);
    CleanUndoesEscaping(s);
    EmitKept(st.found, s, e);
  }

  /** A quote left open at the end of a block still yields its string. */
  lemma UnterminatedIsKept(s: string)
    requires forall i :: 0 <= i < |s| ==> s[i] != '\'' && s[i] != '\\'
    ensures ScanBlock("'" + s) == Kept(s)
  {
    RunAppend(Start, "'", s);
    OpenQuote(Start);
    var open := Start.(inQuotes := true);
    RunPlainInside(open, s);
    assert open.current + s == s;
    assert Run(Start, "'" + s) == open.(current := s);
    assert NoBackslash(s);
    ReplaceAllAbsent(s, "\\'", "'");
    ReplaceAllAbsent(s, "\\n", "\n");
    EmitKept([], s, s);
  }

  lemma {:induction false} RunPlainInside(st: Scan, s: string)
    requires st.inQuotes && !st.escapeNext
    requires forall i :: 0 <= i < |s| ==> s[i] != '\'' && s[i] != '\\'
    ensures Run(st, s) == st.(current := st.current + s)
    decreases |s|
  {
    if |s| > 0 {
      var st' := st.(current := st.current + [s[0]]);
      RunPlainInside(st', s[1..]);
      assert st.current + [s[0]] + s[1..] == st.current + s;
    }
  }

  /** Nothing collected, nothing emitted. */
  lemma EmitNothing(found: seq<string>)
    ensures Emit(found, "") == found
  {
    TrimEmptyIffAllSpace("");
  }

  lemma LeakPrefix(c: char)
    ensures Run(Start, ['\\', c, '\'']) == Scan(['\\', c], true, false, [])
  {
    var st1 := Scan(['\\'], false, true, []);
    var st2 := Scan(['\\', c], false, false, []);
    var st3 := Scan(['\\', c], true, false, []);
    var b := ['\\', c, '\''];
    assert Step(Start, '\\') == st1;
    assert Step(st1, c) == st2;
    assert Step(st2, '\'') == st3;
    assert b[1..] == [c, '\''] && [c, '\''][1..] == ['\''] && ['\''][1..] == [];
    assert Run(Start, b) == Run(st1, [c, '\'']);
    assert Run(st1, [c, '\'']) == Run(st2, ['\'']);
    assert Run(st2, ['\'']) == Run(st3, []);
  }

  lemma LeakClean(c: char, s: string)
    requires c != '\'' && c != '\\' && c != 'n' && !IsSpace(c)
    requires NoBackslash(s)
    ensures Unescape(['\\', c] + s) == ['\\', c] + s
    ensures Trim(['\\', c] + s) != ""
  {
    var t := ['\\', c] + s;
    ReplaceAllAbsent(s, "\\'", "'");
    ReplaceAllAbsent(s, "\\n", "\n");
    var u := [c] + s;
    assert t == ['\\'] + u;
    ReplaceMiss(c, s, "\\'", "'");
    ReplaceMiss('\\', u, "\\'", "'");
    ReplaceMiss(c, s, "\\n", "\n");
    ReplaceMiss('\\', u, "\\n", "\n");
    TrimEmptyIffAllSpace(t);
    assert !IsSpace(t[0]);
  }

  /** A backslash outside quotes is collected with the character after
      it, and what is collected is carried into the next quoted string. */
  lemma EscapeOutsideLeaks(c: char, s: string)
    requires c != '\'' && c != '\\' && c != 'n' && !IsSpace(c)
    requires forall i :: 0 <= i < |s| ==> s[i] != '\'' && s[i] != '\\'
    ensures ScanBlock(['\\', c, '\''] + s + ['\'']) == [Trim(['\\', c] + s)]
  {
    var t := ['\\', c] + s;
    var pre := ['\\', c, '\''];
    var open := Scan(['\\', c], true, false, []);
    LeakPrefix(c);
    RunPlainInside(open, s);
    var filled := open.(current := t);
    assert Run(open, s) == filled;
    CloseQuote(filled);
    RunAppend(Start, pre, s);
    RunAppend(Start, pre + s, ['\'']);
    var final := Scan("", false, false, Emit([], t));
    assert Run(Start, pre + s + ['\'']) == final;
    EmitNothing(final.found);
    LeakClean(c, s);
  }

  // ---------------------------------------------------------------------
  // De-duplication

  /** `[...new Set(xs)]`, the elements not in `seen` on the way in: first
      occurrences, in order. */
  function DedupeFrom(xs: seq<string>, seen: set<string>): (r: seq<string>)
    ensures forall x :: x in r <==> x in xs && x !in seen
    ensures forall i, j :: 0 <= i < j < |r| ==> r[i] != r[j]
    decreases |xs|
  {
    if |xs| == 0 then []
    else if xs[0] in seen then DedupeFrom(xs[1..], seen)
    else [xs[0]] + DedupeFrom(xs[1..], seen + {xs[0]})
  }

  function Dedupe(xs: seq<string>): seq<string> {
    DedupeFrom(xs, {})
  }

  /** Adding an element at the end adds it once, at the end, if it is
      new: so the result lists first occurrences in the order they came. */
  lemma {:induction false} DedupeSnoc(xs: seq<string>, seen: set<string>, x: string)
    ensures DedupeFrom(xs + [x], seen) ==
            DedupeFrom(xs, seen) + (if x in xs || x in seen then [] else [x])
    decreases |xs|
  {
    if |xs| > 0 {
      assert (xs + [x])[0] == xs[0] && (xs + [x])[1..] == xs[1..] + [x];
      if xs[0] in seen {
        DedupeSnoc(xs[1..], seen, x);
      } else {
        DedupeSnoc(xs[1..], seen + {xs[0]}, x);
      }
    } else {
      assert xs + [x] == [x];
    }
  }

  /** A list without repeats comes through unchanged. */
  lemma {:induction false} DedupeDistinct(xs: seq<string>, seen: set<string>)
    requires forall i, j :: 0 <= i < j < |xs| ==> xs[i] != xs[j]
    requires forall i :: 0 <= i < |xs| ==> xs[i] !in seen
    ensures DedupeFrom(xs, seen) == xs
    decreases |xs|
  {
    if |xs| > 0 {
      DedupeDistinct(xs[1..], seen + {xs[0]});
    }
  }

  /** The blank filter after de-duplication: `.filter(p => p.trim().length > 0)`. */
  function NonBlank(xs: seq<string>): (r: seq<string>)
    ensures forall x :: x in r <==> x in xs && Trim(x) != ""
    decreases |xs|
  {
    if |xs| == 0 then []
    else if Trim(xs[0]) != "" then [xs[0]] + NonBlank(xs[1..])
    else NonBlank(xs[1..])
  }

  lemma {:induction false} NonBlankOfTidy(xs: seq<string>)
    requires Tidy(xs)
    ensures NonBlank(xs) == xs
    decreases |xs|
  {
    if |xs| > 0 {
      var t := xs[1..];
      assert Tidy(t) by {
        forall i | 0 <= i < |t| ensures TidyPhrase(t[i]) {
          assert t[i] == xs[i + 1];
        }
      }
      NonBlankOfTidy(t);
      TrimOfTrimmed(xs[0]);
      assert xs == [xs[0]] + t;
    }
  }

  function ScanAll(blocks: seq<string>): seq<string>
    decreases |blocks|
  {
    if |blocks| == 0 then [] else ScanBlock(blocks[0]) + ScanAll(blocks[1..])
  }

  lemma {:induction false} ScanAllTidy(blocks: seq<string>)
    ensures Tidy(ScanAll(blocks))
    decreases |blocks|
  {
    if |blocks| > 0 {
      ScanBlockTidy(blocks[0]);
      ScanAllTidy(blocks[1..]);
    }
  }

  /** `extractPhrases`: every block scanned, the phrases de-duplicated and
      the blank ones dropped. */
  function ExtractPhrases(content: string): seq<string> {
    NonBlank(Dedupe(ScanAll(Blocks(content, 0))))
  }

  /** The extracted phrases are non-empty, trimmed and distinct, the blank
      filter removes nothing, and a phrase is extracted exactly when some
      block yields it. */
  lemma ExtractedPhrases(content: string)
    ensures var r := ExtractPhrases(content);
            && Tidy(r)
            && r == Dedupe(ScanAll(Blocks(content, 0)))
            && (forall i, j :: 0 <= i < j < |r| ==> r[i] != r[j])
            && (forall p :: p in r <==> p in ScanAll(Blocks(content, 0)))
  {
    var all := ScanAll(Blocks(content, 0));
    ScanAllTidy(Blocks(content, 0));
    var d := Dedupe(all);
    assert Tidy(d) by {
      forall i | 0 <= i < |d| ensures TidyPhrase(d[i]) {
        assert d[i] in all;
      }
    }
    NonBlankOfTidy(d);
  }

  // ---------------------------------------------------------------------
  // The generated entries

  /** The target languages, in the order the scripts list them. */
  const Languages := [El, Es, Fr, De, It, Pt, Ru, Zh, Ja, Ko, Ar]

  /** A string between single quotes. */
  function Quote(x: string): string {
    "'" + x + "'"
  }

  /** The line of one translation. */
  function TranslationLine(l: TranslationLanguage, t: string): string {
    "    " + LanguageCode(l) + ": " + Quote(EscapeTranslation(t)) + ",\n"
  }

  /** The lines of one entry for the languages `ls`: a language whose
      translation is empty is left out. */
  function TranslationLines(ls: seq<TranslationLanguage>, trans: TranslationLanguage -> string): string
    decreases |ls|
  {
    if |ls| == 0 then ""
    else
      var t := trans(ls[0]);
      (if t != "" then TranslationLine(ls[0], t) else "") + TranslationLines(ls[1..], trans)
  }

  /** One entry of the generated table. */
  function Entry(phrase: string, trans: TranslationLanguage -> string): string {
    "  t(" + Quote(EscapePhrase(phrase)) + ", {\n" + TranslationLines(Languages, trans) + "  }),\n"
  }

  /** What the scanner yields for the translations of `ls`. */
  function KeptTranslations(ls: seq<TranslationLanguage>, trans: TranslationLanguage -> string): seq<string>
    decreases |ls|
  {
    if |ls| == 0 then []
    else (if trans(ls[0]) != "" then Kept(trans(ls[0])) else []) + KeptTranslations(ls[1..], trans)
  }

  lemma {:induction false} PlainAppend(a: string, b: string)
    requires Plain(a) && Plain(b)
    ensures Plain(a + b)
    decreases |a|
  {
    if |a| > 0 {
      assert (a + b)[1..] == a[1..] + b;
      PlainAppend(a[1..], b);
    } else {
      assert a + b == b;
    }
  }

  /** Lower-case letters are never a quote or a backslash. */
  lemma {:induction false} PlainLetters(t: string)
    requires forall i :: 0 <= i < |t| ==> 'a' <= t[i] <= 'z'
    ensures Plain(t)
    decreases |t|
  {
    if |t| > 0 {
      PlainLetters(t[1..]);
    }
  }

  lemma LanguageCodePlain(l: TranslationLanguage)
    ensures Plain("    " + LanguageCode(l) + ": ")
  {
    PlainLetters(LanguageCode(l));
    PlainAppend("    ", LanguageCode(l));
    PlainAppend("    " + LanguageCode(l), ": ");
  }

  /** The indentation and key before a translation leave the scanner idle. */
  lemma LineHead(st: Scan, l: TranslationLanguage)
    requires st == Scan("", false, false, st.found)
    ensures Run(st, "    " + LanguageCode(l) + ": ") == st
  {
    LanguageCodePlain(l);
    RunOutside(st, "    " + LanguageCode(l) + ": ");
  }

  /** So does the comma that ends the line. */
  lemma LineTail(st: Scan)
    requires st == Scan("", false, false, st.found)
    ensures Run(st, ",\n") == st
  {
    RunOutside(st, ",\n");
  }

  lemma RunThree(st: Scan, a: string, b: string, c: string)
    ensures Run(st, a + b + c) == Run(Run(Run(st, a), b), c)
  {
    RunAppend(st, a + b, c);
    RunAppend(st, a, b);
  }

  /** One translation line, scanned from a settled state. */
  lemma ScanTranslationLine(st: Scan, l: TranslationLanguage, t: string)
    requires st == Scan("", false, false, st.found) && NoBackslash(t)
    ensures Run(st, TranslationLine(l, t)) == Scan("", false, false, st.found + Kept(t))
  {
    var head := "    " + LanguageCode(l) + ": ";
    var q := Quote(EscapeTranslation(t));
    assert TranslationLine(l, t) == head + q + ",\n";
    RunThree(st, head, q, ",\n");
    LineHead(st, l);
    assert Run(st, head) == st;
    QuotedTranslation(st, t);
    var mid := Scan("", false, false, st.found + Kept(t));
    assert Run(st, q) == mid;
    LineTail(mid);
  }

  /** The line of the first language, if it has one. */
  lemma ScanFirstLanguage(st: Scan, ls: seq<TranslationLanguage>, trans: TranslationLanguage -> string)
    requires st == Scan("", false, false, st.found)
    requires forall l :: NoBackslash(trans(l))
    requires |ls| > 0
    ensures var t := trans(ls[0]);
            Run(st, if t != "" then TranslationLine(ls[0], t) else "") ==
              Scan("", false, false, st.found + (if t != "" then Kept(t) else []))
  {
    var t := trans(ls[0]);
    if t != "" {
      assert NoBackslash(t);
      ScanTranslationLine(st, ls[0], t);
    } else {
      assert st.found + [] == st.found;
    }
  }

  /** The step of the induction below: the first language's line, then
      the rest as the induction hypothesis gives it. */
  lemma ScanTranslationLinesStep(st: Scan, ls: seq<TranslationLanguage>, trans: TranslationLanguage -> string)
    requires st == Scan("", false, false, st.found)
    requires forall l :: NoBackslash(trans(l))
    requires |ls| > 0
    requires var t := trans(ls[0]);
             var mid := Scan("", false, false, st.found + (if t != "" then Kept(t) else []));
             Run(mid, TranslationLines(ls[1..], trans)) ==
               Scan("", false, false, mid.found + KeptTranslations(ls[1..], trans))
    ensures Run(st, TranslationLines(ls, trans)) == Scan("", false, false, st.found + KeptTranslations(ls, trans))
  {
    var t := trans(ls[0]);
    var line := if t != "" then TranslationLine(ls[0], t) else "";
    var kept := if t != "" then Kept(t) else [];
    ScanFirstLanguage(st, ls, trans);
    ComposeRuns(st, line, TranslationLines(ls[1..], trans), kept, KeptTranslations(ls[1..], trans));
  }

  /** Two settled scans one after the other. */
  lemma ComposeRuns(st: Scan, a: string, b: string, keptA: seq<string>, keptB: seq<string>)
    requires Run(st, a) == Scan("", false, false, st.found + keptA)
    requires Run(Scan("", false, false, st.found + keptA), b) == Scan("", false, false, st.found + keptA + keptB)
    ensures Run(st, a + b) == Scan("", false, false, st.found + (keptA + keptB))
  {
    RunAppend(st, a, b);
    assert st.found + keptA + keptB == st.found + (keptA + keptB);
  }

  lemma {:induction false} ScanTranslationLines(st: Scan, ls: seq<TranslationLanguage>, trans: TranslationLanguage -> string)
    requires st == Scan("", false, false, st.found)
    requires forall l :: NoBackslash(trans(l))
    ensures Run(st, TranslationLines(ls, trans)) == Scan("", false, false, st.found + KeptTranslations(ls, trans))
    decreases |ls|
  {
    if |ls| > 0 {
      var t := trans(ls[0]);
      ScanTranslationLines(Scan("", false, false, st.found + (if t != "" then Kept(t) else [])), ls[1..], trans);
      ScanTranslationLinesStep(st, ls, trans);
    } else {
      assert st.found + [] == st.found;
    }
  }

  /** The fixed text of an entry around the quoted strings changes
      nothing. */
  lemma EntryPunctuation(st: Scan)
    requires st == Scan("", false, false, st.found)
    ensures Run(st, "  t(") == st && Run(st, ", {\n") == st && Run(st, "  }),\n") == st
  {
    RunOutside(st, "  t(");
    RunOutside(st, ", {\n");
    RunOutside(st, "  }),\n");
  }

  /** Five scans one after the other. */
  lemma ChainRuns(s0: Scan, a: string, s1: Scan, b: string, s2: Scan, c: string, s3: Scan, d: string, s4: Scan, e: string, s5: Scan)
    requires Run(s0, a) == s1 && Run(s1, b) == s2 && Run(s2, c) == s3 && Run(s3, d) == s4 && Run(s4, e) == s5
    ensures Run(s0, a + b + c + d + e) == s5
  {
    RunAppend(s0, a + b + c + d, e);
    RunAppend(s0, a + b + c, d);
    RunAppend(s0, a + b, c);
    RunAppend(s0, a, b);
  }

  /** An entry scans to its phrase and then whatever its translation lines scan to. */
  lemma EntryShape(phrase: string, lines: string, kept: seq<string>)
    requires NoBackslash(phrase)
    requires Run(Scan("", false, false, Kept(phrase)), lines) == Scan("", false, false, Kept(phrase) + kept)
    ensures ScanBlock("  t(" + Quote(EscapePhrase(phrase)) + ", {\n" + lines + "  }),\n") == Kept(phrase) + kept
  {
    var q := Quote(EscapePhrase(phrase));
    var s1 := Scan("", false, false, Kept(phrase));
    var s2 := Scan("", false, false, Kept(phrase) + kept);
    EntryPunctuation(Start);
    assert Run(Start, q) == s1 by {
      QuotedPhrase(Start, phrase);
      assert [] + Kept(phrase) == Kept(phrase);
    }
    EntryPunctuation(s1);
    EntryPunctuation(s2);
    ChainRuns(Start, "  t(", Start, q, s1, ", {\n", s1, lines, s2, "  }),\n", s2);
    EmitNothing(s2.found);
  }

  /** Scanning a generated entry gives back its phrase and each non-empty
      translation, trimmed, in order, when none of them has a backslash. */
  lemma EntryRoundTrip(phrase: string, trans: TranslationLanguage -> string)
    requires NoBackslash(phrase) && forall l :: NoBackslash(trans(l))
    ensures ScanBlock(Entry(phrase, trans)) == Kept(phrase) + KeptTranslations(Languages, trans)
  {
    ScanTranslationLines(Scan("", false, false, Kept(phrase)), Languages, trans);
    EntryShape(phrase, TranslationLines(Languages, trans), KeptTranslations(Languages, trans));
  }

}

=== FILE: player.dfy ===
/** The shadowing playback controller as a pure transition function.

    The component keeps its state in React state variables and in refs; both
    live in `State`. Timer callbacks become `Tick` events, the settlement of the
    pending `speak()` promise becomes `SpeechDone` / `SpeechFailed`, and the
    buttons the view shows become `Start`, `Pause`, `Resume` and `Reset` (an
    event whose button is not shown is a no-op). A selected-phrase change is
    `PhraseChanged`, and a remount of the component is `Remount`. The calls the
    controller makes to the outside world are recorded as `Effect`s. */
module Player {
  import opened Types

  /** The props fixed for a session: the settings and whether the caller
      reports a next phrase and supplies an `onNextPhrase` callback. */
  datatype Props = Props(settings: ShadowingSettings, hasNextPhrase: bool, hasOnNextPhrase: bool)

  predicate ValidProps(p: Props) { ValidSettings(p.settings) }

  /** The one-second intervals the controller can have running: between two
      repetitions (remembering the repetition it will speak next), after the
      last repetition, or restarted by resume (remembering the display
      counter at the time of resume, its fallback target). */
  datatype Timer =
    | BetweenReps(next: int)
    | FinalCountdown
    | Resumed(fallback: int)

  datatype State = State(
    // React state
    currentRepetition: int,        // 1-based counter shown to the user, 0 before a start
    isPlaying: bool,
    isPaused: bool,
    countdown: Option<int>,        // seconds shown, absent when no countdown
    isFullscreen: bool,
    // refs
    playingRef: bool,
    pausedRef: bool,
    pausedDuringSpeech: bool,      // written, never read by the component
    pausedRepetition: Option<int>, // 0-based repetition recorded by pause
    pausedCountdown: Option<int>,
    lastCompleted: Option<int>,    // 0-based repetition whose speech last completed
    finalCountdown: bool,
    autoStart: bool,               // the auto-start flag (ref, state and session storage)
    previousPhraseId: Option<string>,
    // pending asynchronous work
    timer: Option<Timer>,
    speaking: Option<int>,         // repetition whose speak() promise is pending
    closurePaused: bool)           // `isPaused` as captured by the running playPhrase chain

  datatype Event =
    | Start | Pause | Resume | Reset
    | SpeechDone | SpeechFailed | Tick
    | PhraseChanged(id: string)
    | Remount(id: string)

  datatype Effect =
    | Speak(repetition: int)
    | StopSpeech
    | Complete
    | NextPhrase
    | Fullscreen(on: bool)

  datatype Outcome = Outcome(state: State, effects: seq<Effect>)

  function Repetitions(p: Props): int { p.settings.repetitions }

  function Interval(p: Props): int { p.settings.intervalSeconds }

  /** A freshly mounted component; only the auto-start flag survives a
      remount, through session storage. */
  function Fresh(storedAutoStart: bool): State {
    State(0, false, false, None, false,
          false, false, false, None, None, None, false, storedAutoStart, None,
          None, None, false)
  }

  /** `playPhrase(r)` up to the `await` on `speak`: the guard stops the
      session, otherwise the display counter shows r + 1 and speech starts. */
  function SpeakStep(p: Props, s: State, r: int): (o: Outcome)
    ensures !s.playingRef || r >= Repetitions(p) ==>
      && !o.state.isPlaying && !o.state.playingRef && !o.state.isFullscreen
      && o.state.countdown.None? && o.effects == [Fullscreen(false), Complete]
    ensures s.playingRef && r < Repetitions(p) ==>
      && o.state.currentRepetition == r + 1 && o.state.speaking == Some(r)
      && o.state.playingRef && o.effects == [Speak(r)]
  {
    if !s.playingRef || r >= Repetitions(p) then
      Outcome(s.(isPlaying := false, countdown := None, playingRef := false, isFullscreen := false),
              [Fullscreen(false), Complete])
    else
      Outcome(s.(currentRepetition := r + 1, speaking := Some(r)), [Speak(r)])
  }

  /** The continuation of `playPhrase(r)` after `speak` resolved. */
  function AfterSpeech(p: Props, s: State, r: int): Outcome {
    if s.pausedRef || !s.playingRef then
      Outcome(s, [])
    else if r + 1 < Repetitions(p) then
      Outcome(s.(lastCompleted := Some(r), countdown := Some(Interval(p)),
                 timer := Some(BetweenReps(r + 1))), [])
    else
      Outcome(s.(lastCompleted := Some(r), finalCountdown := true,
                 countdown := Some(Interval(p)), timer := Some(FinalCountdown)), [])
  }

  /** The `catch` of `playPhrase` after `speak` rejected. It consults the
      paused ref and the `isPaused` value captured by the running chain. */
  function SpeechFailure(s: State): Outcome {
    if s.pausedRef || s.closurePaused then
      Outcome(s.(playingRef := false), [])
    else
      Outcome(s.(isPlaying := false, countdown := None, playingRef := false, isFullscreen := false),
              [Fullscreen(false)])
  }

  /** What the final countdown does on reaching zero: hand over to the next
      phrase (setting the auto-start flag first) or complete the session. */
  function EndOfItem(p: Props, s: State): Outcome {
    if p.hasNextPhrase && p.hasOnNextPhrase && s.playingRef && !s.pausedRef then
      Outcome(s.(autoStart := true), [NextPhrase])
    else
      Outcome(s.(isPlaying := false, playingRef := false, isFullscreen := false),
              [Fullscreen(false), Complete])
  }

  function CountdownValue(s: State): int {
    if s.countdown.Some? then s.countdown.value else 0
  }

  /** What interval `t` does when its countdown reaches zero (the interval
      and the displayed countdown are already cleared in `s`). */
  function Fire(p: Props, s: State, t: Timer): Outcome {
    match t
    case BetweenReps(next) =>
      SpeakStep(p, s, next)
    case FinalCountdown =>
      EndOfItem(p, s.(finalCountdown := false))
    case Resumed(fallback) =>
      var wasFinal := s.finalCountdown;
      var s1 := s.(finalCountdown := false, pausedDuringSpeech := false, pausedCountdown := None);
      if wasFinal then
        EndOfItem(p, s1)
      else
        var next := if s1.pausedRepetition.Some? then s1.pausedRepetition.value + 1 else fallback;
        if next < Repetitions(p) then SpeakStep(p, s1, next) else Outcome(s1, [])
  }

  /** One tick of the running interval `t`: interrupted sessions clear it
      without counting down. */
  function TickTimer(p: Props, s: State, t: Timer): Outcome {
    if s.pausedRef || !s.playingRef then
      Outcome(s.(timer := None), [])
    else
      var remaining := CountdownValue(s) - 1;
      if remaining > 0 then
        Outcome(s.(countdown := Some(remaining)), [])
      else
        Fire(p, s.(timer := None, countdown := None), t)
  }

  /** `startSession`. */
  function StartSession(p: Props, s: State): Outcome {
    var s1 := s.(pausedRef := false, pausedDuringSpeech := false, pausedRepetition := None,
                 pausedCountdown := None, lastCompleted := None, finalCountdown := false,
                 isPlaying := true, isPaused := false, currentRepetition := 1,
                 playingRef := true, isFullscreen := true, closurePaused := false);
    var o := SpeakStep(p, s1, 0);
    Outcome(o.state, [Fullscreen(true)] + o.effects)
  }

  /** `pauseSession`: flags first, then the resume information, then speech
      and timer are stopped. */
  function PauseSession(s: State): Outcome {
    var s1 := s.(pausedRef := true, isPaused := true, playingRef := false);
    var s2 :=
      if s.countdown == None || s.countdown == Some(0) then
        s1.(pausedDuringSpeech := true, pausedRepetition := Some(s.currentRepetition - 1),
            pausedCountdown := None)
      else
        s1.(pausedDuringSpeech := false,
            pausedRepetition := Some(if s.lastCompleted.Some? then s.lastCompleted.value
                                     else s.currentRepetition - 1),
            pausedCountdown := s.countdown);
    Outcome(s2.(timer := None, isFullscreen := true),
            [StopSpeech] + (if s.isFullscreen then [] else [Fullscreen(true)]))
  }

  /** `resumeSession`: restart the countdown from the value shown, or replay
      the repetition recorded by pause. */
  function ResumeSession(p: Props, s: State): Outcome {
    var s1 := s.(pausedRef := false, isPaused := false, isPlaying := true, playingRef := true,
                 isFullscreen := true, closurePaused := true);
    var focus := if s.isFullscreen then [] else [Fullscreen(true)];
    if s.countdown.Some? && s.countdown.value > 0 then
      Outcome(s1.(timer := Some(Resumed(s.currentRepetition))), focus)
    else
      var rep := if s.pausedRepetition.Some? then s.pausedRepetition.value else s.currentRepetition - 1;
      var o := SpeakStep(p, s1.(pausedDuringSpeech := false, pausedCountdown := None), rep);
      Outcome(o.state, focus + o.effects)
  }

  /** `resetSession`. */
  function ResetSession(s: State): Outcome {
    Outcome(s.(pausedRef := false, pausedDuringSpeech := false, pausedRepetition := None,
               pausedCountdown := None, lastCompleted := None, finalCountdown := false,
               isPlaying := false, isPaused := false, currentRepetition := 0, countdown := None,
               playingRef := false, isFullscreen := false, timer := None),
            [StopSpeech, Fullscreen(false)])
  }

  /** The auto-advance branch of the phrase-id effect: keep the fullscreen
      view, clear the flag and play repetition 0 of the new phrase. */
  function AutoAdvance(p: Props, s: State, id: string): Outcome {
    var s1 := s.(previousPhraseId := Some(id), currentRepetition := 1, countdown := None,
                 isPlaying := true, isPaused := false, playingRef := true, isFullscreen := true,
                 autoStart := false, closurePaused := s.isPaused);
    var o := SpeakStep(p, s1, 0);
    Outcome(o.state, [Fullscreen(true)] + o.effects)
  }

  /** The effect that runs on mount and whenever the phrase id changes. */
  function PhraseEffect(p: Props, s: State, id: string): Outcome {
    if s.previousPhraseId.None? then
      if s.autoStart then AutoAdvance(p, s, id)
      else Outcome(s.(previousPhraseId := Some(id)), [])
    else if s.previousPhraseId == Some(id) then
      Outcome(s, [])
    else if s.autoStart then
      AutoAdvance(p, s, id)
    else
      Outcome(s.(previousPhraseId := Some(id), isPlaying := false, isPaused := false,
                 currentRepetition := 0, countdown := None, isFullscreen := false,
                 playingRef := false, autoStart := false, timer := None),
              [Fullscreen(false), StopSpeech])
  }

  /** Mounting the component for phrase `id`. */
  function Mount(p: Props, id: string, storedAutoStart: bool): Outcome {
    PhraseEffect(p, Fresh(storedAutoStart), id)
  }

  /** The transition function. */
  function Step(p: Props, s: State, e: Event): Outcome {
    match e
    case Start =>
      if !s.isPlaying && !s.isPaused then StartSession(p, s) else Outcome(s, [])
    case Pause =>
      if s.isPlaying && !s.isPaused then PauseSession(s) else Outcome(s, [])
    case Resume =>
      if s.isPaused then ResumeSession(p, s) else Outcome(s, [])
    case Reset =>
      if s.isPlaying || s.isPaused then ResetSession(s) else Outcome(s, [])
    case SpeechDone =>
      if s.speaking.Some? then AfterSpeech(p, s.(speaking := None), s.speaking.value)
      else Outcome(s, [])
    case SpeechFailed =>
      if s.speaking.Some? then SpeechFailure(s.(speaking := None)) else Outcome(s, [])
    case Tick =>
      if s.timer.Some? then TickTimer(p, s, s.timer.value) else Outcome(s, [])
    case PhraseChanged(id) =>
      PhraseEffect(p, s, id)
    case Remount(id) =>
      // the unmount cleanup stops speech; the old instance's timer and
      // pending speech die with it
      var o := Mount(p, id, s.autoStart);
      Outcome(o.state, [StopSpeech] + o.effects)
  }

  /** Feeding a sequence of events to a transition function `f`,
      collecting the effects in order. */
  function RunWith(f: (State, Event) -> Outcome, s: State, es: seq<Event>): Outcome
    decreases |es|
  {
    if |es| == 0 then Outcome(s, [])
    else
      var o := f(s, es[0]);
      var rest := RunWith(f, o.state, es[1..]);
      Outcome(rest.state, o.effects + rest.effects)
  }

  function StepOf(p: Props): (State, Event) -> Outcome {
    (s, e) => Step(p, s, e)
  }

  /** The controller's response to a sequence of events. */
  function Run(p: Props, s: State, es: seq<Event>): Outcome {
    RunWith(StepOf(p), s, es)
  }

  /** The view shows the fullscreen player when this holds. */
  predicate ShowsFullscreen(s: State) {
    (s.isFullscreen || s.autoStart) && (s.isPlaying || s.isPaused || s.autoStart)
  }
}

=== FILE: player_invariant.dfy ===
/** The invariant of the shadowing playback controller: every event keeps
    the repetition counters within the configured range and never leaves a
    countdown running while the session is paused. Each operation's branches
    are proved separately and then combined. */
module PlayerInvariant {
  import opened Types
  import opened Player

  /** What holds in every reachable state. */
  predicate Inv(p: Props, s: State) {
    && ValidProps(p)
    && 0 <= s.currentRepetition <= Repetitions(p)
    && (s.isPlaying ==> s.currentRepetition >= 1)
    && (s.isPaused ==> s.pausedRef && s.currentRepetition >= 1 && s.pausedRepetition.Some?)
    && (s.pausedRepetition.Some? ==> 0 <= s.pausedRepetition.value < Repetitions(p))
    && (s.lastCompleted.Some? ==> 0 <= s.lastCompleted.value < Repetitions(p))
    && (s.speaking.Some? ==> 0 <= s.speaking.value < Repetitions(p))
    && (s.pausedRef ==> s.timer.None?)
    && (s.timer.Some? && s.timer.value.BetweenReps? ==> 1 <= s.timer.value.next < Repetitions(p))
    && (s.timer.Some? && s.timer.value.Resumed? ==> 0 <= s.timer.value.fallback)
  }

  /** Every repetition handed to the speech service is one of the
      configured ones. */
  predicate SpeaksInRange(p: Props, effects: seq<Effect>) {
    forall k :: 0 <= k < |effects| && effects[k].Speak? ==>
      0 <= effects[k].repetition < Repetitions(p)
  }

  /** The outcome keeps the invariant and speaks only configured
      repetitions. */
  predicate Keeps(p: Props, o: Outcome) {
    Inv(p, o.state) && SpeaksInRange(p, o.effects)
  }

  lemma KeepsPrefixed(p: Props, o: Outcome, prefix: seq<Effect>)
    requires Keeps(p, o)
    requires forall k :: 0 <= k < |prefix| ==> !prefix[k].Speak?
    ensures Keeps(p, Outcome(o.state, prefix + o.effects))
  {
    var all := prefix + o.effects;
    forall k | 0 <= k < |all| && all[k].Speak?
      ensures 0 <= all[k].repetition < Repetitions(p)
    {
      assert k >= |prefix|;
      assert all[k] == o.effects[k - |prefix|];
    }
  }

  // playPhrase

  lemma SpeakStopKeepsInv(p: Props, s: State, r: int)
    requires Inv(p, s) && (!s.playingRef || r >= Repetitions(p))
    ensures Keeps(p, SpeakStep(p, s, r))
  {
  }

  lemma SpeakGoKeepsInv(p: Props, s: State, r: int)
    requires Inv(p, s) && s.playingRef && 0 <= r < Repetitions(p)
    ensures Keeps(p, SpeakStep(p, s, r))
  {
  }

  lemma SpeakStepKeepsInv(p: Props, s: State, r: int)
    requires Inv(p, s) && 0 <= r
    ensures Keeps(p, SpeakStep(p, s, r))
  {
    if !s.playingRef || r >= Repetitions(p) {
      SpeakStopKeepsInv(p, s, r);
    } else {
      SpeakGoKeepsInv(p, s, r);
    }
  }

  lemma AfterSpeechIdleKeepsInv(p: Props, s: State, r: int)
    requires Inv(p, s) && (s.pausedRef || !s.playingRef)
    ensures Keeps(p, AfterSpeech(p, s, r))
  {
  }

  lemma AfterSpeechNextKeepsInv(p: Props, s: State, r: int)
    requires Inv(p, s) && !s.pausedRef && s.playingRef && 0 <= r && r + 1 < Repetitions(p)
    ensures Keeps(p, AfterSpeech(p, s, r))
  {
  }

  lemma AfterSpeechLastKeepsInv(p: Props, s: State, r: int)
    requires Inv(p, s) && !s.pausedRef && s.playingRef && 0 <= r < Repetitions(p) <= r + 1
    ensures Keeps(p, AfterSpeech(p, s, r))
  {
  }

  lemma AfterSpeechKeepsInv(p: Props, s: State, r: int)
    requires Inv(p, s) && 0 <= r < Repetitions(p)
    ensures Keeps(p, AfterSpeech(p, s, r))
  {
    if s.pausedRef || !s.playingRef {
      AfterSpeechIdleKeepsInv(p, s, r);
    } else if r + 1 < Repetitions(p) {
      AfterSpeechNextKeepsInv(p, s, r);
    } else {
      AfterSpeechLastKeepsInv(p, s, r);
    }
  }

  lemma SpeechFailureKeepsInv(p: Props, s: State)
    requires Inv(p, s)
    ensures Keeps(p, SpeechFailure(s))
  {
  }

  lemma EndOfItemKeepsInv(p: Props, s: State)
    requires Inv(p, s)
    ensures Keeps(p, EndOfItem(p, s))
  {
  }

  // the interval callbacks

  lemma FireResumedFinalKeepsInv(p: Props, s: State, fallback: int)
    requires Inv(p, s) && s.finalCountdown
    ensures Keeps(p, Fire(p, s, Resumed(fallback)))
  {
    EndOfItemKeepsInv(p, s.(finalCountdown := false, pausedDuringSpeech := false, pausedCountdown := None));
  }

  /** The repetition a resumed between-repetition countdown moves on to. */
  function ResumedNext(s: State, fallback: int): int {
    if s.pausedRepetition.Some? then s.pausedRepetition.value + 1 else fallback
  }

  lemma FireResumedSpeaksKeepsInv(p: Props, s: State, fallback: int)
    requires Inv(p, s) && !s.finalCountdown && 0 <= fallback
    requires ResumedNext(s, fallback) < Repetitions(p)
    ensures Keeps(p, Fire(p, s, Resumed(fallback)))
  {
    var s1 := s.(finalCountdown := false, pausedDuringSpeech := false, pausedCountdown := None);
    SpeakStepKeepsInv(p, s1, ResumedNext(s, fallback));
  }

  lemma FireResumedOverrunKeepsInv(p: Props, s: State, fallback: int)
    requires Inv(p, s) && !s.finalCountdown
    requires ResumedNext(s, fallback) >= Repetitions(p)
    ensures Keeps(p, Fire(p, s, Resumed(fallback)))
  {
  }

  lemma FireResumedNextKeepsInv(p: Props, s: State, fallback: int)
    requires Inv(p, s) && !s.finalCountdown && 0 <= fallback
    ensures Keeps(p, Fire(p, s, Resumed(fallback)))
  {
    if ResumedNext(s, fallback) < Repetitions(p) {
      FireResumedSpeaksKeepsInv(p, s, fallback);
    } else {
      FireResumedOverrunKeepsInv(p, s, fallback);
    }
  }

  lemma FireResumedKeepsInv(p: Props, s: State, fallback: int)
    requires Inv(p, s) && 0 <= fallback
    ensures Keeps(p, Fire(p, s, Resumed(fallback)))
  {
    if s.finalCountdown {
      FireResumedFinalKeepsInv(p, s, fallback);
    } else {
      FireResumedNextKeepsInv(p, s, fallback);
    }
  }

  lemma FireKeepsInv(p: Props, s: State, t: Timer)
    requires Inv(p, s) && s.timer.None?
    requires t.BetweenReps? ==> 1 <= t.next < Repetitions(p)
    requires t.Resumed? ==> 0 <= t.fallback
    ensures Keeps(p, Fire(p, s, t))
  {
    match t
    case BetweenReps(next) =>
      SpeakStepKeepsInv(p, s, next);
    case FinalCountdown =>
      EndOfItemKeepsInv(p, s.(finalCountdown := false));
    case Resumed(fallback) =>
      FireResumedKeepsInv(p, s, fallback);
  }

  lemma InterruptedTickKeepsInv(p: Props, s: State, t: Timer)
    requires Inv(p, s) && s.timer == Some(t)
    requires s.pausedRef || !s.playingRef
    ensures Keeps(p, TickTimer(p, s, t))
  {
  }

  lemma CountingTickKeepsInv(p: Props, s: State, t: Timer)
    requires Inv(p, s) && s.timer == Some(t)
    requires !(s.pausedRef || !s.playingRef) && CountdownValue(s) - 1 > 0
    ensures Keeps(p, TickTimer(p, s, t))
  {
  }

  lemma FiringTickKeepsInv(p: Props, s: State, t: Timer)
    requires Inv(p, s) && s.timer == Some(t)
    requires !(s.pausedRef || !s.playingRef) && CountdownValue(s) - 1 <= 0
    ensures Keeps(p, TickTimer(p, s, t))
  {
    FireKeepsInv(p, s.(timer := None, countdown := None), t);
  }

  lemma TickTimerKeepsInv(p: Props, s: State, t: Timer)
    requires Inv(p, s) && s.timer == Some(t)
    ensures Keeps(p, TickTimer(p, s, t))
  {
    if s.pausedRef || !s.playingRef {
      InterruptedTickKeepsInv(p, s, t);
    } else if CountdownValue(s) - 1 > 0 {
      CountingTickKeepsInv(p, s, t);
    } else {
      FiringTickKeepsInv(p, s, t);
    }
  }

  // the user's actions

  lemma StartSessionKeepsInv(p: Props, s: State)
    requires Inv(p, s) && !s.isPlaying && !s.isPaused
    ensures Keeps(p, StartSession(p, s))
  {
    var s1 := s.(pausedRef := false, pausedDuringSpeech := false, pausedRepetition := None,
                 pausedCountdown := None, lastCompleted := None, finalCountdown := false,
                 isPlaying := true, isPaused := false, currentRepetition := 1,
                 playingRef := true, isFullscreen := true, closurePaused := false);
    SpeakGoKeepsInv(p, s1, 0);
    KeepsPrefixed(p, SpeakStep(p, s1, 0), [Fullscreen(true)]);
  }

  lemma PauseDuringSpeechKeepsInv(p: Props, s: State)
    requires Inv(p, s) && s.isPlaying && !s.isPaused
    requires s.countdown == None || s.countdown == Some(0)
    ensures Keeps(p, PauseSession(s))
  {
  }

  lemma PauseDuringCountdownKeepsInv(p: Props, s: State)
    requires Inv(p, s) && s.isPlaying && !s.isPaused
    requires !(s.countdown == None || s.countdown == Some(0))
    ensures Keeps(p, PauseSession(s))
  {
  }

  lemma ResumeCountdownKeepsInv(p: Props, s: State)
    requires Inv(p, s) && s.isPaused && s.countdown.Some? && s.countdown.value > 0
    ensures Keeps(p, ResumeSession(p, s))
  {
  }

  lemma ResumeSpeechKeepsInv(p: Props, s: State)
    requires Inv(p, s) && s.isPaused && !(s.countdown.Some? && s.countdown.value > 0)
    ensures Keeps(p, ResumeSession(p, s))
  {
    var s1 := s.(pausedRef := false, isPaused := false, isPlaying := true, playingRef := true,
                 isFullscreen := true, closurePaused := true);
    var s2 := s1.(pausedDuringSpeech := false, pausedCountdown := None);
    SpeakGoKeepsInv(p, s2, s.pausedRepetition.value);
    KeepsPrefixed(p, SpeakStep(p, s2, s.pausedRepetition.value),
                  if s.isFullscreen then [] else [Fullscreen(true)]);
  }

  lemma ResetSessionKeepsInv(p: Props, s: State)
    requires Inv(p, s)
    ensures Keeps(p, ResetSession(s))
  {
  }

  // phrase changes

  lemma AutoAdvanceKeepsInv(p: Props, s: State, id: string)
    requires Inv(p, s)
    ensures Keeps(p, AutoAdvance(p, s, id))
  {
    var s1 := s.(previousPhraseId := Some(id), currentRepetition := 1, countdown := None,
                 isPlaying := true, isPaused := false, playingRef := true, isFullscreen := true,
                 autoStart := false, closurePaused := s.isPaused);
    SpeakGoKeepsInv(p, s1, 0);
    KeepsPrefixed(p, SpeakStep(p, s1, 0), [Fullscreen(true)]);
  }

  lemma ManualChangeKeepsInv(p: Props, s: State, id: string)
    requires Inv(p, s) && s.previousPhraseId.Some? && s.previousPhraseId != Some(id) && !s.autoStart
    ensures Keeps(p, PhraseEffect(p, s, id))
  {
  }

  lemma PhraseEffectKeepsInv(p: Props, s: State, id: string)
    requires Inv(p, s)
    ensures Keeps(p, PhraseEffect(p, s, id))
  {
    if s.previousPhraseId.None? || s.previousPhraseId == Some(id) {
      if s.autoStart && s.previousPhraseId.None? {
        AutoAdvanceKeepsInv(p, s, id);
      }
    } else if s.autoStart {
      AutoAdvanceKeepsInv(p, s, id);
    } else {
      ManualChangeKeepsInv(p, s, id);
    }
  }

  lemma FreshKeepsInv(p: Props, stored: bool)
    requires ValidProps(p)
    ensures Inv(p, Fresh(stored))
  {
  }

  // the transition function

  lemma StepPreservesInvGuarded(p: Props, s: State, e: Event)
    requires Inv(p, s) && (e.Start? || e.Pause? || e.Resume? || e.Reset?)
    ensures Keeps(p, Step(p, s, e))
  {
    match e
    case Start =>
      if !s.isPlaying && !s.isPaused { StartSessionKeepsInv(p, s); }
    case Pause =>
      if s.isPlaying && !s.isPaused {
        if s.countdown == None || s.countdown == Some(0) {
          PauseDuringSpeechKeepsInv(p, s);
        } else {
          PauseDuringCountdownKeepsInv(p, s);
        }
      }
    case Resume =>
      if s.isPaused {
        if s.countdown.Some? && s.countdown.value > 0 {
          ResumeCountdownKeepsInv(p, s);
        } else {
          ResumeSpeechKeepsInv(p, s);
        }
      }
    case Reset =>
      if s.isPlaying || s.isPaused { ResetSessionKeepsInv(p, s); }
  }

  lemma SpeechDoneKeepsInv(p: Props, s: State)
    requires Inv(p, s)
    ensures Keeps(p, Step(p, s, SpeechDone))
  {
    if s.speaking.Some? { AfterSpeechKeepsInv(p, s.(speaking := None), s.speaking.value); }
  }

  lemma SpeechFailedKeepsInv(p: Props, s: State)
    requires Inv(p, s)
    ensures Keeps(p, Step(p, s, SpeechFailed))
  {
    if s.speaking.Some? { SpeechFailureKeepsInv(p, s.(speaking := None)); }
  }

  lemma TickKeepsInv(p: Props, s: State)
    requires Inv(p, s)
    ensures Keeps(p, Step(p, s, Tick))
  {
    if s.timer.Some? { TickTimerKeepsInv(p, s, s.timer.value); }
  }

  lemma StepPreservesInvAsync(p: Props, s: State, e: Event)
    requires Inv(p, s) && (e.SpeechDone? || e.SpeechFailed? || e.Tick?)
    ensures Keeps(p, Step(p, s, e))
  {
    match e
    case SpeechDone => SpeechDoneKeepsInv(p, s);
    case SpeechFailed => SpeechFailedKeepsInv(p, s);
    case Tick => TickKeepsInv(p, s);
  }

  lemma StepPreservesInvPhrase(p: Props, s: State, e: Event)
    requires Inv(p, s) && (e.PhraseChanged? || e.Remount?)
    ensures Keeps(p, Step(p, s, e))
  {
    match e
    case PhraseChanged(id) =>
      PhraseEffectKeepsInv(p, s, id);
    case Remount(id) =>
      FreshKeepsInv(p, s.autoStart);
      PhraseEffectKeepsInv(p, Fresh(s.autoStart), id);
      KeepsPrefixed(p, Mount(p, id, s.autoStart), [StopSpeech]);
  }

  /** Every transition keeps the invariant and speaks only configured
      repetitions. */
  lemma StepPreservesInv(p: Props, s: State, e: Event)
    requires Inv(p, s)
    ensures Inv(p, Step(p, s, e).state)
    ensures SpeaksInRange(p, Step(p, s, e).effects)
  {
    if e.Start? || e.Pause? || e.Resume? || e.Reset? {
      StepPreservesInvGuarded(p, s, e);
    } else if e.SpeechDone? || e.SpeechFailed? || e.Tick? {
      StepPreservesInvAsync(p, s, e);
    } else {
      StepPreservesInvPhrase(p, s, e);
    }
  }

  /** Running any sequence of events keeps the invariant, and no event
      sequence ever makes the controller speak a repetition outside
      `[0, repetitions)`. */
  lemma {:induction false} RunPreservesInv(p: Props, s: State, es: seq<Event>)
    requires Inv(p, s)
    ensures Inv(p, Run(p, s, es).state)
    ensures SpeaksInRange(p, Run(p, s, es).effects)
    decreases |es|
  {
    if |es| > 0 {
      var o := Step(p, s, es[0]);
      StepPreservesInv(p, s, es[0]);
      RunPreservesInv(p, o.state, es[1..]);
      var rest := Run(p, o.state, es[1..]);
      assert Run(p, s, es) == Outcome(rest.state, o.effects + rest.effects);
      var all := o.effects + rest.effects;
      forall k | 0 <= k < |all| && all[k].Speak?
        ensures 0 <= all[k].repetition < Repetitions(p)
      {
        if k >= |o.effects| {
          assert all[k] == rest.effects[k - |o.effects|];
        }
      }
    }
  }
}

=== FILE: player_proofs.dfy ===
/** Properties of the shadowing playback controller: the invariant every
    transition keeps, the exact effect trace of an uninterrupted session,
    pause and resume fidelity, reset, and the hand-over to the next phrase. */
module PlayerProofs {
  import opened Types
  import opened Player
  import opened PlayerInvariant

  // ---------------------------------------------------------------------
  // Running sequences

  function Ticks(n: nat): seq<Event> {
    seq(n, _ => Tick)
  }

  lemma {:induction false} RunWithAppend(f: (State, Event) -> Outcome, s: State, a: seq<Event>, b: seq<Event>)
    ensures RunWith(f, s, a + b).state == RunWith(f, RunWith(f, s, a).state, b).state
    ensures RunWith(f, s, a + b).effects
         == RunWith(f, s, a).effects + RunWith(f, RunWith(f, s, a).state, b).effects
    decreases |a|
  {
    if |a| == 0 {
      assert a + b == b;
    } else {
      assert (a + b)[0] == a[0];
      assert (a + b)[1..] == a[1..] + b;
      RunWithAppend(f, f(s, a[0]).state, a[1..], b);
    }
  }

  /** Effects of `a + b` are the effects of `a` followed by those of `b`. */
  lemma RunAppend(p: Props, s: State, a: seq<Event>, b: seq<Event>)
    ensures Run(p, s, a + b).state == Run(p, Run(p, s, a).state, b).state
    ensures Run(p, s, a + b).effects == Run(p, s, a).effects + Run(p, Run(p, s, a).state, b).effects
  {
    RunWithAppend(StepOf(p), s, a, b);
  }

  /** Running a non-empty sequence is one step followed by the rest. */
  lemma RunCons(p: Props, s: State, es: seq<Event>)
    requires |es| > 0
    ensures Run(p, s, es).state == Run(p, Step(p, s, es[0]).state, es[1..]).state
    ensures Run(p, s, es).effects == Step(p, s, es[0]).effects + Run(p, Step(p, s, es[0]).state, es[1..]).effects
  {
  }

  /** A running countdown with the guard satisfied: every tick before the
      last one only lowers the displayed seconds. */
  lemma {:induction false} TicksCountDown(p: Props, s: State, c: int, j: nat)
    requires s.timer.Some? && s.playingRef && !s.pausedRef
    requires s.countdown == Some(c) && j < c
    ensures Run(p, s, Ticks(j)) == Outcome(s.(countdown := Some(c - j)), [])
    decreases j
  {
    if j > 0 {
      var s1 := s.(countdown := Some(c - 1));
      assert Step(p, s, Tick) == Outcome(s1, []);
      assert Ticks(j)[1..] == Ticks(j - 1);
      TicksCountDown(p, s1, c - 1, j - 1);
    } else {
      assert s.(countdown := Some(c)) == s;
    }
  }

  /** `c` ticks of a countdown showing `c` amount to the last tick alone. */
  lemma {:induction false} TicksFire(p: Props, s: State, c: int)
    requires s.timer.Some? && s.playingRef && !s.pausedRef
    requires s.countdown == Some(c) && c >= 1
    ensures Run(p, s, Ticks(c)) == Run(p, s.(countdown := Some(1)), [Tick])
  {
    TicksCountDown(p, s, c, c - 1);
    RunAppend(p, s, Ticks(c - 1), [Tick]);
    assert Ticks(c - 1) + [Tick] == Ticks(c);
  }

  // ---------------------------------------------------------------------
  // The uninterrupted session

  /** Repetition `r` is being spoken in an active, unpaused session. */
  predicate SpeakingIn(p: Props, s: State, r: int) {
    && Inv(p, s) && s.speaking == Some(r)
    && s.playingRef && !s.pausedRef && s.timer.None?
  }

  /** One repetition's worth of events: the speech finishes, then the
      countdown runs out. */
  function Cycle(p: Props): seq<Event> {
    [SpeechDone] + Ticks(if Interval(p) >= 0 then Interval(p) else 0)
  }

  function Cycles(p: Props, k: nat): seq<Event> {
    if k == 0 then [] else Cycle(p) + Cycles(p, k - 1)
  }

  /** `Speak(from), Speak(from + 1), …` — `count` of them. */
  function Spoken(from: int, count: nat): seq<Effect>
    decreases count
  {
    if count == 0 then [] else [Speak(from)] + Spoken(from + 1, count - 1)
  }

  /** How a phrase ends: hand-over to the next phrase, or completion. */
  function Ending(p: Props): seq<Effect> {
    if p.hasNextPhrase && p.hasOnNextPhrase then [NextPhrase] else [Fullscreen(false), Complete]
  }

  /** The speech of repetition `r` finishing starts the countdown that
      leads to the next repetition, or the final countdown. */
  lemma SpeechDoneStartsCountdown(p: Props, s: State, r: int)
    requires SpeakingIn(p, s, r)
    ensures var o := Step(p, s, SpeechDone);
      && o.effects == [] && Inv(p, o.state)
      && o.state.countdown == Some(Interval(p)) && o.state.playingRef && !o.state.pausedRef
      && o.state.timer == Some(if r + 1 < Repetitions(p) then BetweenReps(r + 1) else FinalCountdown)
      && o.state.lastCompleted == Some(r)
      && o.state.isPlaying == s.isPlaying && o.state.isPaused == s.isPaused
      && o.state.isFullscreen == s.isFullscreen
      && (r + 1 < Repetitions(p) ==> o.state.finalCountdown == s.finalCountdown)
  {
    StepPreservesInv(p, s, SpeechDone);
  }

  /** The last tick of a countdown: the next repetition, or the end. */
  lemma CountdownEnds(p: Props, s: State, t: Timer)
    requires Inv(p, s) && s.timer == Some(t) && s.playingRef && !s.pausedRef && s.countdown == Some(1)
    requires t.BetweenReps? || t.FinalCountdown?
    ensures t.BetweenReps? ==>
      SpeakingIn(p, Step(p, s, Tick).state, t.next) && Step(p, s, Tick).effects == [Speak(t.next)]
    ensures t.FinalCountdown? ==> Step(p, s, Tick).effects == Ending(p)
  {
    StepPreservesInv(p, s, Tick);
  }

  lemma {:induction false} CycleStep(p: Props, s: State, r: int)
    requires SpeakingIn(p, s, r)
    ensures r + 1 < Repetitions(p) ==>
      SpeakingIn(p, Run(p, s, Cycle(p)).state, r + 1) && Run(p, s, Cycle(p)).effects == [Speak(r + 1)]
    ensures r + 1 >= Repetitions(p) ==> Run(p, s, Cycle(p)).effects == Ending(p)
  {
    var s1 := Step(p, s, SpeechDone).state;
    SpeechDoneStartsCountdown(p, s, r);
    RunCons(p, s, [SpeechDone]);
    assert Run(p, s, [SpeechDone]).state == s1;
    assert Run(p, s, [SpeechDone]).effects == [];
    RunAppend(p, s, [SpeechDone], Ticks(Interval(p)));
    TicksFire(p, s1, Interval(p));
    var s2 := s1.(countdown := Some(1));
    RunCons(p, s2, [Tick]);
    CountdownEnds(p, s2, s1.timer.value);
  }

  lemma {:induction false} SessionFrom(p: Props, s: State, r: int)
    requires SpeakingIn(p, s, r)
    ensures Run(p, s, Cycles(p, Repetitions(p) - r)).effects
         == Spoken(r + 1, Repetitions(p) - r - 1) + Ending(p)
    decreases Repetitions(p) - r
  {
    var k := Repetitions(p) - r;
    CycleStep(p, s, r);
    assert Cycles(p, k) == Cycle(p) + Cycles(p, k - 1);
    RunAppend(p, s, Cycle(p), Cycles(p, k - 1));
    var s1 := Run(p, s, Cycle(p)).state;
    if r + 1 < Repetitions(p) {
      SessionFrom(p, s1, r + 1);
      assert Spoken(r + 1, k - 1) == [Speak(r + 1)] + Spoken(r + 2, k - 2);
      ConcatAssoc([Speak(r + 1)], Spoken(r + 2, k - 2), Ending(p));
    } else {
      assert k == 1 && Cycles(p, 0) == [] && Spoken(r + 1, 0) == [];
      ConcatEmpty(Run(p, s, Cycle(p)).effects);
    }
  }

  lemma ConcatAssoc(a: seq<Effect>, b: seq<Effect>, c: seq<Effect>)
    ensures a + b + c == a + (b + c)
  {
  }

  lemma ConcatEmpty(a: seq<Effect>)
    ensures a + [] == a && [] + a == a
  {
  }

  /** A session that is not interrupted speaks repetitions 0, 1, …, N - 1
      in order, each exactly once, and then hands over to the next phrase
      or completes. */
  lemma {:induction false} UninterruptedSession(p: Props, s: State)
    requires Inv(p, s) && !s.isPlaying && !s.isPaused && s.timer.None?
    ensures Run(p, s, [Start] + Cycles(p, Repetitions(p))).effects
         == [Fullscreen(true)] + Spoken(0, Repetitions(p)) + Ending(p)
  {
    var o := Step(p, s, Start);
    var es := [Start] + Cycles(p, Repetitions(p));
    StartSpeaks(p, s);
    SessionFrom(p, o.state, 0);
    RunCons(p, s, es);
    assert es[0] == Start && es[1..] == Cycles(p, Repetitions(p));
    assert Spoken(0, Repetitions(p)) == [Speak(0)] + Spoken(1, Repetitions(p) - 1);
    OpeningRegroup(Spoken(1, Repetitions(p) - 1), Ending(p));
  }

  /** Starting from rest opens the view and speaks repetition 0. */
  lemma StartSpeaks(p: Props, s: State)
    requires Inv(p, s) && !s.isPlaying && !s.isPaused && s.timer.None?
    ensures Step(p, s, Start).effects == [Fullscreen(true), Speak(0)]
    ensures SpeakingIn(p, Step(p, s, Start).state, 0)
  {
    StepPreservesInv(p, s, Start);
  }

  lemma OpeningRegroup(rest: seq<Effect>, ending: seq<Effect>)
    ensures [Fullscreen(true), Speak(0)] + (rest + ending) == [Fullscreen(true)] + ([Speak(0)] + rest) + ending
  {
  }

  /** Three repetitions two seconds apart, on the last phrase of the list. */
  lemma ThreeRepetitionSession(s: State)
    requires Inv(Props(ShadowingSettings(3, 2), false, true), s)
    requires !s.isPlaying && !s.isPaused && s.timer.None?
    ensures Run(Props(ShadowingSettings(3, 2), false, true), s,
                [Start, SpeechDone, Tick, Tick, SpeechDone, Tick, Tick, SpeechDone, Tick, Tick]).effects
         == [Fullscreen(true), Speak(0), Speak(1), Speak(2), Fullscreen(false), Complete]
  {
    var p := Props(ShadowingSettings(3, 2), false, true);
    UninterruptedSession(p, s);
    var events := [Start] + Cycles(p, Repetitions(p));
    var effects := [Fullscreen(true)] + Spoken(0, Repetitions(p)) + Ending(p);
    ThreeRepetitionsSpelledOut(p);
    assert events == [Start, SpeechDone, Tick, Tick, SpeechDone, Tick, Tick, SpeechDone, Tick, Tick];
    assert effects == [Fullscreen(true), Speak(0), Speak(1), Speak(2), Fullscreen(false), Complete];
  }

  lemma ThreeRepetitionsSpelledOut(p: Props)
    requires p == Props(ShadowingSettings(3, 2), false, true)
    ensures Repetitions(p) == 3 && Ending(p) == [Fullscreen(false), Complete]
    ensures Spoken(0, 3) == [Speak(0), Speak(1), Speak(2)]
    ensures Cycles(p, 3) == [SpeechDone, Tick, Tick, SpeechDone, Tick, Tick, SpeechDone, Tick, Tick]
  {
    assert Ticks(2) == [Tick, Tick];
  }

  // ---------------------------------------------------------------------
  // Pause and resume

  /** Ticks and speech completions delivered while paused or stopped do
      nothing: the interval is cleared without decrementing and no timer is
      started. */
  lemma InterruptedTickIsInert(p: Props, s: State)
    requires s.timer.Some? && (s.pausedRef || !s.playingRef)
    ensures Step(p, s, Tick) == Outcome(s.(timer := None), [])
  {
  }

  lemma InterruptedSpeechIsInert(p: Props, s: State)
    requires s.speaking.Some? && (s.pausedRef || !s.playingRef)
    ensures Step(p, s, SpeechDone) == Outcome(s.(speaking := None), [])
  {
  }

  /** Pausing stops speech and the countdown, keeps the fullscreen view,
      and records where to resume: with no countdown shown, the repetition
      being spoken (the counter is one ahead of it); during a countdown, the
      repetition just completed and the seconds left. */
  lemma PauseStops(p: Props, s: State)
    requires s.isPlaying && !s.isPaused
    ensures var t := Step(p, s, Pause).state;
      && t.isPaused && t.pausedRef && !t.playingRef && t.timer.None?
      && t.isPlaying && t.isFullscreen && ShowsFullscreen(t)
      && t.countdown == s.countdown
      && t.pausedRepetition.Some?
    ensures var t := Step(p, s, Pause).state;
      s.countdown.None? || s.countdown == Some(0) ==>
        && t.pausedRepetition == Some(s.currentRepetition - 1)
        && t.pausedCountdown.None? && t.pausedDuringSpeech
    ensures var t := Step(p, s, Pause).state;
      s.countdown.Some? && s.countdown != Some(0) ==>
        && t.pausedRepetition == Some(if s.lastCompleted.Some? then s.lastCompleted.value
                                      else s.currentRepetition - 1)
        && t.pausedCountdown == s.countdown && !t.pausedDuringSpeech
    ensures Step(p, s, Pause).effects == [StopSpeech] + (if s.isFullscreen then [] else [Fullscreen(true)])
  {
    assert Step(p, s, Pause) == PauseSession(s);
  }

  /** A second pause changes nothing. */
  lemma PauseIdempotent(p: Props, s: State)
    ensures var t := Step(p, s, Pause).state;
      Step(p, t, Pause) == Outcome(t, [])
  {
  }

  /** Paused while repetition `r` was being spoken: resuming speaks `r`
      again, exactly once. */
  lemma PauseResumeDuringSpeech(p: Props, s: State, r: int)
    requires SpeakingIn(p, s, r) && s.isPlaying && !s.isPaused
    requires s.currentRepetition == r + 1 && s.countdown.None? && s.isFullscreen
    ensures Run(p, s, [Pause, Resume]).effects == [StopSpeech, Speak(r)]
    ensures SpeakingIn(p, Run(p, s, [Pause, Resume]).state, r)
  {
    var t := Step(p, s, Pause).state;
    assert t.pausedRepetition == Some(r);
    assert [Pause, Resume][1..] == [Resume];
    RunPreservesInv(p, s, [Pause, Resume]);
  }

  /** Paused during the countdown that follows repetition `pr` (not the
      last one) with `c` seconds left: after resuming, each of the first
      `c - 1` ticks lowers the display by one second, and the `c`-th speaks
      repetition `pr + 1`. */
  lemma {:induction false} ResumeCountdownFidelity(p: Props, s: State, c: int, pr: int, j: nat)
    requires Inv(p, s) && s.isPaused && !s.finalCountdown
    requires s.countdown == Some(c) && c > 0
    requires s.pausedRepetition == Some(pr) && pr + 1 < Repetitions(p)
    requires j < c
    ensures Run(p, s, [Resume] + Ticks(j)).state.countdown == Some(c - j)
    ensures Run(p, s, [Resume] + Ticks(c)).effects
         == (if s.isFullscreen then [] else [Fullscreen(true)]) + [Speak(pr + 1)]
  {
    var o := Step(p, s, Resume);
    var t := o.state;
    assert t.timer.Some? && t.playingRef && !t.pausedRef && t.countdown == Some(c);
    RunAppend(p, s, [Resume], Ticks(j));
    RunAppend(p, s, [Resume], Ticks(c));
    assert Run(p, s, [Resume]) == Outcome(t, o.effects);
    TicksCountDown(p, t, c, j);
    TicksFire(p, t, c);
  }

  /** Paused during the countdown that follows repetition `r` (not the
      last one), `c` seconds before it ends: after resuming, the remaining
      `c` ticks speak repetition `r + 1`, and nothing else is spoken. */
  lemma PauseResumeDuringCountdown(p: Props, s: State, r: int, c: int)
    requires Inv(p, s) && s.isPlaying && !s.isPaused && s.playingRef && !s.pausedRef
    requires s.timer == Some(BetweenReps(r + 1)) && s.lastCompleted == Some(r) && !s.finalCountdown
    requires s.countdown == Some(c) && c > 0
    ensures Run(p, s, [Pause, Resume] + Ticks(c)).effects
         == [StopSpeech] + (if s.isFullscreen then [] else [Fullscreen(true)]) + [Speak(r + 1)]
    ensures Run(p, s, [Pause, Resume] + Ticks(c)).state.speaking == Some(r + 1)
  {
    var o := Step(p, s, Pause);
    PauseStops(p, s);
    StepPreservesInv(p, s, Pause);
    var es := [Pause, Resume] + Ticks(c);
    assert es[0] == Pause && es[1..] == [Resume] + Ticks(c);
    RunCons(p, s, es);
    ResumeCountdownFidelity(p, o.state, c, r, 0);
    ResumedSpeaks(p, o.state, c, r);
  }

  /** The state reached by resuming a countdown speaks the repetition after
      the one recorded. */
  lemma ResumedSpeaks(p: Props, s: State, c: int, pr: int)
    requires Inv(p, s) && s.isPaused && !s.finalCountdown
    requires s.countdown == Some(c) && c > 0
    requires s.pausedRepetition == Some(pr) && pr + 1 < Repetitions(p)
    ensures Run(p, s, [Resume] + Ticks(c)).state.speaking == Some(pr + 1)
  {
    var o := Step(p, s, Resume);
    var t := o.state;
    assert t.timer.Some? && t.playingRef && !t.pausedRef && t.countdown == Some(c);
    RunAppend(p, s, [Resume], Ticks(c));
    assert Run(p, s, [Resume]) == Outcome(t, o.effects);
    TicksFire(p, t, c);
  }

  /** Speech of repetition `r` (not the last) finishes, `j` seconds of the
      countdown pass, the user pauses and resumes: the rest of the
      countdown then speaks repetition `r + 1`. */
  lemma {:induction false} PauseAfterRepetition(p: Props, s: State, r: int, j: nat)
    requires SpeakingIn(p, s, r) && s.isPlaying && !s.isPaused && !s.finalCountdown
    requires r + 1 < Repetitions(p) && j < Interval(p)
    ensures Run(p, s, [SpeechDone] + Ticks(j) + ([Pause, Resume] + Ticks(Interval(p) - j))).effects
         == [StopSpeech] + (if s.isFullscreen then [] else [Fullscreen(true)]) + [Speak(r + 1)]
  {
    var s1 := Step(p, s, SpeechDone).state;
    SpeechDoneStartsCountdown(p, s, r);
    RunCons(p, s, [SpeechDone]);
    assert Run(p, s, [SpeechDone]) == Outcome(s1, []);
    RunAppend(p, s, [SpeechDone], Ticks(j));
    TicksCountDown(p, s1, Interval(p), j);
    var s2 := s1.(countdown := Some(Interval(p) - j));
    assert Run(p, s, [SpeechDone] + Ticks(j)) == Outcome(s2, []);
    RunAppend(p, s, [SpeechDone] + Ticks(j), [Pause, Resume] + Ticks(Interval(p) - j));
    PauseResumeDuringCountdown(p, s2, r, Interval(p) - j);
  }

  /** Paused during the final countdown: resuming finishes that countdown
      and then ends the phrase exactly as an uninterrupted session would. */
  lemma {:induction false} ResumeFinalCountdown(p: Props, s: State, c: int)
    requires Inv(p, s) && s.isPaused && s.finalCountdown
    requires s.countdown == Some(c) && c > 0
    ensures Run(p, s, [Resume] + Ticks(c)).effects
         == (if s.isFullscreen then [] else [Fullscreen(true)]) + Ending(p)
  {
    var o := Step(p, s, Resume);
    var t := o.state;
    assert t.timer.Some? && t.playingRef && !t.pausedRef && t.countdown == Some(c);
    RunAppend(p, s, [Resume], Ticks(c));
    assert Run(p, s, [Resume]) == Outcome(t, o.effects);
    TicksFire(p, t, c);
  }

  // ---------------------------------------------------------------------
  // Reset

  /** Nothing is playing, paused or counting down. */
  predicate Quiet(s: State) {
    !s.isPlaying && !s.isPaused && !s.playingRef && !s.pausedRef && s.timer.None?
  }

  /** The effects that mean the session is doing something. */
  predicate Silent(effects: seq<Effect>) {
    forall k :: 0 <= k < |effects| ==>
      !effects[k].Speak? && !effects[k].Complete? && !effects[k].NextPhrase?
  }

  /** Events the user or the runtime can deliver without starting anything:
      everything but Start, a phrase change and a remount. */
  predicate Passive(e: Event) {
    e.Pause? || e.Resume? || e.Reset? || e.SpeechDone? || e.SpeechFailed? || e.Tick?
  }

  /** Reset from a playing or paused session stops speech, cancels the
      countdown and closes the fullscreen view. */
  lemma ResetQuiets(p: Props, s: State)
    requires s.isPlaying || s.isPaused
    ensures Quiet(Step(p, s, Reset).state)
    ensures Step(p, s, Reset).state.countdown.None?
    ensures Step(p, s, Reset).state.currentRepetition == 0
    ensures !ShowsFullscreen(Step(p, s, Reset).state) || Step(p, s, Reset).state.autoStart
    ensures Step(p, s, Reset).effects == [StopSpeech, Fullscreen(false)]
  {
  }

  /** After a reset no speech, completion or hand-over happens until the
      user starts again or the phrase changes, whatever pending timers or
      speech deliver. */
  lemma {:induction false} QuietStaysQuiet(p: Props, s: State, es: seq<Event>)
    requires Quiet(s)
    requires forall k :: 0 <= k < |es| ==> Passive(es[k])
    ensures Quiet(Run(p, s, es).state)
    ensures Silent(Run(p, s, es).effects)
    decreases |es|
  {
    if |es| > 0 {
      var o := Step(p, s, es[0]);
      assert Passive(es[0]);
      assert Quiet(o.state) && Silent(o.effects);
      QuietStaysQuiet(p, o.state, es[1..]);
      var rest := Run(p, o.state, es[1..]);
      forall k | 0 <= k < |o.effects + rest.effects|
        ensures var f := (o.effects + rest.effects)[k]; !f.Speak? && !f.Complete? && !f.NextPhrase?
      {
        if k >= |o.effects| {
          assert (o.effects + rest.effects)[k] == rest.effects[k - |o.effects|];
        }
      }
    }
  }

  // ---------------------------------------------------------------------
  // Phrase changes

  /** The final countdown running out with a next phrase available sets the
      auto-start flag, keeps the fullscreen view and neither completes nor
      closes; the phrase change that follows starts repetition 0 of the new
      phrase without the view ever closing. */
  lemma AutoAdvanceKeepsFullscreen(p: Props, s: State, id: string)
    requires Inv(p, s) && s.timer == Some(FinalCountdown) && s.countdown == Some(1)
    requires s.playingRef && !s.pausedRef && s.isPlaying && s.isFullscreen
    requires p.hasNextPhrase && p.hasOnNextPhrase
    requires s.previousPhraseId != Some(id)
    ensures var t := Step(p, s, Tick).state;
      && t.autoStart && ShowsFullscreen(t)
      && Step(p, s, Tick).effects == [NextPhrase]
      && Step(p, t, PhraseChanged(id)).effects == [Fullscreen(true), Speak(0)]
      && ShowsFullscreen(Step(p, t, PhraseChanged(id)).state)
      && !Step(p, t, PhraseChanged(id)).state.autoStart
  {
  }

  /** After a remount with the stored flag set, playback of the new phrase
      starts by itself. */
  lemma RemountAutoStarts(p: Props, s: State, id: string)
    requires ValidProps(p) && s.autoStart
    ensures Step(p, s, Remount(id)).effects == [StopSpeech, Fullscreen(true), Speak(0)]
    ensures Step(p, s, Remount(id)).state.isPlaying
  {
  }

  /** A phrase change the user made (no auto-start flag) stops the session,
      clears the counter and the countdown and closes the view; the pause
      refs and the last completed repetition are not cleared. The same id
      again is ignored. */
  lemma ManualPhraseChangeResets(p: Props, s: State, id: string)
    requires !s.autoStart && s.previousPhraseId.Some? && s.previousPhraseId != Some(id)
    ensures var t := Step(p, s, PhraseChanged(id)).state;
      && !t.isPlaying && !t.isPaused && !t.playingRef && t.timer.None? && !t.isFullscreen
      && t.currentRepetition == 0 && t.countdown.None? && !t.autoStart
      && t.previousPhraseId == Some(id)
    ensures var t := Step(p, s, PhraseChanged(id)).state;
      && t.pausedRef == s.pausedRef && t.pausedRepetition == s.pausedRepetition
      && t.pausedCountdown == s.pausedCountdown && t.lastCompleted == s.lastCompleted
    ensures Step(p, s, PhraseChanged(id)).effects == [Fullscreen(false), StopSpeech]
    ensures Step(p, Step(p, s, PhraseChanged(id)).state, PhraseChanged(id)).effects == []
  {
  }

  /** Whether the view shows the button that delivers `e`: Start when
      neither playing nor paused, Pause while playing and not paused, Resume
      while paused, Reset (Back in the fullscreen view) while either. */
  predicate Offered(s: State, e: Event) {
    match e
    case Start => !s.isPlaying && !s.isPaused
    case Pause => s.isPlaying && !s.isPaused
    case Resume => s.isPaused
    case Reset => s.isPlaying || s.isPaused
    case _ => false
  }

  /** Each button's event does something exactly when its button is shown,
      and the shown button moves the session where its label says: Start
      plays repetition 1, Pause pauses without stopping the session, Resume
      leaves the paused state, Reset leaves both. */
  lemma ButtonsMatchEvents(p: Props, s: State)
    requires ValidProps(p)
    ensures Step(p, s, Start) != Outcome(s, []) <==> Offered(s, Start)
    ensures Step(p, s, Pause) != Outcome(s, []) <==> Offered(s, Pause)
    ensures Step(p, s, Resume) != Outcome(s, []) <==> Offered(s, Resume)
    ensures Step(p, s, Reset) != Outcome(s, []) <==> Offered(s, Reset)
    ensures Offered(s, Start) ==>
      var t := Step(p, s, Start).state; t.isPlaying && !t.isPaused && t.currentRepetition == 1
    ensures Offered(s, Pause) ==>
      var t := Step(p, s, Pause).state; t.isPlaying && t.isPaused
    ensures Offered(s, Resume) ==> !Step(p, s, Resume).state.isPaused
    ensures Offered(s, Reset) ==>
      var t := Step(p, s, Reset).state; !t.isPlaying && !t.isPaused
  {
  }
}

=== FILE: split_phrases.dfy ===
/** `splitPhrases`: pasted text becomes one phrase per sentence. URLs,
    e-mail addresses, decimal points and a fixed list of abbreviations are
    first hidden behind placeholders so that their dots do not end a
    sentence; then a line break is put after every sentence terminator,
    the text is cut into trimmed non-empty lines and the placeholders are
    restored.

    The text being rewritten is a sequence of pieces: a character, a
    protected span standing for its placeholder, or the decimal-point
    placeholder. Placeholders (`__PROTECTED_n__`, `__DECIMAL__`) consist
    of `\w` characters, so a piece that is not a character counts as a
    word character for `\b`. No character class of the later patterns
    contains a whole placeholder, and none of their matches could extend
    into one: a URL runs to the next whitespace, and an e-mail match ends
    on a letter followed by a non-word character. */
module SplitPhrases {
  import opened Types
  import opened JsText

  datatype Piece = Ch(c: char) | Shielded(text: string) | DecimalDot

  /** What a piece stands for once the placeholders are restored. */
  function Text(p: Piece): string {
    match p
    case Ch(c) => [c]
    case Shielded(t) => t
    case DecimalDot => "."
  }

  function Flatten(ps: seq<Piece>): string
    decreases |ps|
  {
    if |ps| == 0 then [] else Text(ps[0]) + Flatten(ps[1..])
  }

  lemma {:induction false} FlattenAppend(a: seq<Piece>, b: seq<Piece>)
    ensures Flatten(a + b) == Flatten(a) + Flatten(b)
    decreases |a|
  {
    if |a| == 0 {
      assert a + b == b;
    } else {
      assert (a + b)[0] == a[0];
      assert (a + b)[1..] == a[1..] + b;
      FlattenAppend(a[1..], b);
      calc {
        Flatten(a + b);
        Text(a[0]) + Flatten(a[1..] + b);
        Text(a[0]) + (Flatten(a[1..]) + Flatten(b));
        (Text(a[0]) + Flatten(a[1..])) + Flatten(b);
        Flatten(a) + Flatten(b);
      }
    }
  }

  lemma FlattenCons(p: Piece, ps: seq<Piece>)
    ensures Flatten([p] + ps) == Text(p) + Flatten(ps)
  {
    assert ([p] + ps)[1..] == ps;
  }

  /** The text as plain character pieces. */
  function Chars(s: string): (r: seq<Piece>)
    ensures |r| == |s|
    ensures forall i :: 0 <= i < |s| ==> r[i] == Ch(s[i])
    ensures Flatten(r) == s
    decreases |s|
  {
    if |s| == 0 then []
    else
      FlattenCons(Ch(s[0]), Chars(s[1..]));
      [Ch(s[0])] + Chars(s[1..])
  }

  predicate NoSpace(s: string) {
    forall i :: 0 <= i < |s| ==> !IsSpace(s[i])
  }

  /** A protected span is non-empty and free of whitespace. */
  predicate ShieldOk(p: Piece) {
    p.Shielded? ==> |p.text| > 0 && NoSpace(p.text)
  }

  predicate WellShielded(ps: seq<Piece>)
    decreases |ps|
  {
    |ps| == 0 || (ShieldOk(ps[0]) && WellShielded(ps[1..]))
  }

  lemma WellShieldedCons(p: Piece, ps: seq<Piece>)
    ensures WellShielded([p] + ps) <==> ShieldOk(p) && WellShielded(ps)
  {
    assert ([p] + ps)[1..] == ps;
  }

  lemma {:induction false} WellShieldedAt(ps: seq<Piece>, k: nat)
    requires k < |ps|
    ensures WellShielded(ps) ==> ShieldOk(ps[k])
    decreases k
  {
    if k > 0 && WellShielded(ps) {
      WellShieldedAt(ps[1..], k - 1);
    }
  }

  predicate SpacePiece(p: Piece) { p.Ch? && IsSpace(p.c) }

  /** A piece whose text is non-empty and free of whitespace. */
  predicate Solid(p: Piece) {
    match p
    case Ch(c) => !IsSpace(c)
    case Shielded(t) => |t| > 0 && NoSpace(t)
    case DecimalDot => true
  }

  lemma {:induction false} SolidFlatten(ps: seq<Piece>)
    requires forall k :: 0 <= k < |ps| ==> Solid(ps[k])
    ensures NoSpace(Flatten(ps))
    ensures |ps| > 0 ==> |Flatten(ps)| > 0
    decreases |ps|
  {
    if |ps| > 0 {
      SolidFlatten(ps[1..]);
    }
  }

  // ---------------------------------------------------------------------
  // URLs: `https?:\/\/\S+`

  /** Length of the run of non-whitespace at the start of `s`. */
  function NonSpaceLen(s: string): (n: nat)
    ensures n <= |s| && NoSpace(s[..n])
    ensures n < |s| ==> IsSpace(s[n])
    decreases |s|
  {
    if |s| > 0 && !IsSpace(s[0]) then
      var n := 1 + NonSpaceLen(s[1..]);
      assert forall i :: 1 <= i < n ==> s[..n][i] == s[1..][..n - 1][i - 1];
      n
    else 0
  }

  /** The length of the URL starting `s`, if one does: the scheme, then a
      non-empty run of non-whitespace taken greedily. */
  function UrlLen(s: string): (r: Option<nat>)
    ensures r.Some? ==> 0 < r.value <= |s| && NoSpace(s[..r.value])
    ensures r.Some? ==> StartsWith(s, "http://") || StartsWith(s, "https://")
    ensures r.Some? && r.value < |s| ==> IsSpace(s[r.value])
  {
    var scheme := SchemeLen(s);
    if scheme > 0 && NonSpaceLen(s[scheme..]) > 0 then
      var n := scheme + NonSpaceLen(s[scheme..]);
      NoSpaceJoin(s, scheme, n);
      Some(n)
    else None
  }

  /** The length of the `https://` or `http://` starting `s`, or 0; the
      regular expression tries the optional `s` first. */
  function SchemeLen(s: string): (r: nat)
    ensures r <= |s| && NoSpace(s[..r])
    ensures r > 0 ==> StartsWith(s, "http://") || StartsWith(s, "https://")
  {
    if StartsWith(s, "https://") then 8 else if StartsWith(s, "http://") then 7 else 0
  }

  /** Two whitespace-free stretches side by side are whitespace-free. */
  lemma NoSpaceJoin(s: string, k: nat, n: nat)
    requires k <= n <= |s| && NoSpace(s[..k]) && NoSpace(s[k..][..n - k])
    ensures NoSpace(s[..n])
  {
    assert forall i :: k <= i < n ==> s[..n][i] == s[k..][..n - k][i - k];
    assert forall i :: 0 <= i < k ==> s[..n][i] == s[..k][i];
  }

  /** A piece covering the first `n` characters, before pieces covering
      the rest, covers all of `s`. */
  lemma ProtectCons(s: string, n: nat, p: Piece, rest: seq<Piece>)
    requires 0 < n <= |s| && Text(p) == s[..n] && ShieldOk(p)
    requires Flatten(rest) == s[n..] && WellShielded(rest)
    ensures Flatten([p] + rest) == s && WellShielded([p] + rest)
  {
    FlattenCons(p, rest);
    WellShieldedCons(p, rest);
    assert s == s[..n] + s[n..];
  }

  /** A URL taken whole: the URL pattern, tried on `t` alone, matches all
      of it. */
  predicate IsUrl(t: string) {
    UrlLen(t) == Some(|t|)
  }

  /** The URL matched at the start of `s` is a URL on its own. */
  lemma UrlLenWhole(s: string, n: nat)
    requires UrlLen(s) == Some(n)
    ensures IsUrl(s[..n])
  {
    var c := SchemeLen(s);
    assert s[..n][..c] == s[..c];
    assert StartsWith(s[..n], "https://") == StartsWith(s, "https://");
    assert StartsWith(s[..n], "http://") == StartsWith(s, "http://");
    assert s[..n][c..] == s[c..][..n - c];
  }

  /** Replaces every URL, left to right, by a protected span. */
  function ProtectUrls(s: string): seq<Piece>
    decreases |s|
  {
    if |s| == 0 then []
    else match UrlLen(s)
      case Some(n) => [Shielded(s[..n])] + ProtectUrls(s[n..])
      case None => [Ch(s[0])] + ProtectUrls(s[1..])
  }

  /** Protecting URLs changes no text, and every protected span is
      non-empty and whitespace-free. */
  lemma {:induction false} UrlsKeepText(s: string)
    ensures Flatten(ProtectUrls(s)) == s
    ensures WellShielded(ProtectUrls(s))
    decreases |s|
  {
    if |s| > 0 {
      match UrlLen(s)
      case Some(n) =>
        UrlsKeepText(s[n..]);
        ProtectCons(s, n, Shielded(s[..n]), ProtectUrls(s[n..]));
      case None =>
        UrlsKeepText(s[1..]);
        ProtectCons(s, 1, Ch(s[0]), ProtectUrls(s[1..]));
    }
  }

  /** Each piece the URL pass makes is a character or a whole URL. */
  lemma {:induction false} UrlPiecesAreUrls(s: string)
    ensures forall p :: p in ProtectUrls(s) ==> p.Ch? || (p.Shielded? && IsUrl(p.text))
    decreases |s|
  {
    if |s| > 0 {
      match UrlLen(s)
      case Some(n) =>
        UrlPiecesAreUrls(s[n..]);
        UrlLenWhole(s, n);
        assert ProtectUrls(s) == [Shielded(s[..n])] + ProtectUrls(s[n..]);
      case None =>
        UrlPiecesAreUrls(s[1..]);
        assert ProtectUrls(s) == [Ch(s[0])] + ProtectUrls(s[1..]);
    }
  }

  // ---------------------------------------------------------------------
  // E-mail addresses: `\b[\w.+-]+@[\w.-]+\.[A-Za-z]{2,}\b`

  /** A piece that counts as a word character for `\b`. */
  predicate WordPiece(p: Piece) {
    match p
    case Ch(c) => IsWordChar(c)
    case Shielded(_) => true
    case DecimalDot => true
  }

  predicate WordAt(ps: seq<Piece>, i: int) { 0 <= i < |ps| && WordPiece(ps[i]) }

  /** `\b` before position `i`. */
  predicate Boundary(ps: seq<Piece>, i: int) { WordAt(ps, i - 1) != WordAt(ps, i) }

  datatype CharClass = LocalPart | DomainPart | Letters

  /** `[\w.+-]`, `[\w.-]` and `[A-Za-z]`. */
  predicate InClass(k: CharClass, p: Piece) {
    p.Ch? &&
    match k
    case LocalPart => IsWordChar(p.c) || p.c == '.' || p.c == '+' || p.c == '-'
    case DomainPart => IsWordChar(p.c) || p.c == '.' || p.c == '-'
    case Letters => IsAsciiLetter(p.c)
  }

  /** The end of the longest run of class `k` starting at `i`. */
  function RunEnd(ps: seq<Piece>, i: nat, k: CharClass): (r: nat)
    requires i <= |ps|
    ensures i <= r <= |ps|
    ensures forall q :: i <= q < r ==> InClass(k, ps[q])
    ensures r < |ps| ==> !InClass(k, ps[r])
    decreases |ps| - i
  {
    if i < |ps| && InClass(k, ps[i]) then RunEnd(ps, i + 1, k) else i
  }

  /** Where `\.[A-Za-z]{2,}\b` ends when it starts at the dot `d`: the
      letters run as far as they go, since a shorter run would end between
      two letters, where there is no `\b`. */
  function TldEnd(ps: seq<Piece>, d: nat): (r: Option<nat>)
    requires d < |ps|
    ensures r.Some? ==> d + 3 <= r.value <= |ps| && ps[d] == Ch('.')
    ensures r.Some? ==> forall q :: d < q < r.value ==> InClass(Letters, ps[q])
  {
    if ps[d] == Ch('.') then
      var m := RunEnd(ps, d + 1, Letters);
      if m >= d + 3 && !WordAt(ps, m) then Some(m) else None
    else None
  }

  /** The dot before the top-level domain: the greedy `[\w.-]+` gives back
      one character at a time, so the last dot in `[lo, hi)` that a
      top-level domain follows. */
  function LastTld(ps: seq<Piece>, lo: nat, hi: nat): (r: Option<nat>)
    requires hi <= |ps|
    ensures r.Some? ==> lo <= r.value < hi && TldEnd(ps, r.value).Some?
    ensures r.Some? ==> forall d :: r.value < d < hi ==> TldEnd(ps, d).None?
    ensures r.None? ==> forall d :: lo <= d < hi ==> TldEnd(ps, d).None?
    decreases hi
  {
    if hi <= lo then None
    else if TldEnd(ps, hi - 1).Some? then Some(hi - 1)
    else LastTld(ps, lo, hi - 1)
  }

  /** The end of the e-mail address starting at `i`, if one does. The
      local part cannot give characters back (it must be followed by `@`,
      which is not in its class), so only the domain backtracks. */
  function EmailEnd(ps: seq<Piece>, i: nat): (r: Option<nat>)
    requires i < |ps|
    ensures r.Some? ==> i < r.value <= |ps|
    ensures r.Some? ==> forall q :: i <= q < r.value ==> ps[q].Ch? && !IsSpace(ps[q].c)
  {
    if !Boundary(ps, i) || !InClass(LocalPart, ps[i]) then None
    else
      var j := RunEnd(ps, i, LocalPart);
      if j < |ps| && ps[j] == Ch('@') then
        var k := RunEnd(ps, j + 1, DomainPart);
        match LastTld(ps, j + 2, k)
        case Some(d) =>
          var m := TldEnd(ps, d);
          assert forall q :: i <= q < m.value ==> InClass(LocalPart, ps[q]) || q == j || InClass(DomainPart, ps[q]) || InClass(Letters, ps[q]);
          m
        case None => None
      else None
  }

  /** Replaces every e-mail address from `i` on, left to right, by a
      protected span. */
  function ProtectEmailsFrom(ps: seq<Piece>, i: nat): seq<Piece>
    requires i <= |ps|
    decreases |ps| - i
  {
    if i == |ps| then []
    else match EmailEnd(ps, i)
      case Some(m) => [Shielded(Flatten(ps[i..m]))] + ProtectEmailsFrom(ps, m)
      case None => [ps[i]] + ProtectEmailsFrom(ps, i + 1)
  }

  lemma FlattenSpan(ps: seq<Piece>, i: nat, m: nat)
    requires i <= m <= |ps|
    ensures Flatten(ps[i..]) == Flatten(ps[i..m]) + Flatten(ps[m..])
  {
    assert ps[i..] == ps[i..m] + ps[m..];
    FlattenAppend(ps[i..m], ps[m..]);
  }

  /** Protecting e-mail addresses changes no text. */
  lemma {:induction false} EmailsKeepText(ps: seq<Piece>, i: nat)
    requires i <= |ps|
    ensures Flatten(ProtectEmailsFrom(ps, i)) == Flatten(ps[i..])
    decreases |ps| - i
  {
    if i < |ps| {
      match EmailEnd(ps, i)
      case Some(m) =>
        EmailsKeepText(ps, m);
        FlattenCons(Shielded(Flatten(ps[i..m])), ProtectEmailsFrom(ps, m));
        FlattenSpan(ps, i, m);
      case None =>
        EmailsKeepText(ps, i + 1);
        FlattenCons(ps[i], ProtectEmailsFrom(ps, i + 1));
        FlattenFrom(ps, i);
    }
  }

  /** An e-mail address is a solid span, so protecting it keeps every
      protected span well formed. */
  lemma {:induction false} EmailsKeepShields(ps: seq<Piece>, i: nat)
    requires i <= |ps| && WellShielded(ps)
    ensures WellShielded(ProtectEmailsFrom(ps, i))
    decreases |ps| - i
  {
    if i < |ps| {
      match EmailEnd(ps, i)
      case Some(m) =>
        EmailsKeepShields(ps, m);
        SolidFlatten(ps[i..m]);
        WellShieldedCons(Shielded(Flatten(ps[i..m])), ProtectEmailsFrom(ps, m));
      case None =>
        EmailsKeepShields(ps, i + 1);
        WellShieldedAt(ps, i);
        WellShieldedCons(ps[i], ProtectEmailsFrom(ps, i + 1));
    }
  }

  // ---------------------------------------------------------------------
  // Decimal points: `(\d)\.(\d)`

  /** How the decimal pattern resumes after a match: as written, after the
      second digit, which the match consumed; with a lookahead
      `(\d)\.(?=\d)`, at the second digit. */
  datatype DecimalRule = AsWritten | Lookahead

  predicate DigitPiece(p: Piece) { p.Ch? && IsDigit(p.c) }

  function ProtectDecimals(ps: seq<Piece>, rule: DecimalRule): (r: seq<Piece>)
    ensures |r| == |ps|
    decreases |ps|
  {
    if |ps| == 0 then []
    else if DecimalAt(ps) then
      match rule
      case AsWritten => [ps[0], DecimalDot, ps[2]] + ProtectDecimals(ps[3..], rule)
      case Lookahead => [ps[0], DecimalDot] + ProtectDecimals(ps[2..], rule)
    else [ps[0]] + ProtectDecimals(ps[1..], rule)
  }

  /** `(\d)\.(\d)` matches at the start of `ps`. */
  predicate DecimalAt(ps: seq<Piece>) {
    |ps| >= 3 && DigitPiece(ps[0]) && ps[1] == Ch('.') && DigitPiece(ps[2])
  }

  lemma FlattenThree(a: Piece, b: Piece, c: Piece, rest: seq<Piece>)
    ensures Flatten([a, b, c] + rest) == Text(a) + (Text(b) + (Text(c) + Flatten(rest)))
  {
    assert [a, b, c] + rest == [a] + ([b] + ([c] + rest));
    FlattenCons(c, rest);
    FlattenCons(b, [c] + rest);
    FlattenCons(a, [b] + ([c] + rest));
  }

  lemma FlattenTwo(a: Piece, b: Piece, rest: seq<Piece>)
    ensures Flatten([a, b] + rest) == Text(a) + (Text(b) + Flatten(rest))
  {
    assert [a, b] + rest == [a] + ([b] + rest);
    FlattenCons(b, rest);
    FlattenCons(a, [b] + rest);
  }

  lemma DecimalAsWrittenStep(ps: seq<Piece>)
    requires DecimalAt(ps)
    requires Flatten(ProtectDecimals(ps[3..], AsWritten)) == Flatten(ps[3..])
    ensures Flatten(ProtectDecimals(ps, AsWritten)) == Flatten(ps)
  {
    assert ps == [ps[0], ps[1], ps[2]] + ps[3..];
    FlattenThree(ps[0], ps[1], ps[2], ps[3..]);
    FlattenThree(ps[0], DecimalDot, ps[2], ProtectDecimals(ps[3..], AsWritten));
  }

  lemma DecimalLookaheadStep(ps: seq<Piece>)
    requires DecimalAt(ps)
    requires Flatten(ProtectDecimals(ps[2..], Lookahead)) == Flatten(ps[2..])
    ensures Flatten(ProtectDecimals(ps, Lookahead)) == Flatten(ps)
  {
    assert ps == [ps[0], ps[1]] + ps[2..];
    FlattenTwo(ps[0], ps[1], ps[2..]);
    FlattenTwo(ps[0], DecimalDot, ProtectDecimals(ps[2..], Lookahead));
  }

  /** The decimal pass changes no text: the placeholder reads as a dot. */
  lemma {:induction false} DecimalsKeepText(ps: seq<Piece>, rule: DecimalRule)
    ensures Flatten(ProtectDecimals(ps, rule)) == Flatten(ps)
    decreases |ps|
  {
    if |ps| == 0 {
    } else if DecimalAt(ps) {
      match rule
      case AsWritten =>
        DecimalsKeepText(ps[3..], rule);
        DecimalAsWrittenStep(ps);
      case Lookahead =>
        DecimalsKeepText(ps[2..], rule);
        DecimalLookaheadStep(ps);
    } else {
      DecimalsKeepText(ps[1..], rule);
      FlattenFrom(ps, 0);
      assert ps[0..] == ps;
      FlattenCons(ps[0], ProtectDecimals(ps[1..], rule));
    }
  }

  /** The decimal pass creates no protected span. */
  lemma {:induction false} DecimalsKeepShields(ps: seq<Piece>, rule: DecimalRule)
    requires WellShielded(ps)
    ensures WellShielded(ProtectDecimals(ps, rule))
    decreases |ps|
  {
    if |ps| > 0 {
      var r := ProtectDecimals(ps, rule);
      if DecimalAt(ps) {
        assert ps[1..][1..] == ps[2..];
        match rule
        case AsWritten =>
          assert ps[2..][1..] == ps[3..];
          assert WellShielded(ps[2..]);
          DecimalsKeepShields(ps[3..], rule);
          assert r[1..][1..][1..] == ProtectDecimals(ps[3..], rule);
        case Lookahead =>
          DecimalsKeepShields(ps[2..], rule);
          assert r[1..][1..] == ProtectDecimals(ps[2..], rule);
      } else {
        DecimalsKeepShields(ps[1..], rule);
        assert r[1..] == ProtectDecimals(ps[1..], rule);
      }
    }
  }

  // ---------------------------------------------------------------------
  // Abbreviations: `\b` followed by the abbreviation, literally

  /** The abbreviations protected, in the order they are applied. */
  const Abbreviations: seq<string> := [
    "Mr.", "Mrs.", "Ms.", "Dr.", "Prof.", "Sr.", "Jr.", "St.",
    "e.g.", "i.e.", "etc.", "vs.",
    "\U{3BA}.", "\U{3BA}\U{3BA}.", "\U{3BA}\U{3B1}.", "\U{3C0}.\U{3C7}.",
    "\U{3B4}\U{3B7}\U{3BB}.", "\U{3BA}\U{3BB}\U{3C0}.", "\U{3B1}.\U{3BB}."
  ]

  /** `abbr` occurs as plain characters at `i`. */
  predicate AbbreviationAt(ps: seq<Piece>, abbr: string, i: nat) {
    i + |abbr| <= |ps| && ps[i..i + |abbr|] == Chars(abbr)
  }

  function ProtectAbbreviationFrom(ps: seq<Piece>, abbr: string, i: nat): seq<Piece>
    requires i <= |ps|
    decreases |ps| - i
  {
    if i == |ps| then []
    else if Boundary(ps, i) && AbbreviationAt(ps, abbr, i) && |abbr| > 0 then
      [Shielded(abbr)] + ProtectAbbreviationFrom(ps, abbr, i + |abbr|)
    else [ps[i]] + ProtectAbbreviationFrom(ps, abbr, i + 1)
  }

  lemma FlattenFrom(ps: seq<Piece>, i: nat)
    requires i < |ps|
    ensures Flatten(ps[i..]) == Text(ps[i]) + Flatten(ps[i + 1..])
  {
    assert ps[i..] == [ps[i]] + ps[i + 1..];
    FlattenCons(ps[i], ps[i + 1..]);
  }

  lemma FlattenAbbreviation(ps: seq<Piece>, abbr: string, i: nat)
    requires AbbreviationAt(ps, abbr, i)
    ensures Flatten(ps[i..]) == abbr + Flatten(ps[i + |abbr|..])
  {
    var n := |abbr|;
    assert ps[i..] == ps[i..i + n] + ps[i + n..];
    FlattenAppend(ps[i..i + n], ps[i + n..]);
    assert ps[i..i + n] == Chars(abbr);
  }

  /** Protecting one abbreviation changes no text. */
  lemma {:induction false} AbbreviationKeepsText(ps: seq<Piece>, abbr: string, i: nat)
    requires i <= |ps|
    ensures Flatten(ProtectAbbreviationFrom(ps, abbr, i)) == Flatten(ps[i..])
    decreases |ps| - i
  {
    if i == |ps| {
    } else if Boundary(ps, i) && AbbreviationAt(ps, abbr, i) && |abbr| > 0 {
      var j := i + |abbr|;
      AbbreviationKeepsText(ps, abbr, j);
      FlattenAbbreviation(ps, abbr, i);
      ConsText(Shielded(abbr), ProtectAbbreviationFrom(ps, abbr, j), Flatten(ps[i..]), Flatten(ps[j..]));
    } else {
      AbbreviationKeepsText(ps, abbr, i + 1);
      FlattenFrom(ps, i);
      ConsText(ps[i], ProtectAbbreviationFrom(ps, abbr, i + 1), Flatten(ps[i..]), Flatten(ps[i + 1..]));
    }
  }

  /** A piece with the same text as what it replaces, before pieces with
      the same text as the rest, keeps the whole text. */
  lemma ConsText(p: Piece, rest: seq<Piece>, whole: string, tail: string)
    requires Flatten(rest) == tail && whole == Text(p) + tail
    ensures Flatten([p] + rest) == whole
  {
    FlattenCons(p, rest);
  }

  /** A solid abbreviation keeps every protected span well formed. */
  lemma {:induction false} AbbreviationKeepsShields(ps: seq<Piece>, abbr: string, i: nat)
    requires i <= |ps|
    requires WellShielded(ps) && |abbr| > 0 && NoSpace(abbr)
    ensures WellShielded(ProtectAbbreviationFrom(ps, abbr, i))
    decreases |ps| - i
  {
    if i == |ps| {
    } else if Boundary(ps, i) && AbbreviationAt(ps, abbr, i) {
      AbbreviationKeepsShields(ps, abbr, i + |abbr|);
      WellShieldedCons(Shielded(abbr), ProtectAbbreviationFrom(ps, abbr, i + |abbr|));
    } else {
      AbbreviationKeepsShields(ps, abbr, i + 1);
      WellShieldedCons(ps[i], ProtectAbbreviationFrom(ps, abbr, i + 1));
      WellShieldedAt(ps, i);
    }
  }

  predicate SolidWords(abbrs: seq<string>) {
    forall k :: 0 <= k < |abbrs| ==> |abbrs[k]| > 0 && NoSpace(abbrs[k])
  }

  /** Each abbreviation in turn, over the result of the previous one. */
  function ProtectAbbreviations(ps: seq<Piece>, abbrs: seq<string>): seq<Piece>
    decreases |abbrs|
  {
    if |abbrs| == 0 then ps
    else ProtectAbbreviations(ProtectAbbreviationFrom(ps, abbrs[0], 0), abbrs[1..])
  }

  lemma {:induction false} AbbreviationsKeepText(ps: seq<Piece>, abbrs: seq<string>)
    ensures Flatten(ProtectAbbreviations(ps, abbrs)) == Flatten(ps)
    ensures WellShielded(ps) && SolidWords(abbrs) ==> WellShielded(ProtectAbbreviations(ps, abbrs))
    decreases |abbrs|
  {
    if |abbrs| > 0 {
      var next := ProtectAbbreviationFrom(ps, abbrs[0], 0);
      assert ps[0..] == ps;
      AbbreviationKeepsText(ps, abbrs[0], 0);
      AbbreviationsKeepText(next, abbrs[1..]);
      if WellShielded(ps) && SolidWords(abbrs) {
        AbbreviationKeepsShields(ps, abbrs[0], 0);
        assert SolidWords(abbrs[1..]) by {
          forall k | 0 <= k < |abbrs| - 1 ensures |abbrs[1..][k]| > 0 && NoSpace(abbrs[1..][k]) {
            assert abbrs[1..][k] == abbrs[k + 1];
          }
        }
      }
    }
  }

  lemma AbbreviationsSolid()
    ensures SolidWords(Abbreviations)
  {
  }

  // ---------------------------------------------------------------------
  // Sentence breaks: `([.;;?!])\s*` becomes the terminator and `\n`

  predicate Terminator(p: Piece) {
    p.Ch? && (p.c == '.' || p.c == ';' || p.c == '\U{37E}' || p.c == '?' || p.c == '!')
  }

  predicate AllSpacePieces(ps: seq<Piece>) {
    forall q :: 0 <= q < |ps| ==> SpacePiece(ps[q])
  }

  function SkipSpaces(ps: seq<Piece>): (r: seq<Piece>)
    ensures |r| <= |ps| && r == ps[|ps| - |r|..]
    ensures AllSpacePieces(ps[..|ps| - |r|])
    decreases |ps|
  {
    if |ps| > 0 && SpacePiece(ps[0]) then SkipSpaces(ps[1..]) else ps
  }

  function BreakAfterTerminators(ps: seq<Piece>): seq<Piece>
    decreases |ps|
  {
    if |ps| == 0 then []
    else if Terminator(ps[0]) then [ps[0], Ch('\n')] + BreakAfterTerminators(SkipSpaces(ps[1..]))
    else [ps[0]] + BreakAfterTerminators(ps[1..])
  }

  // ---------------------------------------------------------------------
  // Lines

  function TrimStartPieces(ps: seq<Piece>): (r: seq<Piece>)
    ensures |r| <= |ps| && r == ps[|ps| - |r|..]
    ensures AllSpacePieces(ps[..|ps| - |r|])
    ensures |r| > 0 ==> !SpacePiece(r[0])
    decreases |ps|
  {
    if |ps| > 0 && SpacePiece(ps[0]) then TrimStartPieces(ps[1..]) else ps
  }

  function TrimEndPieces(ps: seq<Piece>): (r: seq<Piece>)
    ensures |r| <= |ps| && r == ps[..|r|]
    ensures AllSpacePieces(ps[|r|..])
    ensures |r| > 0 ==> !SpacePiece(r[|r| - 1])
    decreases |ps|
  {
    if |ps| > 0 && SpacePiece(ps[|ps| - 1]) then TrimEndPieces(ps[..|ps| - 1]) else ps
  }

  /** `line.trim()`: placeholders contain no whitespace, so trimming the
      pieces trims the text. */
  function TrimPieces(ps: seq<Piece>): (r: seq<Piece>)
    ensures |r| > 0 ==> !SpacePiece(r[0]) && !SpacePiece(r[|r| - 1])
  {
    TrimEndPieces(TrimStartPieces(ps))
  }

  /** A trimmed, non-empty line. */
  predicate Trimmed(l: seq<Piece>) {
    |l| > 0 && !SpacePiece(l[0]) && !SpacePiece(l[|l| - 1])
  }

  /** `.map(line => line.trim()).filter(Boolean)`. */
  function CleanLines(lines: seq<seq<Piece>>): (r: seq<seq<Piece>>)
    ensures forall k :: 0 <= k < |r| ==> Trimmed(r[k])
    decreases |lines|
  {
    if |lines| == 0 then []
    else
      var t := TrimPieces(lines[0]);
      var rest := CleanLines(lines[1..]);
      if |t| == 0 then rest
      else
        TrimmedCons(t, rest);
        [t] + rest
  }

  lemma TrimmedCons(t: seq<Piece>, rest: seq<seq<Piece>>)
    requires Trimmed(t) && forall k :: 0 <= k < |rest| ==> Trimmed(rest[k])
    ensures forall k :: 0 <= k < |rest| + 1 ==> Trimmed(([t] + rest)[k])
  {
    forall k | 0 <= k < |rest| + 1 ensures Trimmed(([t] + rest)[k]) {
      if k > 0 {
        assert ([t] + rest)[k] == rest[k - 1];
      }
    }
  }

  /** Puts the placeholders' text back. */
  function Restore(lines: seq<seq<Piece>>): (r: seq<string>)
    ensures |r| == |lines|
    decreases |lines|
  {
    if |lines| == 0 then [] else [Flatten(lines[0])] + Restore(lines[1..])
  }

  /** The text with everything protected that must not be split. */
  function Protect(text: string, rule: DecimalRule): seq<Piece> {
    var urls := ProtectUrls(NormalizeNewlines(text));
    var emails := ProtectEmailsFrom(urls, 0);
    var decimals := ProtectDecimals(emails, rule);
    ProtectAbbreviations(decimals, Abbreviations)
  }

  /** The phrases before their placeholders are restored. */
  function PhraseLines(text: string, rule: DecimalRule): seq<seq<Piece>> {
    CleanLines(Split(BreakAfterTerminators(Protect(text, rule)), Ch('\n')))
  }

  /** The splitter with the decimal pass `rule`. */
  function SplitPhrasesWith(text: string, rule: DecimalRule): seq<string> {
    Restore(PhraseLines(text, rule))
  }

  /** `splitPhrases` as the application runs it: the decimal pass is
      `(\d)\.(\d)`. */
  function SplitPhrases(text: string): (r: seq<string>)
    ensures Squeeze(Concat(r)) == Squeeze(text)
    ensures forall k :: 0 <= k < |r| ==> PhraseShape(r[k])
    ensures r == [] <==> AllSpace(text)
  {
    SplitPhrasesKeepText(text, AsWritten);
    PhrasesAreTrimmedLines(text, AsWritten);
    NoPhrasesIffBlank(text, AsWritten);
    SplitPhrasesWith(text, AsWritten)
  }

  /** `splitPhrases` with decimal points protected by a lookahead, so that
      no dot between two digits ends a phrase. */
  function SplitPhrasesCorrected(text: string): (r: seq<string>)
    ensures Squeeze(Concat(r)) == Squeeze(text)
    ensures forall k :: 0 <= k < |r| ==> PhraseShape(r[k])
    ensures r == [] <==> AllSpace(text)
  {
    SplitPhrasesKeepText(text, Lookahead);
    PhrasesAreTrimmedLines(text, Lookahead);
    NoPhrasesIffBlank(text, Lookahead);
    SplitPhrasesWith(text, Lookahead)
  }

  // ---------------------------------------------------------------------
  // Properties

  lemma {:induction false} SpacesVanish(ps: seq<Piece>)
    requires AllSpacePieces(ps)
    ensures Squeeze(Flatten(ps)) == []
    decreases |ps|
  {
    if |ps| > 0 {
      SpacesVanish(ps[1..]);
      SqueezeAppend(Text(ps[0]), Flatten(ps[1..]));
    }
  }

  /** Splitting a flattened sequence at `i` splits its squeezed text. */
  lemma SqueezeFlattenSplit(ps: seq<Piece>, i: nat)
    requires i <= |ps|
    ensures Squeeze(Flatten(ps)) == Squeeze(Flatten(ps[..i])) + Squeeze(Flatten(ps[i..]))
  {
    assert ps == ps[..i] + ps[i..];
    FlattenAppend(ps[..i], ps[i..]);
    SqueezeAppend(Flatten(ps[..i]), Flatten(ps[i..]));
  }

  lemma SkipSpacesKeepsText(ps: seq<Piece>)
    ensures Squeeze(Flatten(SkipSpaces(ps))) == Squeeze(Flatten(ps))
  {
    var r := SkipSpaces(ps);
    SqueezeFlattenSplit(ps, |ps| - |r|);
    SpacesVanish(ps[..|ps| - |r|]);
  }

  lemma {:induction false} SkipSpacesKeepsShields(ps: seq<Piece>)
    requires WellShielded(ps)
    ensures WellShielded(SkipSpaces(ps))
    decreases |ps|
  {
    if |ps| > 0 && SpacePiece(ps[0]) {
      SkipSpacesKeepsShields(ps[1..]);
    }
  }

  lemma BreakTerminatorFlatten(ps: seq<Piece>)
    requires |ps| > 0 && Terminator(ps[0])
    ensures Flatten(BreakAfterTerminators(ps)) == Text(ps[0]) + ("\n" + Flatten(BreakAfterTerminators(SkipSpaces(ps[1..]))))
  {
    var rest := BreakAfterTerminators(SkipSpaces(ps[1..]));
    assert BreakAfterTerminators(ps) == [ps[0]] + ([Ch('\n')] + rest);
    FlattenCons(Ch('\n'), rest);
    FlattenCons(ps[0], [Ch('\n')] + rest);
  }

  lemma SqueezeDropsNewline(h: string, t: string)
    ensures Squeeze(h + ("\n" + t)) == Squeeze(h) + Squeeze(t)
  {
    SqueezeAppend(h, "\n" + t);
    SqueezeAppend("\n", t);
  }

  lemma BreakTerminatorStep(ps: seq<Piece>)
    requires |ps| > 0 && Terminator(ps[0])
    requires Squeeze(Flatten(BreakAfterTerminators(SkipSpaces(ps[1..])))) == Squeeze(Flatten(SkipSpaces(ps[1..])))
    ensures Squeeze(Flatten(BreakAfterTerminators(ps))) == Squeeze(Flatten(ps))
  {
    BreakTerminatorFlatten(ps);
    SqueezeDropsNewline(Text(ps[0]), Flatten(BreakAfterTerminators(SkipSpaces(ps[1..]))));
    SkipSpacesKeepsText(ps[1..]);
    FlattenFrom(ps, 0);
    assert ps[0..] == ps;
    SqueezeAppend(Text(ps[0]), Flatten(ps[1..]));
  }

  lemma BreakOtherStep(ps: seq<Piece>)
    requires |ps| > 0 && !Terminator(ps[0])
    requires Squeeze(Flatten(BreakAfterTerminators(ps[1..]))) == Squeeze(Flatten(ps[1..]))
    ensures Squeeze(Flatten(BreakAfterTerminators(ps))) == Squeeze(Flatten(ps))
  {
    var rest := BreakAfterTerminators(ps[1..]);
    FlattenFrom(ps, 0);
    SqueezeAppend(Text(ps[0]), Flatten(ps[1..]));
    FlattenCons(ps[0], rest);
    SqueezeAppend(Text(ps[0]), Flatten(rest));
  }

  /** The break pass only adds line breaks and drops whitespace. */
  lemma {:induction false} BreakKeepsText(ps: seq<Piece>)
    ensures Squeeze(Flatten(BreakAfterTerminators(ps))) == Squeeze(Flatten(ps))
    decreases |ps|
  {
    if |ps| > 0 {
      if Terminator(ps[0]) {
        BreakKeepsText(SkipSpaces(ps[1..]));
        BreakTerminatorStep(ps);
      } else {
        BreakKeepsText(ps[1..]);
        BreakOtherStep(ps);
      }
    }
  }

  /** Every terminator is directly followed by a line break. */
  predicate Marked(ps: seq<Piece>)
    decreases |ps|
  {
    |ps| == 0 || ((Terminator(ps[0]) ==> |ps| > 1 && ps[1] == Ch('\n')) && Marked(ps[1..]))
  }

  lemma {:induction false} BreakMarksTerminators(ps: seq<Piece>)
    ensures Marked(BreakAfterTerminators(ps))
    ensures WellShielded(ps) ==> WellShielded(BreakAfterTerminators(ps))
    decreases |ps|
  {
    if |ps| > 0 {
      if Terminator(ps[0]) {
        var rest := BreakAfterTerminators(SkipSpaces(ps[1..]));
        BreakMarksTerminators(SkipSpaces(ps[1..]));
        if WellShielded(ps) {
          SkipSpacesKeepsShields(ps[1..]);
        }
        assert ([ps[0], Ch('\n')] + rest)[1..] == [Ch('\n')] + rest;
        assert ([Ch('\n')] + rest)[1..] == rest;
      } else {
        var rest := BreakAfterTerminators(ps[1..]);
        BreakMarksTerminators(ps[1..]);
        assert ([ps[0]] + rest)[1..] == rest;
      }
    }
  }

  /** What the cut lines satisfy: every protected span well formed, no line
      break, and a terminator, if any, only as the last piece. */
  predicate LineOk(l: seq<Piece>) {
    && (forall q :: 0 <= q < |l| ==> ShieldOk(l[q]) && l[q] != Ch('\n'))
    && (forall q :: 0 <= q < |l| - 1 ==> !Terminator(l[q]))
  }

  lemma {:induction false} PartsAreLines(s: seq<Piece>)
    requires WellShielded(s) && Marked(s)
    ensures forall k :: 0 <= k < |Split(s, Ch('\n'))| ==> LineOk(Split(s, Ch('\n'))[k])
    decreases |s|
  {
    if |s| > 0 {
      var sep := Ch('\n');
      var rest := Split(s[1..], sep);
      PartsAreLines(s[1..]);
      var parts := Split(s, sep);
      if s[0] == sep {
        assert parts == [[]] + rest;
        forall k | 0 <= k < |parts| ensures LineOk(parts[k]) {
          if k > 0 {
            assert parts[k] == rest[k - 1];
          }
        }
      } else {
        var first := [s[0]] + rest[0];
        assert parts == [first] + rest[1..];
        if Terminator(s[0]) {
          assert s[1..][0] == sep;
          assert rest[0] == [];
        }
        assert LineOk(first) by {
          forall q | 0 <= q < |first| ensures ShieldOk(first[q]) && first[q] != sep {
            if q > 0 {
              assert first[q] == rest[0][q - 1];
              assert sep !in rest[0];
            }
          }
          forall q | 0 <= q < |first| - 1 ensures !Terminator(first[q]) {
            if q > 0 {
              assert first[q] == rest[0][q - 1];
            }
          }
        }
        forall k | 0 <= k < |parts| ensures LineOk(parts[k]) {
          if k > 0 {
            assert parts[k] == rest[k];
          }
        }
      }
    }
  }

  /** Trimming cuts a line down to a slice of itself. */
  lemma TrimIsSlice(l: seq<Piece>) returns (a: nat, b: nat)
    ensures a <= b <= |l| && TrimPieces(l) == l[a..b]
    ensures AllSpacePieces(l[..a]) && AllSpacePieces(l[a..b][|TrimPieces(l)|..])
  {
    var t := TrimStartPieces(l);
    a := |l| - |t|;
    var r := TrimEndPieces(t);
    b := a + |r|;
    assert r == t[..|r|];
    assert t == l[a..];
    assert l[a..][..|r|] == l[a..b];
  }

  lemma SliceOk(l: seq<Piece>, a: nat, b: nat)
    requires a <= b <= |l| && LineOk(l)
    ensures LineOk(l[a..b])
  {
    var t := l[a..b];
    forall q | 0 <= q < |t| ensures ShieldOk(t[q]) && t[q] != Ch('\n') {
      assert t[q] == l[a + q];
    }
    forall q | 0 <= q < |t| - 1 ensures !Terminator(t[q]) {
      assert t[q] == l[a + q];
    }
  }

  lemma TrimStartKeepsText(l: seq<Piece>)
    ensures Squeeze(Flatten(TrimStartPieces(l))) == Squeeze(Flatten(l))
  {
    var t := TrimStartPieces(l);
    SqueezeFlattenSplit(l, |l| - |t|);
    SpacesVanish(l[..|l| - |t|]);
  }

  lemma TrimEndKeepsText(l: seq<Piece>)
    ensures Squeeze(Flatten(TrimEndPieces(l))) == Squeeze(Flatten(l))
  {
    var r := TrimEndPieces(l);
    SqueezeFlattenSplit(l, |r|);
    SpacesVanish(l[|r|..]);
  }

  lemma TrimKeepsText(l: seq<Piece>)
    ensures Squeeze(Flatten(TrimPieces(l))) == Squeeze(Flatten(l))
  {
    TrimStartKeepsText(l);
    TrimEndKeepsText(TrimStartPieces(l));
  }

  /** Concatenation of strings. */
  function Concat(ss: seq<string>): string
    decreases |ss|
  {
    if |ss| == 0 then [] else ss[0] + Concat(ss[1..])
  }

  lemma {:induction false} CleanKeepsText(lines: seq<seq<Piece>>)
    ensures Squeeze(Concat(Restore(CleanLines(lines)))) == Squeeze(Concat(Restore(lines)))
    decreases |lines|
  {
    if |lines| > 0 {
      CleanKeepsText(lines[1..]);
      TrimKeepsText(lines[0]);
      SqueezeAppend(Flatten(lines[0]), Concat(Restore(lines[1..])));
      var t := TrimPieces(lines[0]);
      if |t| > 0 {
        assert Restore([t] + CleanLines(lines[1..]))[1..] == Restore(CleanLines(lines[1..])) by {
          assert ([t] + CleanLines(lines[1..]))[1..] == CleanLines(lines[1..]);
        }
        SqueezeAppend(Flatten(t), Concat(Restore(CleanLines(lines[1..]))));
      }
    }
  }

  lemma {:induction false} CleanKeepsLines(lines: seq<seq<Piece>>)
    requires forall k :: 0 <= k < |lines| ==> LineOk(lines[k])
    ensures forall k :: 0 <= k < |CleanLines(lines)| ==> LineOk(CleanLines(lines)[k])
    decreases |lines|
  {
    if |lines| > 0 {
      CleanKeepsLines(lines[1..]);
      var a, b := TrimIsSlice(lines[0]);
      SliceOk(lines[0], a, b);
      var t := TrimPieces(lines[0]);
      if |t| > 0 {
        var r := [t] + CleanLines(lines[1..]);
        forall k | 0 <= k < |r| ensures LineOk(r[k]) {
          if k > 0 {
            assert r[k] == CleanLines(lines[1..])[k - 1];
          }
        }
      }
    }
  }

  lemma {:induction false} JoinKeepsText(parts: seq<seq<Piece>>)
    ensures Squeeze(Flatten(Join(parts, Ch('\n')))) == Squeeze(Concat(Restore(parts)))
    decreases |parts|
  {
    if |parts| == 0 {
      assert Restore(parts) == [];
      assert Flatten(Join(parts, Ch('\n'))) == [];
    } else if |parts| == 1 {
      assert Restore(parts) == [Flatten(parts[0])];
      assert [Flatten(parts[0])][1..] == [];
      assert Concat(Restore(parts)) == Flatten(parts[0]) + [] == Flatten(parts[0]);
      assert Join(parts, Ch('\n')) == parts[0];
    } else {
      var tail := Join(parts[1..], Ch('\n'));
      JoinKeepsText(parts[1..]);
      assert Join(parts, Ch('\n')) == parts[0] + ([Ch('\n')] + tail);
      FlattenAppend(parts[0], [Ch('\n')] + tail);
      FlattenCons(Ch('\n'), tail);
      SqueezeAppend(Flatten(parts[0]), Flatten([Ch('\n')] + tail));
      SqueezeAppend("\n", Flatten(tail));
      SqueezeAppend(Flatten(parts[0]), Concat(Restore(parts[1..])));
    }
  }

  lemma ProtectKeepsText(text: string, rule: DecimalRule)
    ensures Flatten(Protect(text, rule)) == NormalizeNewlines(text)
    ensures WellShielded(Protect(text, rule))
  {
    var urls := ProtectUrls(NormalizeNewlines(text));
    var emails := ProtectEmailsFrom(urls, 0);
    UrlsKeepText(NormalizeNewlines(text));
    assert urls[0..] == urls;
    EmailsKeepText(urls, 0);
    EmailsKeepShields(urls, 0);
    DecimalsKeepText(emails, rule);
    DecimalsKeepShields(emails, rule);
    AbbreviationsSolid();
    AbbreviationsKeepText(ProtectDecimals(emails, rule), Abbreviations);
  }

  /** No non-whitespace character is lost or added: the phrases, put end
      to end, hold exactly the non-whitespace characters of the text, in
      order. */
  lemma SplitPhrasesKeepText(text: string, rule: DecimalRule)
    ensures Squeeze(Concat(SplitPhrasesWith(text, rule))) == Squeeze(text)
  {
    var ps := Protect(text, rule);
    ProtectKeepsText(text, rule);
    SqueezeNormalize(text);
    var broken := BreakAfterTerminators(ps);
    BreakKeepsText(ps);
    var parts := Split(broken, Ch('\n'));
    JoinKeepsText(parts);
    CleanKeepsText(parts);
  }

  lemma PhraseLinesOk(text: string, rule: DecimalRule)
    ensures forall k :: 0 <= k < |PhraseLines(text, rule)| ==> LineOk(PhraseLines(text, rule)[k])
  {
    var ps := Protect(text, rule);
    ProtectKeepsText(text, rule);
    BreakMarksTerminators(ps);
    PartsAreLines(BreakAfterTerminators(ps));
    CleanKeepsLines(Split(BreakAfterTerminators(ps), Ch('\n')));
  }

  /** A sentence terminator outside a protected span is always the last
      piece of its phrase. */
  lemma TerminatorsEndPhrases(text: string, rule: DecimalRule)
    ensures forall k, q :: 0 <= k < |PhraseLines(text, rule)| && 0 <= q < |PhraseLines(text, rule)[k]| - 1 ==>
              !Terminator(PhraseLines(text, rule)[k][q])
  {
    PhraseLinesOk(text, rule);
  }

  lemma {:induction false} NoNewlineInFlatten(l: seq<Piece>)
    requires LineOk(l)
    ensures '\n' !in Flatten(l)
    decreases |l|
  {
    if |l| > 0 {
      assert LineOk(l[1..]) by {
        forall q | 0 <= q < |l| - 1 ensures l[1..][q] == l[q + 1] { }
      }
      NoNewlineInFlatten(l[1..]);
      assert ShieldOk(l[0]) && l[0] != Ch('\n');
      if l[0].Shielded? {
        assert forall i :: 0 <= i < |l[0].text| ==> !IsSpace(l[0].text[i]);
      }
    }
  }

  /** A restored phrase is non-empty, starts and ends with a non-blank
      character and holds no line break. */
  lemma RestoredLine(l: seq<Piece>)
    requires LineOk(l) && Trimmed(l)
    ensures PhraseShape(Flatten(l))
  {
    NoNewlineInFlatten(l);
    assert ShieldOk(l[0]) && ShieldOk(l[|l| - 1]);
    FlattenCons(l[0], l[1..]);
    assert l == [l[0]] + l[1..];
    assert l == l[..|l| - 1] + [l[|l| - 1]];
    FlattenAppend(l[..|l| - 1], [l[|l| - 1]]);
    FlattenCons(l[|l| - 1], []);
  }

  /** A phrase as `splitPhrases` returns it: non-empty, starting and
      ending with a non-blank character, and a single line. */
  predicate PhraseShape(t: string) {
    |t| > 0 && !IsSpace(t[0]) && !IsSpace(t[|t| - 1]) && '\n' !in t
  }

  lemma RestoredLines(lines: seq<seq<Piece>>)
    requires forall k :: 0 <= k < |lines| ==> LineOk(lines[k]) && Trimmed(lines[k])
    ensures forall k :: 0 <= k < |Restore(lines)| ==> PhraseShape(Restore(lines)[k])
  {
    forall k | 0 <= k < |lines| ensures PhraseShape(Restore(lines)[k]) {
      RestoredLine(lines[k]);
      RestoreAt(lines, k);
    }
  }

  /** Every phrase is non-empty, trimmed and a single line. */
  lemma PhrasesAreTrimmedLines(text: string, rule: DecimalRule)
    ensures forall k :: 0 <= k < |SplitPhrasesWith(text, rule)| ==> PhraseShape(SplitPhrasesWith(text, rule)[k])
  {
    PhraseLinesOk(text, rule);
    RestoredLines(PhraseLines(text, rule));
  }

  lemma {:induction false} RestoreAt(lines: seq<seq<Piece>>, k: nat)
    requires k < |lines|
    ensures Restore(lines)[k] == Flatten(lines[k])
    decreases k
  {
    if k > 0 {
      RestoreAt(lines[1..], k - 1);
    }
  }

  lemma ShapedNotBlank(r: seq<string>)
    requires |r| > 0 && PhraseShape(r[0])
    ensures Squeeze(Concat(r)) != []
  {
    SqueezeAppend(r[0], Concat(r[1..]));
    assert r[0] == [r[0][0]] + r[0][1..];
    SqueezeAppend([r[0][0]], r[0][1..]);
  }

  /** The text yields no phrase exactly when it is blank. */
  lemma NoPhrasesIffBlank(text: string, rule: DecimalRule)
    ensures SplitPhrasesWith(text, rule) == [] <==> AllSpace(text)
  {
    var r := SplitPhrasesWith(text, rule);
    SplitPhrasesKeepText(text, rule);
    SqueezeEmptyIffAllSpace(text);
    if |r| > 0 {
      PhrasesAreTrimmedLines(text, rule);
      ShapedNotBlank(r);
    }
  }

  /** `(\d)\.(\d)` matches nowhere: no character dot is left with a digit
      on both sides. */
  predicate NoBareDecimal(ps: seq<Piece>)
    decreases |ps|
  {
    |ps| == 0 || (!DecimalAt(ps) && NoBareDecimal(ps[1..]))
  }

  lemma DecimalsHead(ps: seq<Piece>, rule: DecimalRule)
    requires |ps| > 0
    ensures |ProtectDecimals(ps, rule)| > 0 && ProtectDecimals(ps, rule)[0] == ps[0]
    ensures |ps| > 1 ==>
              && |ProtectDecimals(ps, rule)| > 1
              && (ProtectDecimals(ps, rule)[1] == ps[1] || ProtectDecimals(ps, rule)[1] == DecimalDot)
  {
    if |ps| > 1 && !DecimalAt(ps) {
      DecimalsHead(ps[1..], rule);
    }
  }

  /** With the lookahead, every decimal point is protected: no dot between
      two digits is left for the break pass to split at. */
  lemma {:induction false} LookaheadProtectsDecimals(ps: seq<Piece>)
    ensures NoBareDecimal(ProtectDecimals(ps, Lookahead))
    decreases |ps|
  {
    if |ps| > 0 {
      var r := ProtectDecimals(ps, Lookahead);
      if DecimalAt(ps) {
        var rest := ProtectDecimals(ps[2..], Lookahead);
        LookaheadProtectsDecimals(ps[2..]);
        assert r[1..] == [DecimalDot] + rest;
        assert r[1..][1..] == rest;
      } else {
        var rest := ProtectDecimals(ps[1..], Lookahead);
        LookaheadProtectsDecimals(ps[1..]);
        assert r == [ps[0]] + rest;
        assert r[1..] == rest;
        if |ps| > 2 {
          DecimalsHead(ps[1..], Lookahead);
          assert r[1] == rest[0] == ps[1];
          assert r[2] == rest[1];
          assert ps[1..][1] == ps[2];
        }
      }
    }
  }

  /** As written, the second digit of a match is consumed, so in `1.2.3`
      the dot after `2` stays a bare dot between two digits. */
  lemma AsWrittenLeavesBareDecimal()
    ensures var ps := [Ch('1'), Ch('.'), Ch('2'), Ch('.'), Ch('3')];
            ps == Chars("1.2.3") &&
            ProtectDecimals(ps, AsWritten) == [Ch('1'), DecimalDot, Ch('2'), Ch('.'), Ch('3')] &&
            !NoBareDecimal(ProtectDecimals(ps, AsWritten))
  {
    var ps := [Ch('1'), Ch('.'), Ch('2'), Ch('.'), Ch('3')];
    assert DecimalAt(ps);
    assert ps[3..] == [Ch('.'), Ch('3')];
    var r := [Ch('1'), DecimalDot, Ch('2'), Ch('.'), Ch('3')];
    assert r[1..][1..] == [Ch('2'), Ch('.'), Ch('3')];
    assert DecimalAt(r[1..][1..]);
  }

  // ---------------------------------------------------------------------
  // What the passes protect

  /** A URL opens the word at `o`: `o` starts the text or follows
      whitespace, so no earlier URL reaches over it. */
  predicate UrlOpensWord(s: string, o: nat) {
    o < |s| && (o == 0 || IsSpace(s[o - 1])) && UrlLen(s[o..]).Some?
  }

  function UrlAt(s: string, o: nat): string
    requires UrlOpensWord(s, o)
  {
    s[o..o + UrlLen(s[o..]).value]
  }

  /** A whitespace-free run at the start ends before any whitespace. */
  lemma RunEndsBeforeSpace(s: string, n: nat, o: nat)
    requires n <= |s| && NoSpace(s[..n]) && 0 < o <= |s| && IsSpace(s[o - 1])
    ensures n < o
  {
    assert forall i :: 0 <= i < n ==> s[..n][i] == s[i];
  }

  /** The URL pass on text starting with a URL. */
  lemma ProtectUrlsAtUrl(s: string, n: nat)
    requires |s| > 0 && UrlLen(s) == Some(n)
    ensures ProtectUrls(s) == [Shielded(s[..n])] + ProtectUrls(s[n..])
  {
  }

  /** The URL pass on text not starting with a URL. */
  lemma ProtectUrlsAtChar(s: string)
    requires |s| > 0 && UrlLen(s).None?
    ensures ProtectUrls(s) == [Ch(s[0])] + ProtectUrls(s[1..])
  {
  }

  lemma TakeOfAppend<T>(a: seq<T>, b: seq<T>, d: nat)
    requires d <= |a|
    ensures (a + b)[..d] == a[..d]
  {
  }

  lemma DropOfAppend<T>(a: seq<T>, b: seq<T>, d: nat)
    requires d <= |a|
    ensures (a + b)[d..] == a[d..] + b
  {
  }

  lemma SameHeadAppend<T>(x: seq<T>, y: seq<T>, z: seq<T>)
    requires |x| > 0 && |y| > 0 && x[0] == y[0] && x[1..] == y[1..] + z
    ensures x == y + z
  {
    assert x == [x[0]] + x[1..];
    assert y == [y[0]] + y[1..];
  }

  /** `a` ends with whitespace, so no match reaches past it. */
  predicate EndsInSpace(a: string) {
    |a| > 0 && IsSpace(a[|a| - 1])
  }

  /** A whitespace-free prefix is seen the same with or without what
      follows text ending in whitespace. */
  lemma StartsWithBefore(a: string, b: string, t: string)
    requires EndsInSpace(a) && NoSpace(t)
    ensures StartsWith(a + b, t) == StartsWith(a, t)
  {
    if |t| <= |a| {
      TakeOfAppend(a, b, |t|);
    } else {
      assert (a + b)[|a| - 1] == a[|a| - 1];
      assert !IsSpace(t[|a| - 1]);
    }
  }

  lemma SchemeLenBefore(a: string, b: string)
    requires EndsInSpace(a)
    ensures SchemeLen(a + b) == SchemeLen(a) < |a|
  {
    StartsWithBefore(a, b, "https://");
    StartsWithBefore(a, b, "http://");
    RunEndsBeforeSpace(a, SchemeLen(a), |a|);
  }

  lemma {:induction false} NonSpaceLenBefore(a: string, b: string)
    requires EndsInSpace(a)
    ensures NonSpaceLen(a + b) == NonSpaceLen(a) < |a|
    decreases |a|
  {
    assert (a + b)[0] == a[0];
    if !IsSpace(a[0]) {
      DropOfAppend(a, b, 1);
      NonSpaceLenBefore(a[1..], b);
    }
  }

  /** The URL pattern tried on text ending in whitespace matches the same,
      whatever follows, and stops before that whitespace. */
  lemma UrlLenBefore(a: string, b: string)
    requires EndsInSpace(a)
    ensures UrlLen(a + b) == UrlLen(a)
    ensures UrlLen(a).Some? ==> UrlLen(a).value < |a|
  {
    var c := SchemeLen(a);
    SchemeLenBefore(a, b);
    DropOfAppend(a, b, c);
    assert a[c..][|a[c..]| - 1] == a[|a| - 1];
    NonSpaceLenBefore(a[c..], b);
  }

  /** One step of the URL pass on `a + b`, `a` ending in whitespace: the
      same first piece as on `a`, and `d` characters consumed, all of `a`. */
  lemma UrlSplitStep(a: string, b: string) returns (d: nat)
    requires EndsInSpace(a)
    ensures 0 < d <= |a| && (d == |a| || EndsInSpace(a[d..]))
    ensures |ProtectUrls(a)| > 0 && |ProtectUrls(a + b)| > 0
    ensures ProtectUrls(a + b)[0] == ProtectUrls(a)[0]
    ensures ProtectUrls(a)[1..] == ProtectUrls(a[d..])
    ensures ProtectUrls(a + b)[1..] == ProtectUrls(a[d..] + b)
  {
    UrlLenBefore(a, b);
    assert (a + b)[0] == a[0];
    if UrlLen(a).Some? {
      d := UrlLen(a).value;
      ProtectUrlsAtUrl(a, d);
      ProtectUrlsAtUrl(a + b, d);
      TakeOfAppend(a, b, d);
    } else {
      d := 1;
      ProtectUrlsAtChar(a);
      ProtectUrlsAtChar(a + b);
    }
    DropOfAppend(a, b, d);
    if d < |a| {
      assert a[d..][|a[d..]| - 1] == a[|a| - 1];
    }
  }

  /** The URL pass works word by word: text ending in whitespace is
      protected the same whatever follows it, and what follows is protected
      as if on its own. */
  lemma {:induction false} UrlsSplitAtSpace(a: string, b: string)
    requires |a| == 0 || EndsInSpace(a)
    ensures ProtectUrls(a + b) == ProtectUrls(a) + ProtectUrls(b)
    decreases |a|
  {
    if |a| == 0 {
      assert a + b == b;
    } else {
      var d := UrlSplitStep(a, b);
      UrlsSplitAtSpace(a[d..], b);
      SameHeadAppend(ProtectUrls(a + b), ProtectUrls(a), ProtectUrls(b));
    }
  }

  /** The URL pass from a URL on starts with that URL, protected. */
  lemma UrlShieldAtStart(s: string, o: nat)
    requires UrlOpensWord(s, o)
    ensures Shielded(UrlAt(s, o)) in ProtectUrls(s[o..])
  {
    var n := UrlLen(s[o..]).value;
    ProtectUrlsAtUrl(s[o..], n);
    assert s[o..][..n] == UrlAt(s, o);
  }

  /** A URL opening a word becomes one protected span. */
  lemma UrlBecomesShield(s: string, o: nat)
    requires UrlOpensWord(s, o)
    ensures Shielded(UrlAt(s, o)) in ProtectUrls(s)
  {
    UrlShieldAtStart(s, o);
    assert s == s[..o] + s[o..];
    UrlsSplitAtSpace(s[..o], s[o..]);
  }

  /** An e-mail address opens the word at piece `j`. */
  predicate EmailOpensWord(ps: seq<Piece>, j: nat) {
    j < |ps| && (j == 0 || SpacePiece(ps[j - 1])) && EmailEnd(ps, j).Some?
  }

  function EmailAt(ps: seq<Piece>, j: nat): string
    requires EmailOpensWord(ps, j)
  {
    Flatten(ps[j..EmailEnd(ps, j).value])
  }

  /** An e-mail address opening a word becomes one protected span, whatever
      the scan met before it. */
  lemma {:induction false} EmailBecomesShield(ps: seq<Piece>, i: nat, j: nat)
    requires i <= j && EmailOpensWord(ps, j)
    ensures Shielded(EmailAt(ps, j)) in ProtectEmailsFrom(ps, i)
    decreases |ps| - i
  {
    if i < j {
      match EmailEnd(ps, i)
      case Some(m) =>
        EmailBecomesShield(ps, m, j);
      case None =>
        EmailBecomesShield(ps, i + 1, j);
    }
  }

  /** `abbr` is found at `j`: at a word boundary, and no earlier occurrence
      at a boundary reaches over `j`. */
  predicate AbbreviationFound(ps: seq<Piece>, abbr: string, j: nat) {
    && |abbr| > 0 && Boundary(ps, j) && AbbreviationAt(ps, abbr, j)
    && forall h :: 0 <= h < j && j < h + |abbr| ==> !(Boundary(ps, h) && AbbreviationAt(ps, abbr, h))
  }

  /** An abbreviation found at a word boundary becomes one protected span. */
  lemma {:induction false} AbbreviationBecomesShield(ps: seq<Piece>, abbr: string, i: nat, j: nat)
    requires i <= j && AbbreviationFound(ps, abbr, j)
    ensures Shielded(abbr) in ProtectAbbreviationFrom(ps, abbr, i)
    decreases |ps| - i
  {
    if i < j {
      if Boundary(ps, i) && AbbreviationAt(ps, abbr, i) {
        AbbreviationBecomesShield(ps, abbr, i + |abbr|, j);
      } else {
        AbbreviationBecomesShield(ps, abbr, i + 1, j);
      }
    }
  }

  /** Protected spans and decimal placeholders already in place survive the
      e-mail pass. */
  lemma {:induction false} EmailsKeepPlaceholders(ps: seq<Piece>, i: nat)
    requires i <= |ps|
    ensures forall p :: p in ps[i..] && !p.Ch? ==> p in ProtectEmailsFrom(ps, i)
    decreases |ps| - i
  {
    if i < |ps| {
      assert ps[i..] == [ps[i]] + ps[i + 1..];
      match EmailEnd(ps, i)
      case Some(m) =>
        EmailsKeepPlaceholders(ps, m);
        forall p | p in ps[i..] && !p.Ch? ensures p in ps[m..] {
          var q :| i <= q < |ps| && ps[q] == p;
          assert ps[m..][q - m] == p;
        }
      case None =>
        EmailsKeepPlaceholders(ps, i + 1);
    }
  }

  /** ... and the decimal pass. */
  lemma {:induction false} DecimalsKeepPlaceholders(ps: seq<Piece>, rule: DecimalRule)
    ensures forall p :: p in ps && !p.Ch? ==> p in ProtectDecimals(ps, rule)
    decreases |ps|
  {
    if |ps| > 0 {
      if DecimalAt(ps) {
        DecimalsKeepPlaceholders(ps[3..], rule);
        DecimalsKeepPlaceholders(ps[2..], rule);
        assert ps == [ps[0], ps[1], ps[2]] + ps[3..];
        assert ps[2..] == [ps[2]] + ps[3..];
      } else {
        DecimalsKeepPlaceholders(ps[1..], rule);
        assert ps == [ps[0]] + ps[1..];
      }
    }
  }

  /** ... and one abbreviation pass. */
  lemma {:induction false} AbbreviationKeepsPlaceholders(ps: seq<Piece>, abbr: string, i: nat)
    requires i <= |ps|
    ensures forall p :: p in ps[i..] && !p.Ch? ==> p in ProtectAbbreviationFrom(ps, abbr, i)
    decreases |ps| - i
  {
    if i < |ps| {
      assert ps[i..] == [ps[i]] + ps[i + 1..];
      if Boundary(ps, i) && AbbreviationAt(ps, abbr, i) && |abbr| > 0 {
        var j := i + |abbr|;
        AbbreviationKeepsPlaceholders(ps, abbr, j);
        forall q | i <= q < j ensures ps[q].Ch? {
          assert ps[q] == ps[i..j][q - i];
        }
        forall p | p in ps[i..] && !p.Ch? ensures p in ps[j..] {
          var q :| i <= q < |ps| && ps[q] == p;
          assert ps[j..][q - j] == p;
        }
      } else {
        AbbreviationKeepsPlaceholders(ps, abbr, i + 1);
      }
    }
  }

  /** ... and the whole list of abbreviation passes. */
  lemma {:induction false} AbbreviationsKeepPlaceholders(ps: seq<Piece>, abbrs: seq<string>)
    ensures forall p :: p in ps && !p.Ch? ==> p in ProtectAbbreviations(ps, abbrs)
    decreases |abbrs|
  {
    if |abbrs| > 0 {
      assert ps[0..] == ps;
      AbbreviationKeepsPlaceholders(ps, abbrs[0], 0);
      AbbreviationsKeepPlaceholders(ProtectAbbreviationFrom(ps, abbrs[0], 0), abbrs[1..]);
    }
  }

  // ---------------------------------------------------------------------
  // Runs the splitter does not cut

  /** `x` occurs in `l` starting at `c`. */
  predicate OccursAt<T(==)>(l: seq<T>, c: nat, x: seq<T>) {
    c + |x| <= |l| && forall q :: 0 <= q < |x| ==> l[c + q] == x[q]
  }

  lemma OccursAfter<T>(h: seq<T>, l: seq<T>, c: nat, x: seq<T>)
    requires OccursAt(l, c, x)
    ensures OccursAt(h + l, |h| + c, x)
  {
    forall q | 0 <= q < |x| ensures (h + l)[|h| + c + q] == x[q] {
      assert (h + l)[|h| + c + q] == l[c + q];
    }
  }

  lemma OccursInDrop<T>(l: seq<T>, d: nat, c: nat, x: seq<T>)
    requires OccursAt(l, c, x) && d <= c
    ensures OccursAt(l[d..], c - d, x)
  {
    forall q | 0 <= q < |x| ensures l[d..][c - d + q] == x[q] {
      assert l[d..][c - d + q] == l[c + q];
    }
  }

  lemma OccursInTake<T>(l: seq<T>, e: nat, c: nat, x: seq<T>)
    requires OccursAt(l, c, x) && c + |x| <= e <= |l|
    ensures OccursAt(l[..e], c, x)
  {
    forall q | 0 <= q < |x| ensures l[..e][c + q] == x[q] {
      assert l[..e][c + q] == l[c + q];
    }
  }

  /** A prefix occurrence without its first element. */
  lemma OccursRest<T>(l: seq<T>, x: seq<T>)
    requires OccursAt(l, 0, x) && |x| > 0
    ensures l[0] == x[0] && OccursAt(l[1..], 0, x[1..])
  {
    assert l[0 + 0] == x[0];
    forall q | 0 <= q < |x| - 1 ensures l[1..][q] == x[1..][q] {
      assert l[1..][q] == l[q + 1] && x[1..][q] == x[q + 1];
    }
  }

  lemma OccursCons<T>(h: T, l: seq<T>, x: seq<T>)
    requires |x| > 0 && x[0] == h && OccursAt(l, 0, x[1..])
    ensures OccursAt([h] + l, 0, x)
  {
    forall q | 0 <= q < |x| ensures ([h] + l)[q] == x[q] {
      if q > 0 {
        assert ([h] + l)[q] == l[q - 1] && x[1..][q - 1] == x[q];
      }
    }
  }

  /** No sentence terminator before the last piece. */
  predicate NoInnerTerminator(x: seq<Piece>) {
    forall q :: 0 <= q < |x| - 1 ==> !Terminator(x[q])
  }

  lemma NoInnerTerminatorRest(x: seq<Piece>)
    requires |x| > 1 && NoInnerTerminator(x)
    ensures !Terminator(x[0]) && NoInnerTerminator(x[1..])
  {
    assert x[0] == x[0 + 0];
    forall q | 0 <= q < |x| - 2 ensures !Terminator(x[1..][q]) {
      assert x[1..][q] == x[q + 1];
    }
  }

  /** A run of pieces that starts and ends on a non-space, holds no line
      break, and has no sentence terminator before its last piece. */
  predicate Unbroken(x: seq<Piece>) {
    && |x| > 0 && !SpacePiece(x[0]) && !SpacePiece(x[|x| - 1])
    && (forall q :: 0 <= q < |x| ==> x[q] != Ch('\n'))
    && NoInnerTerminator(x)
  }

  /** Skipping (or trimming) leading spaces stops at the first non-space. */
  lemma {:induction false} SkipStopsAt(ps: seq<Piece>, a: nat)
    requires a < |ps| && !SpacePiece(ps[a])
    ensures |ps| - |SkipSpaces(ps)| <= a
    ensures SkipSpaces(ps) == TrimStartPieces(ps)
    decreases a
  {
    if a > 0 && SpacePiece(ps[0]) {
      assert ps[1..][a - 1] == ps[a];
      SkipStopsAt(ps[1..], a - 1);
    }
  }

  /** Trimming trailing spaces stops at the last non-space. */
  lemma {:induction false} TrimEndStopsAt(ps: seq<Piece>, e: nat)
    requires e < |ps| && !SpacePiece(ps[e])
    ensures e < |TrimEndPieces(ps)|
    decreases |ps|
  {
    if SpacePiece(ps[|ps| - 1]) {
      assert ps[..|ps| - 1][e] == ps[e];
      TrimEndStopsAt(ps[..|ps| - 1], e);
    }
  }

  lemma BreakStep(ps: seq<Piece>)
    requires |ps| > 0
    ensures !Terminator(ps[0]) ==> BreakAfterTerminators(ps) == [ps[0]] + BreakAfterTerminators(ps[1..])
    ensures Terminator(ps[0]) ==> BreakAfterTerminators(ps) == [ps[0], Ch('\n')] + BreakAfterTerminators(SkipSpaces(ps[1..]))
    ensures |BreakAfterTerminators(ps)| > 0 && BreakAfterTerminators(ps)[0] == ps[0]
  {
  }

  lemma {:induction false} BreakKeepsPrefix(ps: seq<Piece>, x: seq<Piece>)
    requires |x| > 0 && OccursAt(ps, 0, x) && NoInnerTerminator(x)
    ensures OccursAt(BreakAfterTerminators(ps), 0, x)
    decreases |x|
  {
    OccursRest(ps, x);
    BreakStep(ps);
    if |x| > 1 {
      NoInnerTerminatorRest(x);
      BreakKeepsPrefix(ps[1..], x[1..]);
      OccursCons(ps[0], BreakAfterTerminators(ps[1..]), x);
    }
  }

  lemma SkipKeepsRun(ps: seq<Piece>, a: nat, x: seq<Piece>) returns (a': nat)
    requires OccursAt(ps, a, x) && |x| > 0 && !SpacePiece(x[0])
    ensures OccursAt(SkipSpaces(ps), a', x)
  {
    assert ps[a + 0] == x[0];
    SkipStopsAt(ps, a);
    a' := TrimStartKeepsRun(ps, a, x);
  }

  lemma BreakKeepsLaterRun(ps: seq<Piece>, b: nat, x: seq<Piece>)
    requires |ps| > 0
    requires Terminator(ps[0]) ==> OccursAt(BreakAfterTerminators(SkipSpaces(ps[1..])), b, x)
    requires !Terminator(ps[0]) ==> OccursAt(BreakAfterTerminators(ps[1..]), b, x)
    ensures OccursAt(BreakAfterTerminators(ps), b + if Terminator(ps[0]) then 2 else 1, x)
  {
    BreakStep(ps);
    if Terminator(ps[0]) {
      OccursAfter([ps[0], Ch('\n')], BreakAfterTerminators(SkipSpaces(ps[1..])), b, x);
    } else {
      OccursAfter([ps[0]], BreakAfterTerminators(ps[1..]), b, x);
    }
  }

  /** The break pass keeps such a run contiguous. */
  lemma {:induction false} BreakKeepsRun(ps: seq<Piece>, a: nat, x: seq<Piece>) returns (b: nat)
    requires OccursAt(ps, a, x) && |x| > 0 && !SpacePiece(x[0]) && NoInnerTerminator(x)
    ensures OccursAt(BreakAfterTerminators(ps), b, x)
    decreases |ps|
  {
    if a == 0 {
      BreakKeepsPrefix(ps, x);
      b := 0;
    } else {
      OccursInDrop(ps, 1, a, x);
      var b' := 0;
      if Terminator(ps[0]) {
        var a' := SkipKeepsRun(ps[1..], a - 1, x);
        b' := BreakKeepsRun(SkipSpaces(ps[1..]), a', x);
      } else {
        b' := BreakKeepsRun(ps[1..], a - 1, x);
      }
      BreakKeepsLaterRun(ps, b', x);
      b := b' + if Terminator(ps[0]) then 2 else 1;
    }
  }

  lemma SplitStep<T>(s: seq<T>, sep: T)
    requires |s| > 0
    ensures s[0] == sep ==> Split(s, sep) == [[]] + Split(s[1..], sep)
    ensures s[0] != sep ==> Split(s, sep) == [[s[0]] + Split(s[1..], sep)[0]] + Split(s[1..], sep)[1..]
  {
  }

  lemma {:induction false} SplitKeepsPrefix<T>(s: seq<T>, sep: T, x: seq<T>)
    requires OccursAt(s, 0, x) && forall q :: 0 <= q < |x| ==> x[q] != sep
    ensures OccursAt(Split(s, sep)[0], 0, x)
    decreases |x|
  {
    if |x| > 0 {
      OccursRest(s, x);
      SplitStep(s, sep);
      forall q | 0 <= q < |x| - 1 ensures x[1..][q] != sep {
        assert x[1..][q] == x[q + 1];
      }
      SplitKeepsPrefix(s[1..], sep, x[1..]);
      OccursCons(s[0], Split(s[1..], sep)[0], x);
    }
  }

  /** Where the `k`-th part of the rest's split lands in the split of `s`. */
  lemma SplitStepAt<T>(s: seq<T>, sep: T, k: nat)
    requires |s| > 0 && k < |Split(s[1..], sep)|
    ensures s[0] == sep ==> k + 1 < |Split(s, sep)| && Split(s, sep)[k + 1] == Split(s[1..], sep)[k]
    ensures s[0] != sep && k > 0 ==> k < |Split(s, sep)| && Split(s, sep)[k] == Split(s[1..], sep)[k]
    ensures s[0] != sep && k == 0 ==> Split(s, sep)[0] == [s[0]] + Split(s[1..], sep)[0]
  {
  }

  lemma SplitKeepsAfterSep<T>(s: seq<T>, sep: T, k: nat, c: nat, x: seq<T>)
    requires |s| > 0 && s[0] == sep && k < |Split(s[1..], sep)| && OccursAt(Split(s[1..], sep)[k], c, x)
    ensures k + 1 < |Split(s, sep)| && OccursAt(Split(s, sep)[k + 1], c, x)
  {
    SplitStepAt(s, sep, k);
  }

  lemma SplitKeepsInFirst<T>(s: seq<T>, sep: T, c: nat, x: seq<T>)
    requires |s| > 0 && s[0] != sep && OccursAt(Split(s[1..], sep)[0], c, x)
    ensures OccursAt(Split(s, sep)[0], c + 1, x)
  {
    SplitStepAt(s, sep, 0);
    OccursAfter([s[0]], Split(s[1..], sep)[0], c, x);
  }

  lemma SplitKeepsInLater<T>(s: seq<T>, sep: T, k: nat, c: nat, x: seq<T>)
    requires |s| > 0 && s[0] != sep && 0 < k < |Split(s[1..], sep)| && OccursAt(Split(s[1..], sep)[k], c, x)
    ensures k < |Split(s, sep)| && OccursAt(Split(s, sep)[k], c, x)
  {
    SplitStepAt(s, sep, k);
  }

  lemma SplitKeepsLater<T>(s: seq<T>, sep: T, k: nat, c: nat, x: seq<T>) returns (k': nat, c': nat)
    requires |s| > 0 && k < |Split(s[1..], sep)| && OccursAt(Split(s[1..], sep)[k], c, x)
    ensures k' < |Split(s, sep)| && OccursAt(Split(s, sep)[k'], c', x)
  {
    if s[0] == sep {
      SplitKeepsAfterSep(s, sep, k, c, x);
      k', c' := k + 1, c;
    } else if k == 0 {
      SplitKeepsInFirst(s, sep, c, x);
      k', c' := 0, c + 1;
    } else {
      SplitKeepsInLater(s, sep, k, c, x);
      k', c' := k, c;
    }
  }

  /** Cutting at `sep` keeps a run without `sep` inside one part. */
  lemma {:induction false} SplitKeepsRun<T>(s: seq<T>, sep: T, b: nat, x: seq<T>) returns (k: nat, c: nat)
    requires OccursAt(s, b, x) && forall q :: 0 <= q < |x| ==> x[q] != sep
    ensures k < |Split(s, sep)| && OccursAt(Split(s, sep)[k], c, x)
    decreases |s|
  {
    if b == 0 {
      SplitKeepsPrefix(s, sep, x);
      k, c := 0, 0;
    } else {
      OccursInDrop(s, 1, b, x);
      var k', c' := SplitKeepsRun(s[1..], sep, b - 1, x);
      k, c := SplitKeepsLater(s, sep, k', c', x);
    }
  }

  lemma TrimStartKeepsRun(l: seq<Piece>, c: nat, x: seq<Piece>) returns (c': nat)
    requires OccursAt(l, c, x) && |x| > 0 && !SpacePiece(x[0])
    ensures OccursAt(TrimStartPieces(l), c', x)
  {
    assert l[c + 0] == x[0];
    SkipStopsAt(l, c);
    var d := |l| - |TrimStartPieces(l)|;
    OccursInDrop(l, d, c, x);
    c' := c - d;
  }

  lemma TrimEndKeepsRun(l: seq<Piece>, c: nat, x: seq<Piece>)
    requires OccursAt(l, c, x) && |x| > 0 && !SpacePiece(x[|x| - 1])
    ensures OccursAt(TrimEndPieces(l), c, x)
  {
    assert l[c + (|x| - 1)] == x[|x| - 1];
    TrimEndStopsAt(l, c + |x| - 1);
    OccursInTake(l, |TrimEndPieces(l)|, c, x);
  }

  /** Trimming cannot reach into a run that starts and ends on a non-space. */
  lemma TrimKeepsRun(l: seq<Piece>, c: nat, x: seq<Piece>) returns (c': nat)
    requires OccursAt(l, c, x) && |x| > 0 && !SpacePiece(x[0]) && !SpacePiece(x[|x| - 1])
    ensures OccursAt(TrimPieces(l), c', x)
  {
    c' := TrimStartKeepsRun(l, c, x);
    TrimEndKeepsRun(TrimStartPieces(l), c', x);
  }

  lemma CleanKeepsFirst(lines: seq<seq<Piece>>, c: nat, x: seq<Piece>) returns (c': nat)
    requires |lines| > 0 && OccursAt(lines[0], c, x)
    requires |x| > 0 && !SpacePiece(x[0]) && !SpacePiece(x[|x| - 1])
    ensures |CleanLines(lines)| > 0 && OccursAt(CleanLines(lines)[0], c', x)
  {
    c' := TrimKeepsRun(lines[0], c, x);
    assert CleanLines(lines)[0] == TrimPieces(lines[0]);
  }

  /** Where the `k`-th cleaned line of the rest lands among the cleaned lines. */
  lemma CleanStepAt(lines: seq<seq<Piece>>, k: nat)
    requires |lines| > 0 && k < |CleanLines(lines[1..])|
    ensures |TrimPieces(lines[0])| == 0 ==> k < |CleanLines(lines)| && CleanLines(lines)[k] == CleanLines(lines[1..])[k]
    ensures |TrimPieces(lines[0])| > 0 ==> k + 1 < |CleanLines(lines)| && CleanLines(lines)[k + 1] == CleanLines(lines[1..])[k]
  {
  }

  lemma CleanKeepsLater(lines: seq<seq<Piece>>, k: nat, c: nat, x: seq<Piece>) returns (k': nat)
    requires |lines| > 0 && k < |CleanLines(lines[1..])| && OccursAt(CleanLines(lines[1..])[k], c, x)
    ensures k' < |CleanLines(lines)| && OccursAt(CleanLines(lines)[k'], c, x)
  {
    CleanStepAt(lines, k);
    k' := if |TrimPieces(lines[0])| == 0 then k else k + 1;
  }

  /** Dropping blank lines keeps every line that holds such a run. */
  lemma {:induction false} CleanKeepsRun(lines: seq<seq<Piece>>, k: nat, c: nat, x: seq<Piece>) returns (k': nat, c': nat)
    requires k < |lines| && OccursAt(lines[k], c, x)
    requires |x| > 0 && !SpacePiece(x[0]) && !SpacePiece(x[|x| - 1])
    ensures k' < |CleanLines(lines)| && OccursAt(CleanLines(lines)[k'], c', x)
    decreases |lines|
  {
    if k == 0 {
      c' := CleanKeepsFirst(lines, c, x);
      k' := 0;
    } else {
      var k1;
      k1, c' := CleanKeepsRun(lines[1..], k - 1, c, x);
      k' := CleanKeepsLater(lines, k1, c', x);
    }
  }

  lemma ContainsMiddle(a: string, t: string, b: string)
    ensures Contains(a + t + b, t)
  {
    assert (a + t + b)[|a|..|a| + |t|] == t;
    ContainsAt(a + t + b, t, |a|);
  }

  /** A run of pieces shows its text in the restored line. */
  lemma FlattenKeepsRun(l: seq<Piece>, c: nat, x: seq<Piece>)
    requires OccursAt(l, c, x)
    ensures Contains(Flatten(l), Flatten(x))
  {
    assert l[c..c + |x|] == x;
    assert l == l[..c] + x + l[c + |x|..];
    FlattenAppend(l[..c] + x, l[c + |x|..]);
    FlattenAppend(l[..c], x);
    ContainsMiddle(Flatten(l[..c]), Flatten(x), Flatten(l[c + |x|..]));
  }

  /** A run of the protected text that starts and ends on a non-space, holds
      no line break and no sentence terminator before its last piece lies
      inside one phrase: the splitter cuts only after a terminator character
      and at line breaks. */
  lemma UnbrokenStaysInOnePhrase(text: string, rule: DecimalRule, a: nat, x: seq<Piece>) returns (k': nat)
    requires OccursAt(Protect(text, rule), a, x) && Unbroken(x)
    ensures k' < |SplitPhrasesWith(text, rule)| && Contains(SplitPhrasesWith(text, rule)[k'], Flatten(x))
  {
    var broken := BreakAfterTerminators(Protect(text, rule));
    var b := BreakKeepsRun(Protect(text, rule), a, x);
    var lines := Split(broken, Ch('\n'));
    var k, c := SplitKeepsRun(broken, Ch('\n'), b, x);
    var c';
    k', c' := CleanKeepsRun(lines, k, c, x);
    RestoreAt(CleanLines(lines), k');
    FlattenKeepsRun(CleanLines(lines)[k'], c', x);
    assert SplitPhrasesWith(text, rule) == Restore(CleanLines(lines));
    assert Contains(SplitPhrasesWith(text, rule)[k'], Flatten(x));
  }

  /** A placeholder piece on its own is a run the splitter does not cut. */
  lemma PlaceholderRun(ps: seq<Piece>, a: nat)
    requires a < |ps| && !ps[a].Ch?
    ensures OccursAt(ps, a, [ps[a]]) && Unbroken([ps[a]]) && Flatten([ps[a]]) == Text(ps[a])
  {
    FlattenCons(ps[a], []);
    assert [ps[a]] + [] == [ps[a]];
  }

  /** A protected span or decimal placeholder ends up whole inside one
      phrase: its own dots end nothing. */
  lemma PlaceholderStaysWhole(text: string, rule: DecimalRule, p: Piece)
    requires p in Protect(text, rule) && !p.Ch?
    ensures exists k :: 0 <= k < |SplitPhrasesWith(text, rule)| && Contains(SplitPhrasesWith(text, rule)[k], Text(p))
  {
    var ps := Protect(text, rule);
    var a :| 0 <= a < |ps| && ps[a] == p;
    PlaceholderRun(ps, a);
    var k := UnbrokenStaysInOnePhrase(text, rule, a, [p]);
  }

  /** The passes after the e-mail pass keep its placeholders. */
  lemma AfterEmailsKeepPlaceholders(text: string, rule: DecimalRule, p: Piece)
    requires p in ProtectEmailsFrom(ProtectUrls(NormalizeNewlines(text)), 0) && !p.Ch?
    ensures p in Protect(text, rule)
  {
    var emails := ProtectEmailsFrom(ProtectUrls(NormalizeNewlines(text)), 0);
    DecimalsKeepPlaceholders(emails, rule);
    AbbreviationsKeepPlaceholders(ProtectDecimals(emails, rule), Abbreviations);
  }

  /** A URL opening a word of the text lies inside one phrase. */
  lemma UrlStaysWhole(text: string, rule: DecimalRule, o: nat)
    requires UrlOpensWord(NormalizeNewlines(text), o)
    ensures exists k :: 0 <= k < |SplitPhrasesWith(text, rule)| && Contains(SplitPhrasesWith(text, rule)[k], UrlAt(NormalizeNewlines(text), o))
  {
    var urls := ProtectUrls(NormalizeNewlines(text));
    var u := Shielded(UrlAt(NormalizeNewlines(text), o));
    UrlBecomesShield(NormalizeNewlines(text), o);
    assert urls[0..] == urls;
    EmailsKeepPlaceholders(urls, 0);
    AfterEmailsKeepPlaceholders(text, rule, u);
    PlaceholderStaysWhole(text, rule, u);
  }

  /** An e-mail address opening a word (after the URL pass) lies inside one
      phrase. */
  lemma EmailStaysWhole(text: string, rule: DecimalRule, j: nat)
    requires EmailOpensWord(ProtectUrls(NormalizeNewlines(text)), j)
    ensures exists k :: 0 <= k < |SplitPhrasesWith(text, rule)| && Contains(SplitPhrasesWith(text, rule)[k], EmailAt(ProtectUrls(NormalizeNewlines(text)), j))
  {
    var urls := ProtectUrls(NormalizeNewlines(text));
    var e := Shielded(EmailAt(urls, j));
    EmailBecomesShield(urls, 0, j);
    AfterEmailsKeepPlaceholders(text, rule, e);
    PlaceholderStaysWhole(text, rule, e);
  }

  /** The text as the abbreviation passes receive it. */
  function BeforeAbbreviations(text: string, rule: DecimalRule): seq<Piece> {
    ProtectDecimals(ProtectEmailsFrom(ProtectUrls(NormalizeNewlines(text)), 0), rule)
  }

  /** The text as the pass for the `t`-th abbreviation receives it. */
  function AbbreviationsBefore(text: string, rule: DecimalRule, t: nat): seq<Piece>
    requires t <= |Abbreviations|
  {
    ProtectAbbreviations(BeforeAbbreviations(text, rule), Abbreviations[..t])
  }

  /** Running the passes of a list is running those before `t`, pass `t`,
      then those after it. */
  lemma {:induction false} AbbreviationPassesSplit(ps: seq<Piece>, abbrs: seq<string>, t: nat)
    requires t < |abbrs|
    ensures ProtectAbbreviations(ps, abbrs)
         == ProtectAbbreviations(ProtectAbbreviationFrom(ProtectAbbreviations(ps, abbrs[..t]), abbrs[t], 0), abbrs[t + 1..])
    decreases t
  {
    if t == 0 {
      assert abbrs[..0] == [];
    } else {
      var next := ProtectAbbreviationFrom(ps, abbrs[0], 0);
      AbbreviationPassesSplit(next, abbrs[1..], t - 1);
      assert abbrs[..t][0] == abbrs[0] && abbrs[..t][1..] == abbrs[1..][..t - 1];
      assert abbrs[1..][t - 1] == abbrs[t] && abbrs[1..][t..] == abbrs[t + 1..];
    }
  }

  /** An abbreviation its pass finds at a word boundary lies inside one
      phrase: "Dr." does not end the sentence it opens. */
  lemma AbbreviationStaysWhole(text: string, rule: DecimalRule, t: nat, j: nat)
    requires t < |Abbreviations| && AbbreviationFound(AbbreviationsBefore(text, rule, t), Abbreviations[t], j)
    ensures exists k :: 0 <= k < |SplitPhrasesWith(text, rule)| && Contains(SplitPhrasesWith(text, rule)[k], Abbreviations[t])
  {
    var before := AbbreviationsBefore(text, rule, t);
    var passed := ProtectAbbreviationFrom(before, Abbreviations[t], 0);
    AbbreviationBecomesShield(before, Abbreviations[t], 0, j);
    AbbreviationsKeepPlaceholders(passed, Abbreviations[t + 1..]);
    AbbreviationPassesSplit(BeforeAbbreviations(text, rule), Abbreviations, t);
    assert Protect(text, rule) == ProtectAbbreviations(BeforeAbbreviations(text, rule), Abbreviations);
    PlaceholderStaysWhole(text, rule, Shielded(Abbreviations[t]));
  }

  // Decimal points with the corrected pass

  lemma {:induction false} NoBareDecimalAt(ps: seq<Piece>, q: nat)
    requires NoBareDecimal(ps) && q <= |ps|
    ensures NoBareDecimal(ps[q..]) && (q < |ps| ==> !DecimalAt(ps[q..]))
    decreases q
  {
    if q > 0 {
      NoBareDecimalAt(ps[1..], q - 1);
      assert ps[1..][q - 1..] == ps[q..];
    }
  }

  /** A character piece at the head of a pass's output is the input's piece,
      left unmatched. */
  lemma AbbreviationChHead(ps: seq<Piece>, abbr: string, i: nat)
    requires i <= |ps| && |ProtectAbbreviationFrom(ps, abbr, i)| > 0 && ProtectAbbreviationFrom(ps, abbr, i)[0].Ch?
    ensures i < |ps| && ProtectAbbreviationFrom(ps, abbr, i)[0] == ps[i]
    ensures ProtectAbbreviationFrom(ps, abbr, i)[1..] == ProtectAbbreviationFrom(ps, abbr, i + 1)
  {
  }

  lemma UnmatchedNotBare(ps: seq<Piece>, abbr: string, i: nat)
    requires i < |ps| && !DecimalAt(ps[i..])
    ensures !DecimalAt([ps[i]] + ProtectAbbreviationFrom(ps, abbr, i + 1))
  {
    var rest := ProtectAbbreviationFrom(ps, abbr, i + 1);
    if |rest| >= 2 && rest[0].Ch? {
      AbbreviationChHead(ps, abbr, i + 1);
      if rest[1].Ch? {
        assert rest[1..][0] == rest[1];
        AbbreviationChHead(ps, abbr, i + 2);
        assert ([ps[i]] + rest)[..3] == ps[i..][..3];
      }
    }
  }

  /** An abbreviation pass leaves no bare decimal point behind where there
      was none. */
  lemma {:induction false} AbbreviationKeepsNoBareDecimal(ps: seq<Piece>, abbr: string, i: nat)
    requires i <= |ps| && NoBareDecimal(ps[i..])
    ensures NoBareDecimal(ProtectAbbreviationFrom(ps, abbr, i))
    decreases |ps| - i
  {
    if i < |ps| {
      var out := ProtectAbbreviationFrom(ps, abbr, i);
      if Boundary(ps, i) && AbbreviationAt(ps, abbr, i) && |abbr| > 0 {
        NoBareDecimalAt(ps[i..], |abbr|);
        assert ps[i..][|abbr|..] == ps[i + |abbr|..];
        AbbreviationKeepsNoBareDecimal(ps, abbr, i + |abbr|);
        assert out[1..] == ProtectAbbreviationFrom(ps, abbr, i + |abbr|);
      } else {
        NoBareDecimalAt(ps[i..], 1);
        assert ps[i..][1..] == ps[i + 1..];
        AbbreviationKeepsNoBareDecimal(ps, abbr, i + 1);
        UnmatchedNotBare(ps, abbr, i);
        assert out[1..] == ProtectAbbreviationFrom(ps, abbr, i + 1);
      }
    }
  }

  lemma {:induction false} AbbreviationsKeepNoBareDecimal(ps: seq<Piece>, abbrs: seq<string>)
    requires NoBareDecimal(ps)
    ensures NoBareDecimal(ProtectAbbreviations(ps, abbrs))
    decreases |abbrs|
  {
    if |abbrs| > 0 {
      assert ps[0..] == ps;
      AbbreviationKeepsNoBareDecimal(ps, abbrs[0], 0);
      AbbreviationsKeepNoBareDecimal(ProtectAbbreviationFrom(ps, abbrs[0], 0), abbrs[1..]);
    }
  }

  /** With the corrected decimal pass, no dot between two digits is left
      for the break pass once every pass has run. */
  lemma CorrectedNoBareDecimal(text: string)
    ensures NoBareDecimal(Protect(text, Lookahead))
  {
    var emails := ProtectEmailsFrom(ProtectUrls(NormalizeNewlines(text)), 0);
    LookaheadProtectsDecimals(emails);
    AbbreviationsKeepNoBareDecimal(ProtectDecimals(emails, Lookahead), Abbreviations);
  }

  /** Where no dot between two digits is bare, the piece between two digits
      whose text is a dot is a placeholder. */
  lemma DotBetweenDigits(ps: seq<Piece>, q: nat)
    requires q + 2 < |ps| && NoBareDecimal(ps)
    requires DigitPiece(ps[q]) && DigitPiece(ps[q + 2]) && Text(ps[q + 1]) == "."
    ensures !ps[q + 1].Ch? && OccursAt(ps, q, [ps[q], ps[q + 1], ps[q + 2]])
  {
    NoBareDecimalAt(ps, q);
    assert ps[q..][0] == ps[q] && ps[q..][1] == ps[q + 1] && ps[q..][2] == ps[q + 2];
  }

  /** A digit, a placeholder dot and a digit form a run the splitter does
      not cut. */
  lemma DecimalRun(a: Piece, b: Piece, c: Piece)
    requires DigitPiece(a) && DigitPiece(c) && !b.Ch? && Text(b) == "."
    ensures Unbroken([a, b, c]) && Flatten([a, b, c]) == [a.c, '.', c.c]
  {
    FlattenThree(a, b, c, []);
    assert [a, b, c] + [] == [a, b, c];
  }

  /** With the corrected pass no phrase ends between two digits: a digit, a
      dot and a digit of the protected text lie in one phrase. */
  lemma DecimalStaysWhole(text: string, q: nat)
    requires q + 2 < |Protect(text, Lookahead)|
    requires DigitPiece(Protect(text, Lookahead)[q]) && DigitPiece(Protect(text, Lookahead)[q + 2])
    requires Text(Protect(text, Lookahead)[q + 1]) == "."
    ensures exists k :: 0 <= k < |SplitPhrasesCorrected(text)|
                        && Contains(SplitPhrasesCorrected(text)[k],
                                    [Protect(text, Lookahead)[q].c, '.', Protect(text, Lookahead)[q + 2].c])
  {
    var ps := Protect(text, Lookahead);
    CorrectedNoBareDecimal(text);
    DotBetweenDigits(ps, q);
    DecimalRun(ps[q], ps[q + 1], ps[q + 2]);
    var k := UnbrokenStaysInOnePhrase(text, Lookahead, q, [ps[q], ps[q + 1], ps[q + 2]]);
    var r := SplitPhrasesWith(text, Lookahead);
    assert Contains(r[k], [ps[q].c, '.', ps[q + 2].c]);
    CorrectedIsLookahead(text);
  }

  lemma CorrectedIsLookahead(text: string)
    ensures SplitPhrasesCorrected(text) == SplitPhrasesWith(text, Lookahead)
  {
  }
}

=== FILE: text_paste_form.dfy ===
/** The paste form: the phrase counter shown under the text box, and the
    submit guard. The counter breaks lines after `.`, `;` and the Greek
    question mark only, so it can count fewer phrases than the splitter
    later adds. */
module TextPasteForm {
  import opened Types
  import opened JsText
  import SplitPhrases

  /** The characters after which the counter breaks a line. */
  predicate CountTerminator(c: char) {
    c == '.' || c == ';' || c == '\U{37E}'
  }

  /** `text.replace(/([.;;])(\s+|$)/g, '$1\n')`: a terminator followed
      by a whitespace run, or by the end of the text, keeps the terminator
      and replaces the run by one newline. */
  function MarkLineEnds(s: string): (r: string)
    decreases |s|
  {
    if |s| == 0 then []
    else if CountTerminator(s[0]) && (|s| == 1 || IsSpace(s[1])) then
      [s[0], '\n'] + MarkLineEnds(TrimStart(s[1..]))
    else [s[0]] + MarkLineEnds(s[1..])
  }

  /** `.filter(line => line.trim()).length`. */
  function CountNonBlank(lines: seq<string>): (r: nat)
    ensures r <= |lines|
  {
    if |lines| == 0 then 0
    else (if Trim(lines[0]) != "" then 1 else 0) + CountNonBlank(lines[1..])
  }

  /** `lineCount`. */
  function LineCount(text: string): nat {
    CountNonBlank(Split(MarkLineEnds(NormalizeNewlines(text)), '\n'))
  }

  /** The submit button is disabled while the trimmed text is empty. */
  predicate SubmitDisabled(text: string) {
    Trim(text) == ""
  }

  /** `handleSubmit`: the text goes to `onSubmit` as typed, and the box is
      cleared, only when it is not blank; otherwise nothing happens. The
      result is what `onSubmit` receives, if anything, and the box after. */
  function HandleSubmit(text: string): (r: (Option<string>, string))
    ensures r.0.Some? <==> !AllSpace(text)
    ensures r.0.Some? ==> r.0.value == text && r.1 == ""
    ensures r.0.None? ==> r.1 == text
  {
    TrimEmptyIffAllSpace(text);
    if Trim(text) != "" then (Some(text), "") else (None, text)
  }

  // ---------------------------------------------------------------------
  // Properties

  /** Skipping leading whitespace drops no visible character. */
  lemma {:induction false} SqueezeTrimStart(s: string)
    ensures Squeeze(TrimStart(s)) == Squeeze(s)
    decreases |s|
  {
    if |s| > 0 && IsSpace(s[0]) {
      SqueezeTrimStart(s[1..]);
    }
  }

  /** One step of the marking, for a text given as its first character
      and the rest. */
  lemma MarkCons(c: char, t: string)
    ensures MarkLineEnds([c] + t) ==
      if CountTerminator(c) && (|t| == 0 || IsSpace(t[0])) then [c, '\n'] + MarkLineEnds(TrimStart(t))
      else [c] + MarkLineEnds(t)
  {
    assert ([c] + t)[0] == c;
    assert ([c] + t)[1..] == t;
  }

  /** A newline after a character is invisible. */
  lemma SqueezeNewline(c: char)
    ensures Squeeze([c, '\n']) == Squeeze([c])
  {
    assert [c, '\n'][1..] == ['\n'];
    assert ['\n'][1..] == [];
    assert [c][1..] == [];
  }

  /** Marking line ends adds and removes only whitespace. */
  lemma {:induction false} SqueezeMarks(s: string)
    ensures Squeeze(MarkLineEnds(s)) == Squeeze(s)
    decreases |s|
  {
    if |s| > 0 {
      var c, t := s[0], s[1..];
      assert s == [c] + t;
      MarkCons(c, t);
      SqueezeAppend([c], t);
      if CountTerminator(c) && (|t| == 0 || IsSpace(t[0])) {
        SqueezeMarks(TrimStart(t));
        SqueezeTrimStart(t);
        SqueezeAppend([c, '\n'], MarkLineEnds(TrimStart(t)));
        SqueezeNewline(c);
      } else {
        SqueezeMarks(t);
        SqueezeAppend([c], MarkLineEnds(t));
      }
    }
  }

  /** No line counts exactly when the joined lines are blank. */
  lemma {:induction false} NoneCountedIffBlank(lines: seq<string>)
    ensures CountNonBlank(lines) == 0 <==> Squeeze(Join(lines, '\n')) == []
    decreases |lines|
  {
    if |lines| > 0 {
      TrimEmptyIffAllSpace(lines[0]);
      SqueezeEmptyIffAllSpace(lines[0]);
      NoneCountedIffBlank(lines[1..]);
      if |lines| == 1 {
        assert lines[1..] == [];
      } else {
        SqueezeAppend(lines[0] + ['\n'], Join(lines[1..], '\n'));
        SqueezeAppend(lines[0], ['\n']);
        assert Squeeze(['\n']) == [] by { assert ['\n'][1..] == []; }
      }
    }
  }

  /** The counter shows nothing exactly for blank text. */
  lemma LineCountZeroIffBlank(text: string)
    ensures LineCount(text) == 0 <==> AllSpace(text)
  {
    var marked := MarkLineEnds(NormalizeNewlines(text));
    NoneCountedIffBlank(Split(marked, '\n'));
    SqueezeMarks(NormalizeNewlines(text));
    SqueezeNormalize(text);
    SqueezeEmptyIffAllSpace(text);
  }

  /** The button is disabled exactly when the counter shows nothing, and
      a submission goes through exactly when the button is enabled. */
  lemma ButtonMatchesCounter(text: string)
    ensures SubmitDisabled(text) <==> LineCount(text) == 0
    ensures HandleSubmit(text).0.Some? <==> !SubmitDisabled(text)
  {
    LineCountZeroIffBlank(text);
    TrimEmptyIffAllSpace(text);
  }

  /** Text without any separator counts as one phrase unless blank. */
  lemma {:induction false} UnmarkedText(s: string)
    requires forall i :: 0 <= i < |s| ==> !CountTerminator(s[i])
    ensures MarkLineEnds(s) == s
    decreases |s|
  {
    if |s| > 0 {
      UnmarkedText(s[1..]);
    }
  }

  lemma SplitWithoutSeparator(s: string, sep: char)
    requires sep !in s
    ensures Split(s, sep) == [s]
  {
  }

  /** One step of the split, for a text given as its first character and
      the rest. */
  lemma SplitCons(c: char, t: string, sep: char)
    ensures Split([c] + t, sep) ==
      if c == sep then [[]] + Split(t, sep)
      else [[c] + Split(t, sep)[0]] + Split(t, sep)[1..]
  {
    assert ([c] + t)[0] == c;
    assert ([c] + t)[1..] == t;
  }

  /** A segment free of the separator, then the separator, splits off as
      the first part. */
  lemma {:induction false} SplitAfter(a: string, b: string, sep: char)
    requires sep !in a
    ensures Split(a + [sep] + b, sep) == [a] + Split(b, sep)
    decreases |a|
  {
    if |a| == 0 {
      assert a + [sep] + b == [sep] + b;
      SplitCons(sep, b, sep);
    } else {
      var t := a[1..] + [sep] + b;
      assert a + [sep] + b == [a[0]] + t;
      assert sep !in a[1..];
      SplitAfter(a[1..], b, sep);
      SplitCons(a[0], t, sep);
      assert [a[0]] + a[1..] == a;
    }
  }

  /** A non-empty text is its first character and the rest. */
  lemma Regroup(a: string, x: string)
    requires |a| > 0
    ensures [a[0]] + (a[1..] + x) == a + x
  {
    assert a == [a[0]] + a[1..];
  }

  /** Text free of terminators passes through the marking unchanged. */
  lemma {:induction false} MarkUnmarkedPrefix(a: string, b: string)
    requires forall i :: 0 <= i < |a| ==> !CountTerminator(a[i])
    ensures MarkLineEnds(a + b) == a + MarkLineEnds(b)
    decreases |a|
  {
    if |a| == 0 {
      assert a + b == b;
    } else {
      MarkUnmarkedPrefix(a[1..], b);
      Regroup(a, b);
      MarkCons(a[0], a[1..] + b);
      Regroup(a, MarkLineEnds(b));
    }
  }

  /** One line of text with no terminator counts once, unless blank. */
  lemma SingleLine(text: string)
    requires forall i :: 0 <= i < |text| ==> !CountTerminator(text[i]) && text[i] != '\n' && text[i] != '\r'
    ensures LineCount(text) == if AllSpace(text) then 0 else 1
  {
    ReplaceAllAbsent(text, "\r\n", "\n");
    UnmarkedText(text);
    SplitWithoutSeparator(text, '\n');
    TrimEmptyIffAllSpace(text);
    assert [text][1..] == [];
  }

  lemma CountLast(lines: seq<string>)
    requires |lines| > 0 && lines[|lines| - 1] == ""
    requires forall k :: 0 <= k < |lines| - 1 ==> !AllSpace(lines[k])
    ensures CountNonBlank(lines) == |lines| - 1
  {
    TrimEmptyIffAllSpace(lines[0]);
    if |lines| > 1 {
      CountLast(lines[1..]);
    }
  }

  /** A terminator followed by whitespace becomes the terminator and one
      newline. */
  lemma MarkAfterTerminator(c: char, ws: string, b: string)
    requires CountTerminator(c) && |ws| > 0 && AllSpace(ws)
    requires |b| > 0 && !IsSpace(b[0])
    ensures MarkLineEnds([c] + ws + b) == [c, '\n'] + MarkLineEnds(b)
  {
    assert [c] + ws + b == [c] + (ws + b);
    assert (ws + b)[0] == ws[0];
    MarkCons(c, ws + b);
    TrimStartPrefix(ws, b);
  }

  lemma {:induction false} TrimStartPrefix(ws: string, b: string)
    requires AllSpace(ws) && (|b| == 0 || !IsSpace(b[0]))
    ensures TrimStart(ws + b) == b
    decreases |ws|
  {
    if |ws| == 0 {
      assert ws + b == b;
    } else {
      assert (ws + b)[0] == ws[0];
      assert (ws + b)[1..] == ws[1..] + b;
      TrimStartPrefix(ws[1..], b);
    }
  }

  /** A terminator at the end of the text gains a newline. */
  lemma MarkFinal(a: string, c: char)
    requires forall i :: 0 <= i < |a| ==> !CountTerminator(a[i])
    requires CountTerminator(c)
    ensures MarkLineEnds(a + [c]) == a + [c] + "\n"
  {
    MarkUnmarkedPrefix(a, [c]);
    assert MarkLineEnds([c]) == [c, '\n'] by {
      assert [c][1..] == [];
    }
  }

  /** Terminator-free text, a terminator and whitespace before a new
      sentence: the whitespace becomes one line break. */
  lemma SentenceBreak(a: string, c: char, ws: string, b: string)
    requires forall i :: 0 <= i < |a| ==> !CountTerminator(a[i])
    requires CountTerminator(c) && |ws| > 0 && AllSpace(ws)
    requires |b| > 0 && !IsSpace(b[0])
    ensures MarkLineEnds(a + ([c] + ws + b)) == a + [c, '\n'] + MarkLineEnds(b)
  {
    var x := [c] + ws + b;
    MarkUnmarkedPrefix(a, x);
    MarkAfterTerminator(c, ws, b);
    Reassociate(a, [c, '\n'], MarkLineEnds(b), MarkLineEnds(x), MarkLineEnds(a + x));
  }

  /** Chaining two equations between concatenations. */
  lemma Reassociate(a: string, sep: string, tail: string, mid: string, whole: string)
    requires whole == a + mid && mid == sep + tail
    ensures whole == a + sep + tail
  {
  }

  lemma SplitLastLine(t: string)
    requires '\n' !in t
    ensures Split(t + "\n", '\n') == [t, ""]
  {
    assert t + "\n" == t + ['\n'] + [];
    SplitAfter(t, [], '\n');
  }

  /** Characters that neither break a line nor start a new one. */
  predicate Plain(s: string) {
    forall i :: 0 <= i < |s| ==> !CountTerminator(s[i]) && s[i] != '\n' && s[i] != '\r'
  }

  /** One sentence ending with a full stop counts once. */
  lemma OneSentence(a: string)
    requires Plain(a) && |a| > 0 && !IsSpace(a[0])
    ensures LineCount(a + ['.']) == 1
  {
    var t := a + ['.'];
    ReplaceAllAbsent(t, "\r\n", "\n");
    MarkFinal(a, '.');
    SplitLastLine(t);
    assert t[0] == a[0];
    CountLast([t, ""]);
  }

  /** Two sentences, each ending with a full stop, count twice. */
  lemma TwoSentences(a: string, b: string)
    requires Plain(a) && |a| > 0 && !IsSpace(a[0])
    requires Plain(b) && |b| > 0 && !IsSpace(b[0])
    ensures LineCount(a + ['.', ' '] + b + ['.']) == 2
  {
    var t := a + ['.', ' '] + b + ['.'];
    ReplaceAllAbsent(t, "\r\n", "\n");
    var first, second := a + ['.'], b + ['.'];
    MarkTwo(a, b);
    SplitTwo(first, second);
    assert first[0] == a[0] && second[0] == b[0];
    CountLast([first, second, ""]);
  }

  /** The marking of two full-stop sentences: each ends its own line. */
  lemma MarkTwo(a: string, b: string)
    requires Plain(a) && Plain(b) && |b| > 0 && !IsSpace(b[0])
    ensures MarkLineEnds(a + ['.', ' '] + b + ['.']) == (a + ['.']) + ['\n'] + ((b + ['.']) + "\n")
  {
    var second := b + ['.'];
    assert a + ['.', ' '] + b + ['.'] == a + (['.'] + [' '] + second);
    SentenceBreak(a, '.', [' '], second);
    MarkFinal(b, '.');
    assert a + ['.', '\n'] + (second + "\n") == (a + ['.']) + ['\n'] + (second + "\n");
  }

  /** Two lines, each ended by a newline, split into the two and an empty
      last part. */
  lemma SplitTwo(first: string, second: string)
    requires '\n' !in first && '\n' !in second
    ensures Split(first + ['\n'] + (second + "\n"), '\n') == [first, second, ""]
  {
    SplitAfter(first, second + "\n", '\n');
    SplitLastLine(second);
  }


  /** The counter does not break after `?`, which the splitter does: a
      question followed by a sentence counts once. */
  lemma QuestionMarkNotCounted(a: string, b: string)
    requires Plain(a) && |a| > 0 && !IsSpace(a[0])
    requires Plain(b)
    ensures LineCount(a + ['?', ' '] + b + ['.']) == 1
    ensures SplitPhrases.Terminator(SplitPhrases.Ch('?')) && !CountTerminator('?')
  {
    var q := a + ['?', ' '] + b;
    assert q[0] == a[0];
    assert Plain(q) by {
      forall i | 0 <= i < |q|
        ensures !CountTerminator(q[i]) && q[i] != '\n' && q[i] != '\r'
      {
        if i >= |a| + 2 {
          assert q[i] == b[i - |a| - 2];
        } else if i >= |a| {
          assert q[i] == ['?', ' '][i - |a|];
        } else {
          assert q[i] == a[i];
        }
      }
    }
    OneSentence(q);
  }
}

=== FILE: translation.dfy ===
/** Translation lookup for a phrase text: a per-session cache, then the
    static translation table, then the AI translator. The cache and the
    table are keyed by phrase text and target language; an absent entry
    and an empty one are alike (JavaScript falsiness). The AI translator
    is a parameter: it is an asynchronous network call. */
module Translation {
  import opened Types

  type Table = map<(string, TranslationLanguage), string>

  /** The AI translator: for a text and a language, a translation or the
      empty string when it has none. */
  type Translator = (string, TranslationLanguage) -> string

  /** What `translateText` resolves to, with the cache after the call and
      whether the AI translator was consulted. */
  datatype Answer = Answer(text: string, cache: Table, askedAi: bool)

  /** The entry for `(text, lang)`, the empty string standing for "absent". */
  function Entry(m: Table, text: string, lang: TranslationLanguage): string {
    if (text, lang) in m then m[(text, lang)] else ""
  }

  /** A cache never holds an empty translation. */
  predicate NoEmptyEntries(m: Table) {
    forall k :: k in m ==> m[k] != ""
  }

  /** `translateText`: `none` gives the empty string; a cached translation
      wins; then the static table, whose hit is cached; then the AI
      translator, whose non-empty answer is cached; else the empty string. */
  function TranslateText(cache: Table, table: Table, ai: Translator, text: string, lang: TranslationLanguage): (r: Answer)
    ensures lang == NoLanguage ==> r == Answer("", cache, false)
    ensures lang != NoLanguage && Entry(cache, text, lang) != "" ==>
              r == Answer(cache[(text, lang)], cache, false)
    ensures r.askedAi <==> lang != NoLanguage && Entry(cache, text, lang) == "" && Entry(table, text, lang) == ""
    ensures r.text == "" || r.text == Entry(cache, text, lang) || r.text == Entry(table, text, lang)
            || (r.askedAi && r.text == ai(text, lang))
    ensures r.cache == cache || (r.text != "" && r.cache == cache[(text, lang) := r.text])
    ensures lang != NoLanguage && r.text != "" ==> Entry(r.cache, text, lang) == r.text
  {
    if lang == NoLanguage then Answer("", cache, false)
    else if Entry(cache, text, lang) != "" then Answer(cache[(text, lang)], cache, false)
    else if Entry(table, text, lang) != "" then
      var t := table[(text, lang)];
      Answer(t, cache[(text, lang) := t], false)
    else
      var t := ai(text, lang);
      if t != "" then Answer(t, cache[(text, lang) := t], true)
      else Answer("", cache, true)
  }

  /** A call keeps the cache free of empty entries. */
  lemma TranslateKeepsCacheClean(cache: Table, table: Table, ai: Translator, text: string, lang: TranslationLanguage)
    requires NoEmptyEntries(cache)
    ensures NoEmptyEntries(TranslateText(cache, table, ai, text, lang).cache)
  {
  }

  /** Once a translation has been found, asking again is answered from the
      cache, with the same text, whatever the table and the translator say
      now, and without calling the translator. */
  lemma RepeatIsServedFromCache(cache: Table, table: Table, ai: Translator, text: string, lang: TranslationLanguage,
                                table': Table, ai': Translator)
    requires TranslateText(cache, table, ai, text, lang).text != ""
    ensures var first := TranslateText(cache, table, ai, text, lang);
            TranslateText(first.cache, table', ai', text, lang) == Answer(first.text, first.cache, false)
  {
  }

  /** The static table is consulted before the translator: a phrase the
      table translates never costs a translator call. */
  lemma TableBeforeTranslator(cache: Table, table: Table, ai: Translator, text: string, lang: TranslationLanguage)
    requires lang != NoLanguage && Entry(table, text, lang) != ""
    ensures var r := TranslateText(cache, table, ai, text, lang);
            !r.askedAi && r.text != "" && (r.text == Entry(cache, text, lang) || r.text == table[(text, lang)])
  {
  }

  /** A translator that has nothing leaves the cache as it was. */
  lemma EmptyAnswerLeavesCache(cache: Table, table: Table, ai: Translator, text: string, lang: TranslationLanguage)
    requires TranslateText(cache, table, ai, text, lang).text == ""
    ensures TranslateText(cache, table, ai, text, lang).cache == cache
  {
  }

  /** `getPhraseTranslation`: no translation for `none`, and the empty
      answer becomes "no translation". */
  function PhraseTranslation(cache: Table, table: Table, ai: Translator, text: string, lang: TranslationLanguage): (r: (Option<string>, Table))
    ensures lang == NoLanguage ==> r == (None, cache)
    ensures r.0.Some? ==> r.0.value != ""
    ensures r.1 == TranslateText(cache, table, ai, text, lang).cache
  {
    if lang == NoLanguage then (None, cache)
    else
      var a := TranslateText(cache, table, ai, text, lang);
      (if a.text == "" then None else Some(a.text), a.cache)
  }

  /** A phrase has a translation exactly when a language is chosen and the
      lookup finds a non-empty one, and then it is that text. */
  lemma PhraseTranslationAgrees(cache: Table, table: Table, ai: Translator, text: string, lang: TranslationLanguage)
    ensures var r := PhraseTranslation(cache, table, ai, text, lang);
            r.0.Some? <==> lang != NoLanguage && TranslateText(cache, table, ai, text, lang).text != ""
    ensures var r := PhraseTranslation(cache, table, ai, text, lang);
            r.0.Some? ==> r.0.value == TranslateText(cache, table, ai, text, lang).text
  {
  }
}

=== FILE: translation_retry.dfy ===
/** The network side of the translation scripts: the language codes each
    service is asked for, the LibreTranslate instance rotation, the JSON
    values the services answer with, and the bounded retry of
    `translateText` in the LibreTranslate and Google scripts.

    The network is a parameter: `reply(k, …)` is what the `k`-th attempt
    of one call receives. The waits between attempts and the logging are
    left out. */
module TranslationRetry {
  import opened Types
  import opened JsText

  // ---------------------------------------------------------------------
  // Language codes

  /** The code the LibreTranslate script sends: the application's own. */
  function LibreCode(l: TranslationLanguage): string {
    LanguageCode(l)
  }

  /** The code the Google script sends: the application's own, except
      that Chinese is asked for as simplified Chinese. */
  function GoogleCode(l: TranslationLanguage): (r: string)
    ensures l != Zh ==> r == LibreCode(l)
    ensures l == Zh ==> r == "zh-CN"
  {
    if l == Zh then "zh-CN" else LanguageCode(l)
  }

  /** The code the DeepL script sends. */
  function DeepLCode(l: TranslationLanguage): string {
    match l
    case El => "EL" case Es => "ES" case Fr => "FR" case De => "DE"
    case It => "IT" case Pt => "PT" case Ru => "RU" case Zh => "ZH"
    case Ja => "JA" case Ko => "KO" case Ar => "AR" case NoLanguage => "NONE"
  }

  /** DeepL's codes are the application's codes in capitals. */
  lemma DeepLCodeIsUpperCase(l: TranslationLanguage)
    ensures |DeepLCode(l)| == |LanguageCode(l)|
    ensures ToLower(DeepLCode(l)) == LanguageCode(l)
  {
  }

  /** The Google code names the same language as the application's code:
      it starts with it. */
  lemma GoogleCodeExtendsOwnCode(l: TranslationLanguage)
    ensures StartsWith(GoogleCode(l), LanguageCode(l))
  {
  }

  // ---------------------------------------------------------------------
  // LibreTranslate instances

  /** The number of public LibreTranslate instances the script knows. */
  const InstanceCount := 3

  /** `switchInstance`: move to the next instance, wrapping round. */
  function SwitchInstance(i: nat): (r: nat)
    requires i < InstanceCount
    ensures r < InstanceCount
    ensures r != i
  {
    (i + 1) % InstanceCount
  }

  /** The instance in use after `k` switches starting from `start`. */
  function InstanceAfter(start: nat, k: nat): (r: nat)
    requires start < InstanceCount
    ensures r < InstanceCount
  {
    if k == 0 then start else SwitchInstance(InstanceAfter(start, k - 1))
  }

  /** Switching is counting modulo the number of instances. */
  lemma {:induction false} InstanceAfterCycles(start: nat, k: nat)
    requires start < InstanceCount
    ensures InstanceAfter(start, k) == (start + k) % InstanceCount
  {
    if k > 0 {
      InstanceAfterCycles(start, k - 1);
    }
  }

  /** Three switches in a row visit every instance once and come back. */
  lemma SwitchingVisitsEveryInstance(start: nat)
    requires start < InstanceCount
    ensures {InstanceAfter(start, 0), InstanceAfter(start, 1), InstanceAfter(start, 2)} == {0, 1, 2}
    ensures InstanceAfter(start, 3) == start
  {
  }

  // ---------------------------------------------------------------------
  // JSON values and JavaScript truthiness

  /** A value `response.json()` can produce, plus `undefined` for a
      missing property. Numbers are integers. */
  datatype Json =
    | Undefined
    | Null
    | Bool(b: bool)
    | Number(n: int)
    | Str(s: string)
    | Array(items: seq<Json>)
    | Object(fields: map<string, Json>)

  /** JavaScript truthiness. */
  predicate Truthy(v: Json) {
    match v
    case Undefined => false
    case Null => false
    case Bool(b) => b
    case Number(n) => n != 0
    case Str(s) => s != ""
    case Array(_) => true
    case Object(_) => true
  }

  /** `a || b`. */
  function Or(a: Json, b: Json): (r: Json)
    ensures Truthy(a) ==> r == a
    ensures !Truthy(a) ==> r == b
  {
    if Truthy(a) then a else b
  }

  /** `v[0]` on a value that is not `null` or `undefined`: an array's
      first item, a string's first character, an object's property "0",
      and `undefined` otherwise. */
  function First(v: Json): (r: Json)
    requires v != Undefined && v != Null
  {
    match v
    case Array(items) => if |items| > 0 then items[0] else Undefined
    case Str(s) => if |s| > 0 then Str([s[0]]) else Undefined
    case Object(fields) => if "0" in fields then fields["0"] else Undefined
    case _ => Undefined
  }

  /** `v.key` on a value that is not `null` or `undefined`. */
  function Property(v: Json, key: string): Json
    requires v != Undefined && v != Null
  {
    match v
    case Object(fields) => if key in fields then fields[key] else Undefined
    case _ => Undefined
  }

  // ---------------------------------------------------------------------
  // Reading an answer

  /** What the Google script takes from a decoded answer:
      `data[0][0][0]` when each step of the chain is truthy, else `''`. */
  function GoogleText(data: Json): (r: Json)
    ensures r == Str("") || Truthy(r)
  {
    if Truthy(data) && Truthy(First(data)) && Truthy(First(First(data))) then
      Or(First(First(First(data))), Str(""))
    else Str("")
  }

  /** The usual Google answer: an array whose first item is the list of
      sentences, whose first item is the translated sentence first. */
  function GooglePayload(t: string, sentence: seq<Json>, sentences: seq<Json>, rest: seq<Json>): Json {
    Array([Array([Array([Str(t)] + sentence)] + sentences)] + rest)
  }

  /** The usual answer yields its translated text, the empty text included. */
  lemma GoogleTextOfPayload(t: string, sentence: seq<Json>, sentences: seq<Json>, rest: seq<Json>)
    ensures GoogleText(GooglePayload(t, sentence, sentences, rest)) == Str(t)
  {
    var d := GooglePayload(t, sentence, sentences, rest);
    assert First(d) == Array([Array([Str(t)] + sentence)] + sentences);
    assert First(First(d)) == Array([Str(t)] + sentence);
    assert First(First(First(d))) == Str(t);
  }

  /** An answer that is a bare string yields its first character: indexing
      a string three times keeps taking the first character. */
  lemma GoogleTextOfString(s: string)
    ensures GoogleText(Str(s)) == if s == "" then Str("") else Str([s[0]])
  {
  }

  /** An answer without the nested arrays yields the empty string. */
  lemma GoogleTextOfFlat(items: seq<Json>)
    requires forall i :: 0 <= i < |items| ==> items[i].Null? || items[i].Number? || items[i].Bool?
    ensures GoogleText(Array(items)) == Str("")
  {
  }

  /** `data.translatedText || ''`; `None` when reading the property
      throws, which happens when the answer is `null`. */
  function LibreText(data: Json): (r: Option<Json>)
    ensures r.None? <==> data == Null || data == Undefined
    ensures r.Some? ==> r.value == Str("") || Truthy(r.value)
  {
    if data == Null || data == Undefined then None
    else Some(Or(Property(data, "translatedText"), Str("")))
  }

  /** The usual LibreTranslate answer yields its translated text. */
  lemma LibreTextOfAnswer(t: string, fields: map<string, Json>)
    requires "translatedText" in fields && fields["translatedText"] == Str(t)
    ensures LibreText(Object(fields)) == Some(Str(t))
  {
  }

  // ---------------------------------------------------------------------
  // The bounded retries

  /** One attempt's outcome: a decoded answer, a non-OK HTTP status, or an
      exception (the request failed or the body was not JSON). */
  datatype Reply = Delivered(data: Json) | Refused(status: int) | Threw

  /** LibreTranslate moves to the next instance on a rate limit or a
      server error without going through the error handler. */
  predicate Overloaded(r: Reply) {
    r.Refused? && (r.status == 429 || r.status >= 500)
  }

  /** A LibreTranslate attempt that ends the call with an answer. */
  predicate LibreAnswers(r: Reply) {
    r.Delivered? && LibreText(r.data).Some?
  }

  /** The number of attempts `retries` allows. */
  function Allowed(retries: int): nat {
    if retries < 0 then 0 else retries
  }

  /** `translateText` of the LibreTranslate script. The `k`-th attempt
      goes to instance `InstanceAfter(start, k)` and receives
      `reply(k, instance)`; the call returns the text and the instance
      left current for the next call. */
  method TranslateLibre(retries: int, start: nat, reply: (nat, nat) -> Reply)
    returns (text: Json, attempts: nat, current: nat)
    requires start < InstanceCount
    ensures attempts <= Allowed(retries)
    ensures current < InstanceCount
    ensures forall k :: 0 <= k < attempts - 1 ==> !LibreAnswers(reply(k, InstanceAfter(start, k)))
    ensures attempts < Allowed(retries) ==>
              attempts > 0 && LibreAnswers(reply(attempts - 1, InstanceAfter(start, attempts - 1)))
    ensures attempts > 0 && LibreAnswers(reply(attempts - 1, InstanceAfter(start, attempts - 1))) ==>
              Some(text) == LibreText(reply(attempts - 1, InstanceAfter(start, attempts - 1)).data)
    ensures (attempts == 0 || !LibreAnswers(reply(attempts - 1, InstanceAfter(start, attempts - 1)))) ==>
              text == Str("")
    ensures current == InstanceAfter(start, attempts)
         || (attempts > 0 && current == InstanceAfter(start, attempts - 1)
             && !Overloaded(reply(attempts - 1, current)))
  {
    var attempt: nat := 0;
    current := start;
    while attempt < retries
      invariant attempt <= Allowed(retries)
      invariant current == InstanceAfter(start, attempt)
      invariant forall k :: 0 <= k < attempt ==> !LibreAnswers(reply(k, InstanceAfter(start, k)))
    {
      var r := reply(attempt, current);
      if Overloaded(r) {
        current := SwitchInstance(current);
        attempt := attempt + 1;
      } else if LibreAnswers(r) {
        return LibreText(r.data).value, attempt + 1, current;
      } else if attempt < retries - 1 {
        // a refusal that is not an overload, a thrown error, or a `null`
        // answer reaches the error handler, which switches and retries
        current := SwitchInstance(current);
        attempt := attempt + 1;
      } else {
        return Str(""), attempt + 1, current;
      }
    }
    return Str(""), attempt, current;
  }

  /** `translateText` of the Google script. A rate limit and an error both
      use up an attempt; the last attempt's failure gives `''`. */
  method TranslateGoogle(retries: int, reply: nat -> Reply) returns (text: Json, attempts: nat)
    ensures attempts <= Allowed(retries)
    ensures forall k :: 0 <= k < attempts - 1 ==> !reply(k).Delivered?
    ensures attempts < Allowed(retries) ==> attempts > 0 && reply(attempts - 1).Delivered?
    ensures attempts > 0 && reply(attempts - 1).Delivered? ==> text == GoogleText(reply(attempts - 1).data)
    ensures (attempts == 0 || !reply(attempts - 1).Delivered?) ==> text == Str("")
  {
    var attempt: nat := 0;
    while attempt < retries
      invariant attempt <= Allowed(retries)
      invariant forall k :: 0 <= k < attempt ==> !reply(k).Delivered?
    {
      var r := reply(attempt);
      if r.Refused? && r.status == 429 {
        attempt := attempt + 1;
      } else if r.Delivered? {
        return GoogleText(r.data), attempt + 1;
      } else if attempt < retries - 1 {
        attempt := attempt + 1;
      } else {
        return Str(""), attempt + 1;
      }
    }
    return Str(""), attempt;
  }
}

=== FILE: tts.dfy ===
/** The speech adapter's decisions: which engine speaks, what becomes of
    its last error, how a browser utterance settles, what `stop` tears
    down, and which browser voice is chosen for the voice settings. The
    engines themselves (network audio and the browser's synthesiser) are
    outcomes passed in as parameters. */
module Tts {
  import opened Types
  import opened JsText

  // ---------------------------------------------------------------------
  // Voices

  /** A browser voice, as far as the adapter looks at it. */
  datatype Voice = Voice(name: string, lang: string)

  /** `s` contains one of `words`. */
  predicate ContainsAny(s: string, words: seq<string>)
    decreases |words|
  {
    |words| > 0 && (Contains(s, words[0]) || ContainsAny(s, words[1..]))
  }

  lemma {:induction false} ContainsAnyWitness(s: string, words: seq<string>, k: nat)
    requires k < |words| && Contains(s, words[k])
    ensures ContainsAny(s, words)
    decreases k
  {
    if k > 0 {
      ContainsAnyWitness(s, words[1..], k - 1);
    }
  }

  const FemaleMarkers := ["female", "zira", "samantha", "karen", "susan", "linda", "heather", "moira"]
  const MaleMarkers := ["male", "david", "alex", "daniel", "tom", "lee", "james", "thomas", "nick", "oliver", "mark", "kevin"]

  /** `isFemaleVoice`: the lower-cased name mentions a female marker. */
  predicate IsFemaleVoice(v: Voice) {
    ContainsAny(ToLower(v.name), FemaleMarkers)
  }

  /** `isMaleVoice`: the lower-cased name mentions a male marker. */
  predicate IsMaleVoice(v: Voice) {
    ContainsAny(ToLower(v.name), MaleMarkers)
  }

  /** "female" contains "male": a voice called female also reads as male,
      so a female-named voice is never taken as neutral. */
  lemma FemaleNameIsAlsoMale(v: Voice)
    requires Contains(ToLower(v.name), "female")
    ensures IsFemaleVoice(v) && IsMaleVoice(v)
  {
    var s := ToLower(v.name);
    ContainsAnyWitness(s, FemaleMarkers, 0);
    var i := ContainsPosition(s, "female");
    assert s[i + 2..i + 6] == "female"[2..6];
    ContainsAt(s, "male", i + 2);
    ContainsAnyWitness(s, MaleMarkers, 0);
  }

  /** The region code looked for in a voice's language tag. */
  function AccentCode(a: VoiceAccent): string {
    match a
    case British => "GB"
    case American => "US"
    case Australian => "AU"
    case Irish => "IE"
    case Canadian => "CA"
  }

  predicate English(v: Voice) {
    StartsWith(v.lang, "en")
  }

  // ---------------------------------------------------------------------
  // Scoring

  function GenderScore(v: Voice, gender: VoiceGender): int {
    var female, male := IsFemaleVoice(v), IsMaleVoice(v);
    match gender
    case Female => if female then 50 else if male then -50 else 0
    case Male => if male then 50 else if female then -50 else 0
  }

  /** `scoreVoice`. */
  function ScoreVoice(v: Voice, s: VoiceSettings): (r: int)
    ensures -75 <= r <= 90
  {
    var name := ToLower(v.name);
    GenderScore(v, s.gender)
    + (if Contains(v.lang, AccentCode(s.accent)) || Contains(v.lang, "en") then 20 else 0)
    + (if ContainsAny(name, ["google", "microsoft", "apple", "siri"]) then 15 else 0)
    - (if Contains(name, "default") then 5 else 0)
    - (if ContainsAny(name, ["espeak", "festival"]) then 20 else 0)
    + (if English(v) then 5 else 0)
  }

  /** The voice's gender as the settings ask for it. */
  predicate GenderMatches(v: Voice, gender: VoiceGender) {
    match gender
    case Female => IsFemaleVoice(v)
    case Male => IsMaleVoice(v)
  }

  /** The voice only reads as the other gender. */
  predicate GenderClashes(v: Voice, gender: VoiceGender) {
    match gender
    case Female => IsMaleVoice(v) && !IsFemaleVoice(v)
    case Male => IsFemaleVoice(v) && !IsMaleVoice(v)
  }

  /** The gender term outweighs all the others together: a voice of the
      asked gender always outscores one that only reads as the other. */
  lemma GenderDominates(v: Voice, w: Voice, s: VoiceSettings)
    requires GenderMatches(v, s.gender) && GenderClashes(w, s.gender)
    ensures ScoreVoice(v, s) > ScoreVoice(w, s)
  {
  }

  // ---------------------------------------------------------------------
  // Finding a voice

  /** `voices.find(pred)`. */
  function FindFirst(voices: seq<Voice>, pred: Voice -> bool): (r: Option<Voice>)
    ensures r.Some? ==> r.value in voices && pred(r.value)
    ensures r.None? <==> forall v :: v in voices ==> !pred(v)
  {
    if |voices| == 0 then None
    else if pred(voices[0]) then Some(voices[0])
    else FindFirst(voices[1..], pred)
  }

  /** With no voice before position `k` passing, and the one at `k`
      passing, `find` returns that one. */
  lemma {:induction false} FindFirstAt(voices: seq<Voice>, pred: Voice -> bool, k: nat)
    requires k < |voices| && pred(voices[k])
    requires forall j :: 0 <= j < k ==> !pred(voices[j])
    ensures FindFirst(voices, pred) == Some(voices[k])
    decreases k
  {
    if k > 0 {
      assert !pred(voices[0]);
      FindFirstAt(voices[1..], pred, k - 1);
    }
  }

  /** The preferred voice names for an accent and a gender. */
  function PreferredNames(a: VoiceAccent, g: VoiceGender): seq<string> {
    match (a, g)
    case (British, Female) => ["Google UK English Female", "Microsoft Zira - English (United Kingdom)", "Samantha"]
    case (British, Male) => ["Google UK English Male", "Microsoft David - English (United Kingdom)", "Daniel"]
    case (American, Female) => ["Google US English Female", "Microsoft Zira - English (United States)", "Samantha", "Karen"]
    case (American, Male) => ["Google US English Male", "Microsoft David - English (United States)", "Alex", "Daniel"]
    case (Australian, Female) => ["Google Australian English Female", "Microsoft Zira - English (Australia)"]
    case (Australian, Male) => ["Google Australian English Male", "Microsoft David - English (Australia)"]
    case (Irish, Female) => ["Google Irish English Female", "Microsoft Zira - English (Ireland)"]
    case (Irish, Male) => ["Google Irish English Male", "Microsoft David - English (Ireland)"]
    case (Canadian, Female) => ["Google Canadian English Female", "Microsoft Zira - English (Canada)"]
    case (Canadian, Male) => ["Google Canadian English Male", "Microsoft David - English (Canada)"]
  }

  predicate CanadianMale(s: VoiceSettings) {
    s.accent == Canadian && s.gender == Male
  }

  /** A voice accepted for a preferred name: the name contains it, the
      language has the region or "en", and for a Canadian male voice the
      name must not read as female. */
  predicate PreferredOk(v: Voice, preferredName: string, s: VoiceSettings) {
    && Contains(v.name, preferredName)
    && (Contains(v.lang, AccentCode(s.accent)) || Contains(v.lang, "en"))
    && !(CanadianMale(s) && IsFemaleVoice(v))
  }

  /** The first stage: each preferred name in turn, the first voice
      accepted for it. */
  function PreferredStage(voices: seq<Voice>, names: seq<string>, s: VoiceSettings): (r: Option<Voice>)
    ensures r.Some? ==> r.value in voices && exists n :: n in names && PreferredOk(r.value, n, s)
    ensures r.None? ==> forall n, v :: n in names && v in voices ==> !PreferredOk(v, n, s)
    decreases |names|
  {
    if |names| == 0 then None
    else
      var found := FindFirst(voices, v => PreferredOk(v, names[0], s));
      if found.Some? then found else PreferredStage(voices, names[1..], s)
  }

  /** The language tag carries the accent's region. */
  predicate HasAccent(v: Voice, s: VoiceSettings) {
    || Contains(v.lang, AccentCode(s.accent))
    || (s.accent == Canadian && Contains(v.lang, "en-CA"))
    || (s.accent == Australian && Contains(v.lang, "en-AU"))
    || (s.accent == Irish && Contains(v.lang, "en-IE"))
  }

  /** The second stage: the accent, and for a female voice a female or
      neutral name, for a male voice a name that reads male and not
      female. */
  predicate AccentAndGenderOk(v: Voice, s: VoiceSettings) {
    && HasAccent(v, s)
    && match s.gender
       case Female => IsFemaleVoice(v) || (!IsMaleVoice(v) && !IsFemaleVoice(v))
       case Male => IsMaleVoice(v) && !IsFemaleVoice(v)
  }

  /** Male settings refuse a voice that reads female; female take any. */
  predicate GenderTolerated(v: Voice, s: VoiceSettings) {
    s.gender == Male ==> !IsFemaleVoice(v)
  }

  /** The third stage: the accent alone, gender tolerated. */
  predicate AccentOk(v: Voice, s: VoiceSettings) {
    HasAccent(v, s) && GenderTolerated(v, s)
  }

  /** The fourth stage: any English voice, gender tolerated. */
  predicate EnglishOk(v: Voice, s: VoiceSettings) {
    English(v) && GenderTolerated(v, s)
  }

  /** The last stage: the English voices sorted by score, highest first,
      and the head taken; the sort is stable, so this is the first English
      voice of highest score. */
  function BestScored(voices: seq<Voice>, s: VoiceSettings): (r: Option<Voice>)
    ensures r.Some? ==> r.value in voices && English(r.value)
    ensures r.Some? ==> forall w :: w in voices && English(w) ==> ScoreVoice(w, s) <= ScoreVoice(r.value, s)
    ensures r.None? <==> forall w :: w in voices ==> !English(w)
    decreases |voices|
  {
    if |voices| == 0 then None
    else
      var rest := BestScored(voices[1..], s);
      if !English(voices[0]) then rest
      else if rest.Some? && ScoreVoice(rest.value, s) > ScoreVoice(voices[0], s) then rest
      else Some(voices[0])
  }

  /** Ties go to the earlier voice: every English voice before the chosen
      one scores strictly less. */
  lemma {:induction false} BestScoredIsFirst(voices: seq<Voice>, s: VoiceSettings, j: nat)
    requires BestScored(voices, s).Some? && j < |voices| && English(voices[j])
    requires voices[j] != BestScored(voices, s).value
    requires forall k :: 0 <= k <= j ==> voices[k] != BestScored(voices, s).value
    ensures ScoreVoice(voices[j], s) < ScoreVoice(BestScored(voices, s).value, s)
    decreases j
  {
    var rest := BestScored(voices[1..], s);
    if j == 0 {
    } else {
      assert voices[0] != BestScored(voices, s).value;
      if English(voices[0]) {
        assert rest.Some?;
      }
      assert BestScored(voices, s) == rest;
      assert voices[1..][j - 1] == voices[j];
      BestScoredIsFirst(voices[1..], s, j - 1);
    }
  }

  /** `findVoice`: the stages in order, the third and fourth skipped for a
      Canadian male voice. A stage decides only when every earlier stage
      accepts no installed voice, and then returns a voice it accepts. */
  function FindVoice(voices: seq<Voice>, s: VoiceSettings): (r: Option<Voice>)
    ensures r.Some? ==> r.value in voices
    ensures var pre := PreferredStage(voices, PreferredNames(s.accent, s.gender), s);
            pre.Some? ==> r == pre
    ensures PreferredStage(voices, PreferredNames(s.accent, s.gender), s).None?
            && (exists v :: v in voices && AccentAndGenderOk(v, s)) ==>
              r.Some? && AccentAndGenderOk(r.value, s)
    ensures PreferredStage(voices, PreferredNames(s.accent, s.gender), s).None?
            && (forall v :: v in voices ==> !AccentAndGenderOk(v, s))
            && !CanadianMale(s) && (exists v :: v in voices && AccentOk(v, s)) ==>
              r.Some? && AccentOk(r.value, s)
    ensures PreferredStage(voices, PreferredNames(s.accent, s.gender), s).None?
            && (forall v :: v in voices ==> !AccentAndGenderOk(v, s))
            && !CanadianMale(s) && (forall v :: v in voices ==> !AccentOk(v, s))
            && (exists v :: v in voices && EnglishOk(v, s)) ==>
              r.Some? && EnglishOk(r.value, s)
    ensures PreferredStage(voices, PreferredNames(s.accent, s.gender), s).None?
            && (forall v :: v in voices ==> !AccentAndGenderOk(v, s))
            && (CanadianMale(s) || forall v :: v in voices ==> !AccentOk(v, s) && !EnglishOk(v, s)) ==>
              r == BestScored(voices, s)
  {
    var preferred := PreferredStage(voices, PreferredNames(s.accent, s.gender), s);
    if preferred.Some? then preferred
    else
      var second := FindFirst(voices, v => AccentAndGenderOk(v, s));
      if second.Some? then second
      else
        var third := if CanadianMale(s) then None else FindFirst(voices, v => AccentOk(v, s));
        if third.Some? then third
        else
          var fourth := if CanadianMale(s) then None else FindFirst(voices, v => EnglishOk(v, s));
          if fourth.Some? then fourth
          else BestScored(voices, s)
  }

  /** Position `k` holds the first voice, in list order, that `pred`
      accepts. */
  predicate FirstAccepted(voices: seq<Voice>, pred: Voice -> bool, k: nat) {
    && k < |voices|
    && pred(voices[k])
    && forall j :: 0 <= j < k ==> !pred(voices[j])
  }

  /** Names are tried in list order: when no installed voice is accepted
      for any name before `names[i]`, the stage returns the first voice in
      list order that is accepted for `names[i]`. */
  lemma {:induction false} PreferredStageInOrder(voices: seq<Voice>, names: seq<string>, s: VoiceSettings, i: nat, k: nat)
    requires i < |names|
    requires forall j, v :: 0 <= j < i && v in voices ==> !PreferredOk(v, names[j], s)
    requires FirstAccepted(voices, v => PreferredOk(v, names[i], s), k)
    ensures PreferredStage(voices, names, s) == Some(voices[k])
    decreases i
  {
    if i == 0 {
      FindFirstAt(voices, v => PreferredOk(v, names[0], s), k);
    } else {
      assert forall v :: v in voices ==> !PreferredOk(v, names[0], s);
      assert FindFirst(voices, v => PreferredOk(v, names[0], s)).None?;
      assert names[1..][i - 1] == names[i];
      PreferredStageInOrder(voices, names[1..], s, i - 1, k);
    }
  }

  /** The first stage of `findVoice` chooses by name order, then by voice
      order. */
  lemma FindVoicePreferredInOrder(voices: seq<Voice>, s: VoiceSettings, i: nat, k: nat)
    requires i < |PreferredNames(s.accent, s.gender)|
    requires forall j, v :: 0 <= j < i && v in voices ==> !PreferredOk(v, PreferredNames(s.accent, s.gender)[j], s)
    requires FirstAccepted(voices, v => PreferredOk(v, PreferredNames(s.accent, s.gender)[i], s), k)
    ensures FindVoice(voices, s) == Some(voices[k])
  {
    PreferredStageInOrder(voices, PreferredNames(s.accent, s.gender), s, i, k);
  }

  /** The later stages are `find` calls as well: once the earlier stages
      accept nothing, each returns the first voice in list order that it
      accepts. */
  lemma FindVoiceSecondInOrder(voices: seq<Voice>, s: VoiceSettings, k: nat)
    requires PreferredStage(voices, PreferredNames(s.accent, s.gender), s).None?
    requires FirstAccepted(voices, v => AccentAndGenderOk(v, s), k)
    ensures FindVoice(voices, s) == Some(voices[k])
  {
    FindFirstAt(voices, v => AccentAndGenderOk(v, s), k);
  }

  lemma FindVoiceThirdInOrder(voices: seq<Voice>, s: VoiceSettings, k: nat)
    requires PreferredStage(voices, PreferredNames(s.accent, s.gender), s).None?
    requires forall v :: v in voices ==> !AccentAndGenderOk(v, s)
    requires !CanadianMale(s)
    requires FirstAccepted(voices, v => AccentOk(v, s), k)
    ensures FindVoice(voices, s) == Some(voices[k])
  {
    assert FindFirst(voices, v => AccentAndGenderOk(v, s)).None?;
    FindFirstAt(voices, v => AccentOk(v, s), k);
  }

  lemma FindVoiceFourthInOrder(voices: seq<Voice>, s: VoiceSettings, k: nat)
    requires PreferredStage(voices, PreferredNames(s.accent, s.gender), s).None?
    requires forall v :: v in voices ==> !AccentAndGenderOk(v, s) && !AccentOk(v, s)
    requires !CanadianMale(s)
    requires FirstAccepted(voices, v => EnglishOk(v, s), k)
    ensures FindVoice(voices, s) == Some(voices[k])
  {
    assert FindFirst(voices, v => AccentAndGenderOk(v, s)).None?;
    assert FindFirst(voices, v => AccentOk(v, s)).None?;
    FindFirstAt(voices, v => EnglishOk(v, s), k);
  }

  /** Some voice is found whenever an English voice is installed; none is
      found only when no stage accepts any voice. */
  lemma FindVoiceNone(voices: seq<Voice>, s: VoiceSettings)
    ensures FindVoice(voices, s).None? <==>
              && PreferredStage(voices, PreferredNames(s.accent, s.gender), s).None?
              && (forall v :: v in voices ==> !AccentAndGenderOk(v, s))
              && (!CanadianMale(s) ==> forall v :: v in voices ==> !AccentOk(v, s))
              && (forall v :: v in voices ==> !English(v))
  {
  }

  /** After the preferred names, a male voice setting ends with a voice
      that reads female only when no installed voice of the accent reads
      male and not female, and, outside Canada, only when every English
      voice reads female. */
  lemma MaleSettingsAvoidFemale(voices: seq<Voice>, s: VoiceSettings)
    requires s.gender == Male
    requires PreferredStage(voices, PreferredNames(s.accent, s.gender), s).None?
    requires FindVoice(voices, s).Some? && IsFemaleVoice(FindVoice(voices, s).value)
    ensures forall v :: v in voices && HasAccent(v, s) ==> !(IsMaleVoice(v) && !IsFemaleVoice(v))
    ensures !CanadianMale(s) ==> forall v :: v in voices && English(v) ==> IsFemaleVoice(v)
    ensures FindVoice(voices, s) == BestScored(voices, s)
  {
    assert FindFirst(voices, v => AccentAndGenderOk(v, s)).None?;
    if !CanadianMale(s) {
      assert FindFirst(voices, v => AccentOk(v, s)).None?;
      assert FindFirst(voices, v => EnglishOk(v, s)).None?;
    }
  }

  /** The last stage does not skip Canadian male settings: with only a
      female English voice installed, that voice is chosen. */
  lemma CanadianMaleMayGetFemaleVoice(v: Voice, s: VoiceSettings)
    requires CanadianMale(s) && English(v) && IsFemaleVoice(v)
    requires forall n :: n in PreferredNames(s.accent, s.gender) ==> !PreferredOk(v, n, s)
    ensures FindVoice([v], s) == Some(v)
  {
    assert !AccentAndGenderOk(v, s);
  }

  // ---------------------------------------------------------------------
  // Speaking

  datatype Engine = ElevenLabsEngine | BrowserEngine

  /** How the network voice call ends: audio played to the end, or an
      error (`message` is None when what was thrown is not an `Error`). */
  datatype ElevenResult = ElevenPlayed | ElevenFailed(message: Option<string>)

  /** How a browser utterance ends: its end event; a cancel before the
      short start delay ran out, so that it is never spoken; or its error
      event, with whether it had been cancelled and whether the
      synthesiser still reported speaking. */
  datatype UtteranceEnd = Ended | CancelledBeforeStart | Errored(cancelled: bool, stillSpeaking: bool)

  datatype Settlement = Resolved | Rejected

  /** The utterance handed to the synthesiser: the voice found for the
      settings, if any, the rate in tenths and the pitch in hundredths. */
  datatype Utterance = Utterance(voice: Option<Voice>, rateTenths: nat, pitchHundredths: nat)

  /** Slow, normal and fast speech: 0.7, 1.0 and 1.3. */
  function RateTenths(rate: SpeechRate): (r: nat)
    ensures r < 10 <==> rate == Slow
    ensures r == 10 <==> rate == Normal
    ensures r > 10 <==> rate == Fast
  {
    match rate
    case Slow => 7
    case Normal => 10
    case Fast => 13
  }

  /** The pitch: lowered for a male voice, lowered further for a Canadian
      male one, raised for a female one. */
  function PitchHundredths(s: VoiceSettings): (r: nat)
    ensures s.gender == Male <==> r < 100
    ensures CanadianMale(s) <==> r < 90
  {
    if CanadianMale(s) then 85
    else if s.gender == Male then 90
    else 105
  }

  /** One engine call made by `speak`. */
  datatype Attempt = ElevenAttempt | BrowserAttempt(provider: VoiceProvider, preserveError: bool)

  /** The adapter's observable memory: the last engine used, the last
      error. */
  datatype Memory = Memory(lastEngine: Option<Engine>, lastError: Option<string>)

  /** What one browser call did: the memory it leaves, the utterance it
      spoke, if any, and how its promise settles. */
  datatype BrowserCall = BrowserCall(memory: Memory, spoken: Option<Utterance>, settlement: Settlement)

  /** What one `speak` call did. */
  datatype Spoken = Spoken(attempts: seq<Attempt>, memory: Memory, spoken: Option<Utterance>, settlement: Settlement)

  /** The environment: whether the network voice is configured, whether
      the browser can speak, its installed voices, and how each engine's
      call ends. */
  datatype Environment = Environment(proxyEnabled: bool, supported: bool, voices: seq<Voice>,
                                     eleven: ElevenResult, utterance: UtteranceEnd)

  /** `speakBrowser`: the engine is recorded and the error cleared unless
      kept; without synthesis support it resolves at once; otherwise the
      utterance carries the found voice, the rate and the pitch, and an
      utterance error resolves when it was cancelled or speech had
      stopped, and rejects otherwise. */
  function SpeakBrowser(m: Memory, s: VoiceSettings, preserveError: bool, env: Environment): (r: BrowserCall)
    ensures r.memory.lastEngine == Some(BrowserEngine)
    ensures r.memory.lastError == if preserveError then m.lastError else None
    ensures r.spoken.Some? <==> env.supported && env.utterance != CancelledBeforeStart
    ensures r.spoken.Some? ==> && r.spoken.value.rateTenths == RateTenths(s.rate)
                               && r.spoken.value.pitchHundredths == PitchHundredths(s)
                               && (r.spoken.value.voice.Some? ==> r.spoken.value.voice.value in env.voices)
    ensures r.settlement == Rejected <==> env.supported && env.utterance == Errored(false, true)
  {
    var m' := Memory(Some(BrowserEngine), if preserveError then m.lastError else None);
    if !env.supported then BrowserCall(m', None, Resolved)
    else
      var u := Utterance(FindVoice(env.voices, s), RateTenths(s.rate), PitchHundredths(s));
      match env.utterance
      case Ended => BrowserCall(m', Some(u), Resolved)
      case CancelledBeforeStart => BrowserCall(m', None, Resolved)
      case Errored(cancelled, speaking) =>
        BrowserCall(m', Some(u), if cancelled || !speaking then Resolved else Rejected)
  }

  const NotConfigured := "ElevenLabs not configured"

  /** The message recorded for a failed network call. */
  function FailureMessage(e: ElevenResult): string
    requires e.ElevenFailed?
  {
    if e.message.Some? then e.message.value else "ElevenLabs error"
  }

  /** The network voice first; on success the engine is recorded and the
      error cleared; on failure its message is kept and the browser speaks
      once, as provider `browser`, keeping that message. */
  function SpeakElevenLabs(m: Memory, s: VoiceSettings, env: Environment): (r: Spoken)
    ensures env.eleven.ElevenPlayed? ==>
              r.attempts == [ElevenAttempt] && r.memory == Memory(Some(ElevenLabsEngine), None)
              && r.spoken.None? && r.settlement == Resolved
    ensures env.eleven.ElevenFailed? ==>
              && r.attempts == [ElevenAttempt, BrowserAttempt(Browser, true)]
              && r.memory == Memory(Some(BrowserEngine), Some(FailureMessage(env.eleven)))
  {
    match env.eleven
    case ElevenPlayed => Spoken([ElevenAttempt], Memory(Some(ElevenLabsEngine), None), None, Resolved)
    case ElevenFailed(_) =>
      var b := SpeakBrowser(m.(lastError := Some(FailureMessage(env.eleven))), s.(provider := Browser), true, env);
      Spoken([ElevenAttempt, BrowserAttempt(Browser, true)], b.memory, b.spoken, b.settlement)
  }

  /** `speak` as written: on the unconfigured path the message is stored
      and then cleared by the browser call that follows. */
  function SpeakAsWritten(m: Memory, s: VoiceSettings, env: Environment): (r: Spoken)
    ensures ElevenAttempt in r.attempts <==> s.provider == ElevenLabs && env.proxyEnabled
    ensures !(s.provider == ElevenLabs && env.proxyEnabled) ==>
              r.memory == Memory(Some(BrowserEngine), None)
  {
    if s.provider == ElevenLabs && env.proxyEnabled then SpeakElevenLabs(m, s, env)
    else
      var m1 := if s.provider == ElevenLabs then m.(lastError := Some(NotConfigured)) else m;
      var b := SpeakBrowser(m1, s, false, env);
      Spoken([BrowserAttempt(s.provider, false)], b.memory, b.spoken, b.settlement)
  }

  /** `speak`, with the unconfigured-provider message kept through the
      browser call. */
  function Speak(m: Memory, s: VoiceSettings, env: Environment): (r: Spoken)
    ensures ElevenAttempt in r.attempts <==> s.provider == ElevenLabs && env.proxyEnabled
    ensures s.provider == ElevenLabs && !env.proxyEnabled ==>
              r.memory == Memory(Some(BrowserEngine), Some(NotConfigured))
    ensures s.provider != ElevenLabs ==> r.memory == Memory(Some(BrowserEngine), None)
  {
    if s.provider == ElevenLabs && env.proxyEnabled then SpeakElevenLabs(m, s, env)
    else
      var notConfigured := s.provider == ElevenLabs;
      var m1 := if notConfigured then m.(lastError := Some(NotConfigured)) else m;
      var b := SpeakBrowser(m1, s, notConfigured, env);
      Spoken([BrowserAttempt(s.provider, notConfigured)], b.memory, b.spoken, b.settlement)
  }

  /** The routing: the network voice is tried exactly when it is chosen
      and configured; it is tried once, and the browser at most once after
      it, as provider `browser`, only after a failure, whose message is
      then the last error; success clears the error and speaks nothing in
      the browser. */
  lemma SpeakRouting(m: Memory, s: VoiceSettings, env: Environment)
    ensures var r := Speak(m, s, env);
            && (ElevenAttempt in r.attempts <==> s.provider == ElevenLabs && env.proxyEnabled)
            && 1 <= |r.attempts| <= 2
            && (|r.attempts| == 2 <==> s.provider == ElevenLabs && env.proxyEnabled && env.eleven.ElevenFailed?)
            && (|r.attempts| == 2 ==> (&& r.attempts[1] == BrowserAttempt(Browser, true)
                                       && r.memory.lastError == Some(FailureMessage(env.eleven))))
            && (r.attempts == [ElevenAttempt] ==> (&& r.memory == Memory(Some(ElevenLabsEngine), None)
                                                  && r.spoken.None? && r.settlement == Resolved))
  {
  }

  /** Choosing the network voice without configuring it leaves its message
      as the last error, and the browser speaks. */
  lemma NotConfiguredIsReported(m: Memory, s: VoiceSettings, env: Environment)
    requires s.provider == ElevenLabs && !env.proxyEnabled
    ensures var r := Speak(m, s, env);
            r.memory.lastError == Some(NotConfigured) && r.memory.lastEngine == Some(BrowserEngine)
  {
  }

  /** As written, the message is gone by the time `speak` returns. */
  lemma NotConfiguredMessageLost(m: Memory, s: VoiceSettings, env: Environment)
    requires s.provider == ElevenLabs && !env.proxyEnabled
    ensures SpeakAsWritten(m, s, env).memory.lastError == None
    ensures Speak(m, s, env).memory.lastError == Some(NotConfigured)
  {
  }

  /** Outside that path the two agree. */
  lemma SpeakAgreesElsewhere(m: Memory, s: VoiceSettings, env: Environment)
    requires !(s.provider == ElevenLabs && !env.proxyEnabled)
    ensures SpeakAsWritten(m, s, env) == Speak(m, s, env)
  {
  }

  /** `speak` rejects only when the browser spoke last and its utterance
      failed while still speaking and not cancelled; a network failure on
      its own never rejects. */
  lemma SpeakRejectsOnlyOnLiveUtteranceError(m: Memory, s: VoiceSettings, env: Environment)
    ensures Speak(m, s, env).settlement == Rejected <==>
              && !(s.provider == ElevenLabs && env.proxyEnabled && env.eleven == ElevenPlayed)
              && env.supported && env.utterance == Errored(false, true)
  {
  }

  /** `isAvailable`. */
  predicate IsAvailable(s: VoiceSettings, proxyEnabled: bool, supported: bool) {
    if s.provider == ElevenLabs then proxyEnabled || supported else supported
  }

  /** When speech is not available, `speak` resolves without any sound;
      when it is, something is tried that can make one. */
  lemma UnavailableIsSilent(m: Memory, s: VoiceSettings, env: Environment)
    ensures var r := Speak(m, s, env);
            !IsAvailable(s, env.proxyEnabled, env.supported) <==>
              r.spoken.None? && r.settlement == Resolved && ElevenAttempt !in r.attempts && !env.supported
  {
  }

  // ---------------------------------------------------------------------
  // Stopping

  /** What is in flight: a pending network request, a playing audio
      element. */
  datatype Handles = Handles(pendingRequest: bool, playingAudio: bool)

  datatype StopAction = AbortRequest | PauseAudio | CancelSynth

  /** `stop`: abort the request, pause the audio, cancel the synthesiser
      if there is one. */
  function Stop(h: Handles, hasSynth: bool): (r: (Handles, seq<StopAction>))
    ensures r.0 == Handles(false, false)
    ensures AbortRequest in r.1 <==> h.pendingRequest
    ensures PauseAudio in r.1 <==> h.playingAudio
    ensures CancelSynth in r.1 <==> hasSynth
  {
    (Handles(false, false),
     (if h.pendingRequest then [AbortRequest] else [])
     + (if h.playingAudio then [PauseAudio] else [])
     + (if hasSynth then [CancelSynth] else []))
  }

  /** Stopping twice: the second stop finds nothing in flight and only
      cancels the synthesiser again. */
  lemma StopIdempotent(h: Handles, hasSynth: bool)
    ensures var first := Stop(h, hasSynth);
            var second := Stop(first.0, hasSynth);
            second.0 == first.0 && second.1 == (if hasSynth then [CancelSynth] else [])
  {
  }
}

=== FILE: types.dfy ===
/** The application's value objects: phrases, playback settings and voice
    settings, with the bounds the settings sliders impose. */
module Types {

  datatype Option<+T> = None | Some(value: T)

  /** The eighteen phrase categories. */
  datatype Category =
    | Business | Travel | Sport | Meetings | DailyConversation | JobInterview
    | Academic | Medical | Restaurant | Shopping | Technology | SocialMedia
    | Questions | Family | Emergency | Education | Entertainment | HealthFitness

  /** The identifier the application uses for each category. */
  function CategoryId(c: Category): string {
    match c
    case Business => "business"
    case Travel => "travel"
    case Sport => "sport"
    case Meetings => "meetings"
    case DailyConversation => "daily-conversation"
    case JobInterview => "job-interview"
    case Academic => "academic"
    case Medical => "medical"
    case Restaurant => "restaurant"
    case Shopping => "shopping"
    case Technology => "technology"
    case SocialMedia => "social-media"
    case Questions => "questions"
    case Family => "family"
    case Emergency => "emergency"
    case Education => "education"
    case Entertainment => "entertainment"
    case HealthFitness => "health-fitness"
  }

  datatype VoiceGender = Male | Female
  datatype VoiceAccent = British | American | Australian | Irish | Canadian
  datatype SpeechRate = Slow | Normal | Fast
  datatype VoiceProvider = Browser | ElevenLabs

  datatype TranslationLanguage = El | Es | Fr | De | It | Pt | Ru | Zh | Ja | Ko | Ar | NoLanguage

  /** The language codes the application uses; `NoLanguage` is `none`. */
  function LanguageCode(l: TranslationLanguage): string {
    match l
    case El => "el" case Es => "es" case Fr => "fr" case De => "de"
    case It => "it" case Pt => "pt" case Ru => "ru" case Zh => "zh"
    case Ja => "ja" case Ko => "ko" case Ar => "ar" case NoLanguage => "none"
  }

  datatype VoiceSettings = VoiceSettings(
    gender: VoiceGender,
    accent: VoiceAccent,
    rate: SpeechRate,
    provider: VoiceProvider)

  datatype ShadowingSettings = ShadowingSettings(repetitions: int, intervalSeconds: int)

  datatype PhraseSource = Standard | AiGenerated | Uploaded

  /** A phrase; `translation`, `source` and `isFavorite` are optional in the
      application, and an absent favourite flag reads as false. */
  datatype Phrase = Phrase(
    id: string,
    text: string,
    category: Category,
    translation: Option<string>,
    source: Option<PhraseSource>,
    isFavorite: Option<bool>)
  {
    predicate Favourite() { isFavorite == Some(true) }
  }

  const MinRepetitions := 1
  const MaxRepetitions := 10
  const MinIntervalSeconds := 2
  const MaxIntervalSeconds := 30

  /** The ranges the settings sliders allow. */
  predicate ValidSettings(s: ShadowingSettings) {
    && MinRepetitions <= s.repetitions <= MaxRepetitions
    && MinIntervalSeconds <= s.intervalSeconds <= MaxIntervalSeconds
  }
}

=== FILE: url_mapping.dfy ===
/** Conversion between the category slugs that appear in page URLs and the
    categories themselves. */
module UrlMapping {
  import opened Types

  /** The slug → category table. Every category is listed under its own
      identifier except `business`, which is listed as `business-english`. */
  const UrlToCategoryMap: map<string, Category> := map[
    "business-english" := Business,
    "daily-conversation" := DailyConversation,
    "job-interview" := JobInterview,
    "social-media" := SocialMedia,
    "health-fitness" := HealthFitness,
    "travel" := Travel,
    "sport" := Sport,
    "meetings" := Meetings,
    "academic" := Academic,
    "medical" := Medical,
    "restaurant" := Restaurant,
    "shopping" := Shopping,
    "technology" := Technology,
    "questions" := Questions,
    "family" := Family,
    "emergency" := Emergency,
    "education" := Education,
    "entertainment" := Entertainment
  ]

  /** `categoryToUrlSlug`: the table entry, which exists and is non-empty
      for every category, so the `|| category` fallback never applies. The
      slug is the category's own identifier for every category but
      `business`. */
  function CategoryToUrlSlug(c: Category): (slug: string)
    ensures |slug| > 0
    ensures slug == CategoryId(c) <==> c != Business
  {
    if c == Business then "business-english" else CategoryId(c)
  }

  /** `urlSlugToCategory`, reading only the table's own entries. */
  function UrlSlugToCategory(slug: string): (r: Option<Category>)
    ensures r.Some? ==> CategoryToUrlSlug(r.value) == slug
    ensures r.None? <==> forall c :: CategoryToUrlSlug(c) != slug
  {
    if slug in UrlToCategoryMap then Some(UrlToCategoryMap[slug]) else None
  }

  /** Every category survives the trip to its slug and back. */
  lemma SlugRoundTrip(c: Category)
    ensures UrlSlugToCategory(CategoryToUrlSlug(c)) == Some(c)
  {
  }

  /** A slug that names a category is that category's slug. */
  lemma SlugInverse(slug: string, c: Category)
    requires UrlSlugToCategory(slug) == Some(c)
    ensures CategoryToUrlSlug(c) == slug
  {
  }

  /** Distinct categories have distinct slugs. */
  lemma SlugsDistinct(a: Category, b: Category)
    requires a != b
    ensures CategoryToUrlSlug(a) != CategoryToUrlSlug(b)
  {
    SlugRoundTrip(a);
    SlugRoundTrip(b);
  }

  /** A slug maps to nothing exactly when no category has it as its slug;
      the bare `business` is such a slug. */
  lemma UnknownSlug(slug: string)
    ensures UrlSlugToCategory(slug).None? <==> forall c: Category :: CategoryToUrlSlug(c) != slug
    ensures UrlSlugToCategory("business").None?
  {
    if UrlSlugToCategory(slug).Some? {
      SlugInverse(slug, UrlSlugToCategory(slug).value);
    } else {
      forall c: Category ensures CategoryToUrlSlug(c) != slug {
        SlugRoundTrip(c);
      }
    }
  }

  // The lookup as written indexes a plain object, so a slug naming a
  // property every object inherits reaches that property instead of
  // `undefined`; those values are truthy and pass the `|| null`.

  /** The properties every object literal inherits. */
  const InheritedProperties: set<string> := {
    "constructor", "hasOwnProperty", "isPrototypeOf", "propertyIsEnumerable",
    "toLocaleString", "toString", "valueOf", "__proto__",
    "__defineGetter__", "__defineSetter__", "__lookupGetter__", "__lookupSetter__"
  }

  /** What `urlToCategoryMap[slug] || null` evaluates to. */
  datatype Lookup = Found(category: Category) | InheritedMember(name: string) | Null

  function UrlSlugToCategoryAsWritten(slug: string): (r: Lookup)
    ensures r.Found? <==> UrlSlugToCategory(slug).Some?
    ensures r.Found? ==> UrlSlugToCategory(slug) == Some(r.category)
  {
    if slug in UrlToCategoryMap then Found(UrlToCategoryMap[slug])
    else if slug in InheritedProperties then InheritedMember(slug)
    else Null
  }

  /** `/toString` yields neither a category nor null. */
  lemma InheritedSlugEscapes()
    ensures UrlSlugToCategoryAsWritten("toString") == InheritedMember("toString")
    ensures UrlSlugToCategory("toString").None?
  {
  }
}
